=== FILE: README.md ===
# QAPI console and workers, modelled in Dafny

QAPI is a browser console for trying out HTTP, GraphQL and WebSocket APIs. It
comes with two Cloudflare workers. This project models the parts of the three
that have behaviour worth stating, and proves properties of them.

- **The request console** (`src/App.jsx`). It keeps a library of saved
  requests (presets) with add, update and delete, and an active selection.
  It builds the request a run sends: normalised headers, bearer and API-key
  injection, the query string, and the method and body. It routes each
  outcome either to the response panel and a 20-entry history, or, for a
  silent monitor ping, to a last-ping map. It also holds the monitor tick and
  the WebSocket session (connect, the four socket events, send).
- **The contact worker** (`workers/contact-api/worker.js`). It parses the
  origin allow-list and chooses the CORS origin. It cleans and validates a
  contact form, and decides in a fixed order between 404, 204, 405, 403, 400,
  the honeypot's silent 200, and the provider's 200, 502 or 500. It also
  assembles the e-mail's text and HTML bodies.
- **The CI-event ingest worker** (`workers/ci-observability-ingest/worker.js`).
  It reads the bearer token and checks the event's shape. It sanitises the
  key segments and builds the time-partitioned storage key. It decides
  between 200, 404, 405, 500, 401, 400, 202 and 502, and maps the
  store-then-forward result.

Everything is pure functions over immutable datatypes. The console is a
state record, `Console.Console`, that step functions advance. These are
inputs to the model:

- `fetch` outcomes, socket events and clock readings;
- `JSON.parse` (a `Parser` function) and `JSON.stringify` (a `Stringifier`);
- the random UUID, the bucket's `put` result and the downstream answer.

| file | module | models |
|---|---|---|
| optional.dfy | Optional | `Option` |
| text.dfy | Text | JavaScript white space, `trim`, `split`/`join`, `filter(Boolean)`, ASCII lower-casing, decimal digits, `padStart(2, "0")`, global single-character `replace` |
| json.dfy | Json | JSON values, truthiness, `String(value)`, property reads |
| http.dfy | Http | the `jsonResponse` helper both workers define |
| presets.dfy | Presets | presets, auth, the active selection, add/update/delete |
| requests.dfy | Requests | `normalizeHeaders`, auth headers, query string, method and body, `requestSummary`, `authBadge`, `formatDuration` |
| console.dfy | Console | records, outcome routing, history, monitor switches and tick, overlapping pings |
| websocket.dfy | WebSocketSession | the socket session as written, and with the guard it needs |
| contact.dfy | Contact | the contact worker |
| ingest.dfy | Ingest | the ingest worker |

## Model

| member | source | states |
|---|---|---|
| Presets.Find | src/App.jsx:143 | The preset found carries the id and is in the list; there is none exactly when no preset has the id |
| Presets.Active | src/App.jsx:120-122 | The active preset is the one with the active id when such a preset exists; it is always a member of the library, and there is none exactly when the library is empty |
| Presets.Initial | src/App.jsx:106-110 | At start-up the first preset is active, and the active id is empty when there are no presets |
| Presets.SettleActive | src/App.jsx:124-128 | An empty active id is replaced by the first preset's id; a set one is left alone; which preset is active does not change when every id is non-empty |
| Presets.ApplyReadsBack | src/App.jsx:157 | A field the update sets reads back from the merged preset, and a field it leaves out keeps its old value. This holds for the name, type and URL, and for the effective bearer and API-key switches |
| Presets.UpdateActive | src/App.jsx:153-160 | The update keeps the library's length, every id, the auth and the active id; presets whose id is not the active preset's are unchanged |
| Presets.UpdateActiveUpdatesActive | src/App.jsx:153-160 | After the update, the active preset is the old active preset with the update merged in |
| Presets.AddPreset | src/App.jsx:162-179 | Adding prepends one REST preset with id `rest-<now>` before the old list and makes it active |
| Presets.Without | src/App.jsx:183 | Filtering drops every copy of a preset with the id and keeps every other preset as often as before, in its original order |
| Presets.DeletePreset | src/App.jsx:181-192 | Deleting keeps exactly the presets without the id, in order: the new list is the filtered one. The active id is kept unless it was deleted, and then it becomes the new first preset's id or "" |
| Presets.DeleteActiveFallsBack | src/App.jsx:181-192 | Deleting the active preset leaves the new first preset active, or no active preset when the library is empty |
| Requests.NormalizeHeaders | src/App.jsx:65-80 | The headers are `{}`, or exactly the object the non-empty text parses to; a parsed object is always returned unchanged |
| Requests.WithAuth | src/App.jsx:199-213 | `Authorization: Bearer <token>` is added exactly when the preset wants it and a token is set; the API key is added exactly when wanted and both its name and value are set, and it wins a name clash; every other header is kept |
| Requests.QueryPair | src/App.jsx:219-221 | A non-blank query line becomes its trimmed text, kept as it is when it already holds `=` and otherwise extended by exactly one trailing `=` (a bare key `k` becomes `k=`) |
| Requests.NonBlank | src/App.jsx:219-220 | Only lines of the input that are not blank remain, and every such line does; there are none exactly when every line is blank |
| Requests.NonBlankOne | src/App.jsx:219-220 | A single line is kept exactly when it is not blank |
| Requests.NonBlankAppend | src/App.jsx:219-220 | Filtering two blocks of lines gives the filtered blocks one after the other, so kept lines keep their order and their repeats |
| Requests.QueryPairs | src/App.jsx:217-222 | Pair `k` is the `k`-th non-blank line made into a pair |
| Requests.BlankQueryHasNoPairs | src/App.jsx:216-225 | A query has no pair exactly when it is all white space |
| Requests.ResolveUrl | src/App.jsx:215-226 | The URL is the trimmed URL when the query is blank; otherwise the pairs follow it after `&` if it already has a `?`, else after `?` |
| Requests.QueryRoundTrip | src/App.jsx:215-226 | When no line holds `&`, splitting what follows the separator on `&` gives back exactly the pairs, in order |
| Requests.GraphqlVariables | src/App.jsx:237 | The variables are the parsed variables text, or `{}` when the text is empty or does not parse |
| Requests.DefaultContentType | src/App.jsx:239-241 | A truthy `content-type` is kept as is; otherwise `application/json` is set; no other header changes |
| Requests.BuildRequest | src/App.jsx:194-249 | There is no request exactly when the URL is empty. GraphQL sends POST, the query and the variables, with a default content type. A REST method other than GET or HEAD sends the raw body only when it is non-empty, and then with a default content type. Everything else sends no body and `method \|\| 'GET'`. The query is appended for every preset type |
| Requests.GetSendsNoBody | src/App.jsx:242-249 | A GET request carries no body, whatever the preset's body text |
| Requests.BearerToggleOff | src/App.jsx:199-209 | With the bearer switch off, an `Authorization` header is present only if the preset's headers or the API key name put it there |
| Requests.RequestSummary | src/App.jsx:408-413 | With no active preset the summary says so. Otherwise it ends with a space and the preset's URL, and starts with `WS ` for a WebSocket preset and `GraphQL POST ` for a GraphQL one |
| Requests.SummaryNamesRequestMethod | src/App.jsx:408-413 | The summary line names the method the run actually sends |
| Requests.AuthBadge | src/App.jsx:401-406 | The badge is `No Auth` exactly when neither a token nor a key value is set, `Bearer` exactly when only the token is, and `API Key` exactly when only the key value is, and `Bearer + API Key` exactly when both are |
| Requests.NoAuthBadgeMeansNoInjection | src/App.jsx:401-406 | Under a "No Auth" badge, no run adds any header |
| Requests.ApiKeyBadgeWithoutHeader | src/App.jsx:401-406 | The badge can announce an API key that no run sends, because the request also needs a key name |
| Requests.FormatDuration | src/App.jsx:82-83 | Below one second, the text is the decimal number followed by ` ms`, and it reads back to the duration. It has no leading zero, except for `0 ms` itself |
| Console.ResponseBodyOf | src/App.jsx:255-256 | The body is parsed JSON exactly when the content type mentions `application/json` and the text parses; otherwise it is the text itself |
| Console.RecordOf | src/App.jsx:257-299 | A response gives its status, ok flag, headers and raw text, and its body as the content type and the parse decide; a thrown error gives status `ERR`, not ok, no headers and the error text |
| Console.PingOf | src/App.jsx:271-309 | A ping holds the status and ok flag of the response, or `ERR` and not ok, with the run's duration and time |
| Console.Push | src/App.jsx:283 | The new record comes first, followed by the older records, and the history never holds more than 20 |
| Console.HistoryKeepsNewest | src/App.jsx:283 | After any number of explicit runs, the history is the most recent records, newest first, cut to 20 |
| Console.Run | src/App.jsx:194-317 | A preset without a URL changes nothing and sends nothing; otherwise the request is the one built for the preset. A silent run changes only that preset's last-ping entry. An explicit run shows the record, pushes it onto the history and leaves the pings alone. Neither touches the library, the switches or the sockets |
| Console.FailureIsErrRecord | src/App.jsx:285-313 | A transport failure is shown and kept in history as a not-ok `ERR` record without headers, or pinged as not-ok `ERR` |
| Console.SelectHistory | src/App.jsx:797 | Choosing a history entry shows it and leaves the history alone |
| Console.ClearResponse | src/App.jsx:749 | Clearing empties the response panel and leaves the history alone |
| Console.ToggleFlag | src/App.jsx:469-472 | The switch for the id flips, and is on if it was missing; every other switch reads as before; no two switches share an id |
| Console.ToggleMonitor | src/App.jsx:469-472 | Toggling flips one preset's monitoring, leaves every other preset's monitoring as it was, and changes nothing else in the console |
| Console.MonitorTick | src/App.jsx:139-151 | A tick pings a preset exactly when its switch is on, it still exists and it is not a WebSocket preset; each such preset is pinged once, and nothing else is pinged |
| Console.Settle | src/App.jsx:271-309 | Finished silent runs change nothing but the last-ping map, and never drop an entry from it |
| Console.SettleLastFinishedWins | src/App.jsx:271-309 | When pings overlap, each preset's last-ping entry is what its own last-finished run wrote, whatever the finishing order. Presets that were not pinged keep their entries, and nothing outside the last-ping map changes |
| WebSocketSession.PatchShown | src/App.jsx:354-370 | The panel keeps its record and takes the new log as its body; only the status and ok flag the handler sets change, and every other field of the record is kept. After a clear, the panel holds the log together with the status and ok flag the handler sets, falling back to those of an earlier partial panel and otherwise to none |
| WebSocketSession.ConnectActive | src/App.jsx:319-328 | Without an active URL nothing changes. Otherwise a new connecting socket for the active preset's URL becomes current and the log is emptied. The replaced socket is asked to close: it becomes closing if it was connecting or open. The panel, the history, the monitoring flags, the last pings and every other socket are unchanged |
| WebSocketSession.OpenRecord | src/App.jsx:334-346 | The `open` record has status `OPEN`, is ok, is a WebSocket record, and shows the log as its body. It has duration 0, no headers and no raw text |
| WebSocketSession.OnOpen | src/App.jsx:330-347 | The socket becomes open, the log restarts with one `WebSocket connected` entry, and the panel shows a fresh `OPEN` record for the socket; nothing else in the console changes |
| WebSocketSession.OnMessage | src/App.jsx:349-358 | The received data is logged first, and the panel takes the log as its body and keeps everything else; nothing outside the log and the panel changes |
| WebSocketSession.OnEnd | src/App.jsx:360-384 | The socket is closed, the system entry is logged first, and the panel takes the marker, not ok, and the log as its body; nothing outside the sockets, the log and the panel changes |
| WebSocketSession.SendActive | src/App.jsx:387-399 | Something is sent exactly when the current socket is open and the active preset has a message. Then that message is sent and logged first, and the panel takes the log as its body; otherwise nothing changes. Nothing outside the log and the panel ever changes |
| WebSocketSession.Step | src/App.jsx:319-399 | Each event runs its listener. `open` runs OnOpen; `message` runs OnMessage; `close` runs OnEnd with `WebSocket closed` and `CLOSED`; `error` runs OnEnd with `WebSocket error` and `ERROR`. An event on a socket never created changes nothing. Only the sockets, the current socket, the log and the panel can change: the library, the history, the monitoring flags and the last pings never do |
| WebSocketSession.StepLogGrows | src/App.jsx:349-398 | Any event other than connect or `open` keeps the old log as a suffix of the new one |
| WebSocketSession.LogOnlyGrowsAtFront | src/App.jsx:349-398 | After any run of events without connect or `open`, the old log is a suffix of the new one |
| WebSocketSession.StaleCloseAfterReconnect | src/App.jsx:319-371 | As written, a reconnect followed by the old socket's `close` shows `CLOSED`, not ok, while the current socket is open, and logs the old socket's farewell first |
| WebSocketSession.StepCurrentOnly | src/App.jsx:330-384 | With the guard, an event on a socket that is not current changes neither the panel, nor the log, nor the current socket |
| WebSocketSession.CurrentOnlyTraceKeepsPanel | src/App.jsx:330-384 | With the guard, once the panel is in step with an open current socket (`OPEN`, ok, showing the log), every sequence of events keeps it so |
| WebSocketSession.ReconnectKeepsPanel | src/App.jsx:330-384 | With the guard, the same reconnect trace leaves the second socket current and open, and the panel in step with it |
| Http.JsonResponse | workers/contact-api/worker.js:7-16 | The response has the given status and payload, the three security headers, and `Content-Type: application/json; charset=utf-8` unless an extra header overrides it; every extra header overrides the defaults |
| Contact.AllowedOrigins | workers/contact-api/worker.js:18-24 | An origin is allowed exactly when it is non-empty and is the trimmed form of one of the setting's comma-separated pieces. Every allowed origin is trimmed and free of commas |
| Contact.AllowedOriginsRoundTrip | workers/contact-api/worker.js:18-24 | A list of such origins, written comma-separated, reads back exactly |
| Contact.BlankOriginsAllowNothing | workers/contact-api/worker.js:18-24 | A setting of only commas and white space, including a missing one, allows no origin |
| Contact.CorsHeaders | workers/contact-api/worker.js:26-38 | The allowed-origin header echoes an allowed caller's origin. Otherwise it is the first allowed origin when that is non-empty, and `*` when there is none. The other headers are fixed: methods `POST, OPTIONS`, headers `Content-Type`, max age `86400`, `Vary: Origin` |
| Contact.HandleEchoesAllowedOrigin | workers/contact-api/worker.js:26-56 | Every answer echoes the caller's origin exactly when that origin is allowed |
| Contact.CollapseSpace | workers/contact-api/worker.js:46 | Collapsing never lengthens the text, and the result starts with white space exactly when the input does |
| Contact.CollapseShape | workers/contact-api/worker.js:46 | The collapsed text's only white space is single plain spaces, and it keeps the input's other characters, in order |
| Contact.CollapseNoSpace | workers/contact-api/worker.js:46 | Text without white space is left as it is |
| Contact.CollapseAppend | workers/contact-api/worker.js:46 | Collapsing goes piece by piece across any boundary that does not fall inside a run of white space |
| Contact.CollapseGap | workers/contact-api/worker.js:46 | A run of white space between two pieces becomes exactly one space, and each piece is collapsed on its own |
| Contact.Sanitize | workers/contact-api/worker.js:44-49 | A cleaned field is the first `min(maxLength, n)` characters of the collapsed, trimmed text, where `n` is that text's length. It does not start with white space, and its only white space is single spaces, so it has no line break. For a positive maximum, it is empty exactly when the input is all white space |
| Contact.SanitizeKeepsContent | workers/contact-api/worker.js:44-49 | A field that fits loses nothing but white space |
| Contact.EmailMatchesPattern | workers/contact-api/worker.js:40-42 | The one-pass check accepts exactly the strings the pattern matches: three non-empty runs without white space or `@`, separated by an `@` and a later `.` |
| Contact.ReadForm | workers/contact-api/worker.js:93-97 | Each field is cleaned to its own maximum length (120, 254, 5000, 120, 500); the cleaned name, message and source have no line break |
| Contact.ReadFormFields | workers/contact-api/worker.js:93-97 | Each field is the payload's property of that name, as text, cleaned to its maximum: `name` 120, `email` 254 and then lower-cased, `message` 5000, `company` 120, `source` 500 |
| Contact.Invalid | workers/contact-api/worker.js:103-125 | The form passes exactly when the name has at least 2 characters, the e-mail is valid and the message has at least 10. The first failing check names the error: `Name is required`, then `A valid email is required`, then `Message is too short` |
| Contact.EscapeMessage | workers/contact-api/worker.js:127-131 | No line feed survives the escape |
| Contact.EscapeInert | workers/contact-api/worker.js:127-131 | A text without `&`, `<`, `>` or a line feed is left as it is |
| Contact.EscapeMessageIsPerChar | workers/contact-api/worker.js:127-131 | The four replaces in their order escape each character on its own |
| Contact.UnescapeEscape | workers/contact-api/worker.js:127-131 | A message without line breaks, which every cleaned message is, is recovered from its escaped form |
| Contact.EscapedTags | workers/contact-api/worker.js:127-131 | An escaped one-line text holds no `<`, and is empty only when the text is |
| Contact.TextBody | workers/contact-api/worker.js:138-147 | The text body starts with the `Name:` line |
| Contact.TextBodyLines | workers/contact-api/worker.js:138-147 | Read line by line, the text body is the name and e-mail lines, a source line only when there is a source, `Message:` and the message; the blank separator line is gone |
| Contact.HtmlBodyAsWritten | workers/contact-api/worker.js:148-155 | As written, the name and e-mail go into the HTML verbatim, right after the heading and their labels |
| Contact.HtmlBodiesAgreeWhenInert | workers/contact-api/worker.js:148-155 | When the name, e-mail and source hold no `&`, `<`, `>` or line feed, the HTML as written is the escaped one |
| Contact.AsWrittenTags | workers/contact-api/worker.js:148-155 | As written, the HTML's tags are the template's plus every `<` typed into the name, e-mail or source |
| Contact.HtmlBodyTagsAreTemplate | workers/contact-api/worker.js:148-155 | With every field escaped, the only tags in the HTML are the template's own, whatever the visitor typed |
| Contact.NameMarkupReachesHtml | workers/contact-api/worker.js:93-155 | A name with markup passes validation, and its tags reach the HTML as written but not when escaped |
| Contact.EmailOf | workers/contact-api/worker.js:133-137 | The e-mail goes to the configured address, from the configured sender, with the visitor's address as reply-to and their name in the subject |
| Contact.EmailOfBodies | workers/contact-api/worker.js:138-155 | The e-mail's text is the text body; its HTML is the escaped body or the body as written |
| Contact.Preflight | workers/contact-api/worker.js:58-91 | The checks run in this order: 404 off the path, 204 without a body for OPTIONS, 405 for any other method than POST, 403 for an origin not allowed, 400 for a body that does not parse. The body is read exactly when all of them pass, and every early answer carries the CORS headers |
| Contact.Verdict | workers/contact-api/worker.js:99-125 | A filled honeypot gives `{ ok: true }` and 200. Otherwise a failed check gives its error and 400, and a valid form gives what goes with the provider's outcome |
| Contact.Decide | workers/contact-api/worker.js:99-186 | The answer carries the verdict's body and the CORS headers. The honeypot answers 200 without a call, and a failed check answers 400 without a call. Otherwise the provider is called with the configured key and the built e-mail, and the answer is its 200, 502 or 500 |
| Contact.Submit | workers/contact-api/worker.js:93-186 | Reading the payload's fields and deciding: the provider is called exactly when the honeypot is empty and the cleaned form is valid |
| Contact.Handle | workers/contact-api/worker.js:51-187 | The corrected worker always answers, with the CORS headers |
| Contact.HandleSendsOnlyAccepted | workers/contact-api/worker.js:58-166 | The provider is called exactly for accepted submissions, with the configured key and the e-mail built from the cleaned form |
| Contact.AcceptedStatus | workers/contact-api/worker.js:158-186 | An accepted submission answers 200 when the provider took it, 502 when it refused, and 500 when it could not be reached |
| Contact.RoutingStatus | workers/contact-api/worker.js:58-64 | The worker answers 404 off its path, including OPTIONS, and 204 without a body for OPTIONS on it |
| Contact.BadBodyStatus | workers/contact-api/worker.js:82-91 | A body that does not parse answers 400 and sends nothing |
| Contact.SilentSuccessIsHoneypot | workers/contact-api/worker.js:99-101 | A 200 without an e-mail happens only when the honeypot field was filled |
| Contact.SubmitEscapeOnlyChangesHtml | workers/contact-api/worker.js:127-156 | Escaping every field changes the e-mail's HTML and nothing else |
| Contact.HandleAsWritten | workers/contact-api/worker.js:51-187 | As written, every answer carries the CORS headers. The worker throws only after the checks pass and then calls nothing, and a call sends the e-mail with only the message escaped |
| Contact.NullBodyIsTheOnlyThrow | workers/contact-api/worker.js:82-97 | As written, the worker throws exactly for a `null` body that got past the origin check |
| Contact.NullBodyStatus | workers/contact-api/worker.js:82-97 | Corrected, a `null` body answers 400 and sends nothing |
| Contact.HandlersAgreeElsewhere | workers/contact-api/worker.js:51-187 | Apart from that case, the corrected worker answers as written and calls the provider when it does |
| Ingest.BearerToken | workers/ci-observability-ingest/worker.js:18-22 | The token is trimmed. It is non-empty only when the header starts with exactly `Bearer `, and then it is no longer than the rest of the header |
| Ingest.BearerRoundTrip | workers/ci-observability-ingest/worker.js:18-22 | A trimmed token is read back from `Bearer <token>` |
| Ingest.OtherSchemeHasNoToken | workers/ci-observability-ingest/worker.js:20 | Any other spelling of the scheme, such as `bearer `, yields no token |
| Ingest.IsValidEventShape | workers/ci-observability-ingest/worker.js:24-30 | An event is well shaped exactly when it is an object whose `event_name`, `repository` and `event_id` are non-empty strings; arrays and primitives are not |
| Ingest.DashForeign | workers/ci-observability-ingest/worker.js:36 | After the replace, only `[a-z0-9._-]` characters remain; DashForeignAppend and DashForeignGap say where the dashes go |
| Ingest.DashForeignAppend | workers/ci-observability-ingest/worker.js:36 | The replace works piece by piece across any boundary that follows a `[a-z0-9._-]` character |
| Ingest.DashForeignGap | workers/ci-observability-ingest/worker.js:36 | A run of characters outside `[a-z0-9._-]` between two class characters (or an end) becomes exactly one dash in its place, and the text on either side is replaced on its own |
| Ingest.SqueezeShape | workers/ci-observability-ingest/worker.js:37 | After squeezing, no two dashes are adjacent, and a text of segment characters stays one |
| Ingest.SqueezeAppend | workers/ci-observability-ingest/worker.js:37 | Squeezing works piece by piece across any boundary that follows a character other than the dash |
| Ingest.SqueezeGap | workers/ci-observability-ingest/worker.js:37 | A run of dashes between two other characters (or an end) becomes exactly one dash in its place, and the text on either side is squeezed on its own |
| Ingest.StripEdgeDashes | workers/ci-observability-ingest/worker.js:38 | Cutting one dash off each end of a squeezed text leaves no dash at either end |
| Ingest.Safe | workers/ci-observability-ingest/worker.js:33-38 | The pipeline's output is empty or clean, and keeps the letters, digits, dots and underscores of the lower-cased text; SafeJoinsWithDash says where a separating dash goes |
| Ingest.SafeJoinsWithDash | workers/ci-observability-ingest/worker.js:33-38 | Two clean pieces of the trimmed, lower-cased text separated by a run outside the class come out joined by exactly one dash, so `My Repo` gives `my-repo` |
| Ingest.SanitizeSegment | workers/ci-observability-ingest/worker.js:32-40 | A segment is the fallback, unmodified, or clean: non-empty, only `[a-z0-9._-]`, no `--`, no dash at either end; SegmentJoinsWithDash says where a separating dash goes |
| Ingest.SegmentJoinsWithDash | workers/ci-observability-ingest/worker.js:32-40 | A value whose trimmed, lower-cased text is two clean pieces around a run outside `[a-z0-9._-]` sanitises to those pieces joined by one dash, never to the fallback |
| Ingest.SanitizeKeepsLetters | workers/ci-observability-ingest/worker.js:32-40 | The fallback is used exactly when the lower-cased text has no letter, digit, dot or underscore. Otherwise the segment is clean and keeps all of them, in order |
| Ingest.SanitizeIdempotent | workers/ci-observability-ingest/worker.js:32-40 | Sanitising a clean segment gives it back |
| Ingest.PaddedReadsBack | workers/ci-observability-ingest/worker.js:53-55 | A two-digit padded number reads back as the number |
| Ingest.KeyPartsRoundTrip | workers/ci-observability-ingest/worker.js:51-61 | A key splits on `/` into its eight pieces. Month (counted from 1), day and hour read back as two-digit numbers |
| Ingest.KeyRoundTrip | workers/ci-observability-ingest/worker.js:51-61 | An event's storage key splits back into `events`, the year, month, day and hour partitions, the sanitised repository and event, and the sanitised id with its fallback UUID |
| Ingest.Stamped | workers/ci-observability-ingest/worker.js:142-145 | The stamped event is the payload with `ingested_at` set to the receipt time, and every other field kept |
| Ingest.NdjsonLine | workers/ci-observability-ingest/worker.js:42-44 | The stored text ends with exactly one line feed; a serialisation without a raw line feed reads back as one record |
| Ingest.Store | workers/ci-observability-ingest/worker.js:46-67 | A `put` happens exactly when a bucket is bound: under the event's key, with the stamped event's NDJSON line. The result says stored, not bound, or failed |
| Ingest.ForwardHeaders | workers/ci-observability-ingest/worker.js:74-81 | `Authorization` is sent exactly when a downstream token is set, beside the two fixed headers |
| Ingest.ForwardedTokenAuthenticates | workers/ci-observability-ingest/worker.js:79-81 | A downstream instance of this worker whose token is the (trimmed) forwarding token accepts the forwarded header |
| Ingest.Forward | workers/ci-observability-ingest/worker.js:69-95 | The call goes out exactly when a URL is configured. The result is forwarded only for an ok answer, and skipped exactly when there is no URL |
| Ingest.Process | workers/ci-observability-ingest/worker.js:138-159 | The event is stored, then forwarded unless storage threw. The answer is 202 with the receipt when storage and forwarding succeed, and 502 otherwise |
| Ingest.Check | workers/ci-observability-ingest/worker.js:99-136 | An event is admitted exactly when it is authorized and its body parses to a well-shaped event. A request that stops touches nothing, and an authorized one stops with 400 |
| Ingest.Handle | workers/ci-observability-ingest/worker.js:97-159 | An admitted event is processed. Any other request stores and forwards nothing, and an authorized one is refused with 400 |
| Ingest.RoutingStatus | workers/ci-observability-ingest/worker.js:101-122 | Status 200 exactly for `/healthz` on any method, 404 for other paths, 405 for non-POST, 500 for an unset ingest token, checked before authentication, and 401 for a missing or different token |
| Ingest.UntrimmedTokenLocksOut | workers/ci-observability-ingest/worker.js:119-122 | A configured token with white space at an end can never be presented |
| Ingest.MethodNotAllowedNamesPost | workers/ci-observability-ingest/worker.js:109-113 | A 405 carries `Allow: POST` |
| Ingest.BadBodyStatus | workers/ci-observability-ingest/worker.js:124-136 | An authorized request answers 400 exactly when its body does not parse or is not a well-shaped event |
| Ingest.EffectsOnlyWhenAdmitted | workers/ci-observability-ingest/worker.js:97-136 | Nothing is stored or forwarded for a request that is not admitted |
| Ingest.AdmittedEffects | workers/ci-observability-ingest/worker.js:140-145 | For an admitted event, the object is put exactly when a bucket is bound. The call goes out exactly when a URL is set and storage did not throw, and it forwards the same stamped event |
| Ingest.AdmittedStatus | workers/ci-observability-ingest/worker.js:140-159 | An admitted event answers 202 exactly when storage and forwarding succeed, and 502 otherwise |
| Ingest.ReceiptReportsStorage | workers/ci-observability-ingest/worker.js:147-155 | The 202 body reports the key, or `null` and `stored: false` without a bucket, and whether the event was forwarded |
| Ingest.StoredThenFailed | workers/ci-observability-ingest/worker.js:140-159 | A downstream failure answers 502 although the object was already put |

## Left out

- React rendering, hooks plumbing, styling and the loading flag: presentation only.
- `localStorage` persistence (src/App.jsx:87-103): the library is a value passed in.
- The network: `fetch`, the `WebSocket` object, the Resend call, the bucket's `put` and the downstream `fetch` are outcome parameters.
- `JSON.parse` and `JSON.stringify` are function parameters. Only the shape of their results is modelled, not the JSON grammar.
- Clocks, `Date.now`, `toISOString`, the UTC date decomposition and `crypto.randomUUID` are inputs (`Clock`, `Received`, `uuid`).
- URL parsing (`new URL(request.url).pathname`): the path is an input.
- Floating point: JSON numbers are integers.
- Requests.FormatDuration: models only the branch below 1000 ms; the seconds branch uses floating-point division and `toFixed`.
- String lengths count characters, not UTF-16 code units, so the 120/254/5000/500 limits and the name/message minimums match the source only for text in the Basic Multilingual Plane.
- Ingest.SanitizeSegment: lower-cases ASCII letters only. JavaScript's `toLowerCase` also maps a few non-ASCII letters into `[a-z]`: the Kelvin sign becomes `k`, and `İ` becomes `i` plus a combining dot. For such input the model keeps a dash where the source keeps a letter.
- Contact.ReadForm: lower-cases the e-mail on ASCII letters only, for the same reason.
- Console.MonitorTick: uses the auth current at the tick. The interval in the source re-arms only when the switches or presets change, so a tick can run with auth captured earlier. The 10-second interval timing is not modelled either.
- Concurrency: each run is one step. The order in which overlapping silent runs finish is an input to `Console.Settle`.
- Contact.HandleEchoesAllowedOrigin: excludes a caller whose origin is literally `*`, because the fallback also writes `*`.
- The worker's `console.error` logging and the downstream error text: they do not reach the answer.
- The `reason` strings of `storeInR2` and `forwardEventIfConfigured`: the handler never reads them.
- Contact.EmailOf: a missing `RESEND_FROM` or `CONTACT_TO` reads as the empty string. In the source, `JSON.stringify` leaves an undefined `from` out of the request and writes `to` as `[null]`.
- Contact.Decide: a missing `RESEND_API_KEY` reads as the empty string, so the model sends `Authorization: Bearer `. The source's template literal sends `Bearer undefined`.
- WebSocketSession.ConnectActive: does not model `new WebSocket` throwing for a malformed URL. In that case the source has already closed the old socket and cleared `wsRef`, keeps the old log, and adds no socket; the model always adds a connecting one. URL parsing is an input.

## Findings

| source | as written | input that shows it | evidently intended | confidence | as-written member | corrected member |
|---|---|---|---|---|---|---|
| src/App.jsx:321-384 | A replaced socket keeps its listeners. When it closes late, its `close` or `error` writes into the shared session log and marks the panel `CLOSED` or `ERROR`, not ok | Connect, open socket 0, connect again, open socket 1, then socket 0's `close` | Events on a socket that is no longer current change only that socket | not executed; high | WebSocketSession.StaleCloseAfterReconnect | WebSocketSession.ReconnectKeepsPanel |
| workers/contact-api/worker.js:148-155 | Only the message is HTML-escaped. The name, e-mail and source go into the HTML e-mail as typed | Name `<b>Eve</b>`, e-mail `eve@example.com`, message `Hello from <b>Eve</b>`, which passes every check | Every field is escaped like the message | not executed; medium | Contact.NameMarkupReachesHtml | Contact.HtmlBodyTagsAreTemplate |
| workers/contact-api/worker.js:82-97 | A body of `null` parses, and then `payload.name` throws outside any `try`. The platform answers without the worker's CORS headers | Body text `null` from an allowed origin | Answer 400 `Invalid JSON body`, as for a body that does not parse | not executed; high | Contact.NullBodyIsTheOnlyThrow | Contact.NullBodyStatus |

=== FILE: console.dfy ===
/** The request console's session state and its HTTP side (src/App.jsx):
    running a preset, routing the outcome to the response panel and the
    20-entry history or, for a silent monitor ping, to the last-ping map, and
    the monitor tick that chooses which presets are pinged. `fetch`, the
    clocks and `JSON.parse` are inputs. */
module Console {
  import opened Optional
  import opened Text
  import opened Json
  import opened Presets
  import opened Requests

  /** An HTTP status code, or one of the markers `ERR`, `OPEN`, `CLOSED`, `ERROR`. */
  datatype Status = Code(code: int) | Marker(text: string)

  datatype EntryKind = Sent | Received | System

  /** One line of a WebSocket session log. */
  datatype WsEntry = WsEntry(kind: EntryKind, message: string, timestamp: string)

  datatype ResponseBody = JsonBody(value: Json) | TextBody(text: string) | LogBody(log: seq<WsEntry>)

  /** A response record, as shown in the response panel and kept in history. */
  datatype Record = Record(
    id: string,
    name: string,
    kind: Kind,
    status: Status,
    ok: bool,
    duration: nat,
    timestamp: string,
    body: ResponseBody,
    raw: string,
    headers: map<string, string>,
    url: string)

  /** The response panel: empty, a full record, or the object a WebSocket
      handler builds by spreading `null` after the panel was cleared, which
      holds only the fields the handler sets. */
  datatype Shown =
    | Nothing
    | Full(record: Record)
    | Fragment(status: Option<Status>, ok: Option<bool>, log: seq<WsEntry>)

  /** The summary a silent run leaves for its preset. */
  datatype Ping = Ping(status: Status, duration: nat, timestamp: string, ok: bool)

  /** What `fetch` did: a response whose body was read to the end, or a
      thrown error. */
  datatype Outcome =
    | Responded(status: int, ok: bool, contentType: string, text: string, headers: map<string, string>)
    | Failed(error: string)

  /** The clock readings of one completion: `Date.now()`, the ISO time, and
      the rounded elapsed milliseconds. */
  datatype Clock = Clock(now: nat, iso: string, elapsed: nat)

  datatype ReadyState = Connecting | Open | Closing | Closed

  /** A WebSocket the session created, with the name and URL of the preset
      it was opened for. */
  datatype Socket = Socket(url: string, name: string, ready: ReadyState)

  /** One monitoring switch, in the order the switches were first touched. */
  datatype MonitorFlag = MonitorFlag(id: string, enabled: bool)

  datatype Console = Console(
    lib: Library,
    shown: Shown,
    history: seq<Record>,
    monitoring: seq<MonitorFlag>,
    lastPing: map<string, Ping>,
    sockets: seq<Socket>,
    current: Option<nat>,
    wsLog: seq<WsEntry>)
  {
    /** The socket `wsRef` holds: sockets are numbered in the order they
        were created, and every one keeps its listeners. */
    function LiveSocket(): Option<Socket> {
      if current.Some? && current.value < |sockets| then Some(sockets[current.value]) else None
    }
  }

  const HistoryLimit: nat := 20

  /** The console at start-up. */
  function Start(lib: Library): (c: Console)
    ensures c.history == [] && c.lastPing == map[] && c.LiveSocket().None? && c.shown.Nothing?
  {
    Console(lib, Nothing, [], [], map[], [], None, [])
  }

  /** The body a response is shown with: parsed JSON when the content type
      mentions `application/json` and the text parses, else the text. */
  function ResponseBodyOf(contentType: string, text: string, parse: Parser): (b: ResponseBody)
    ensures b.TextBody? ==> b.text == text
    ensures b.JsonBody? ==> Contains(contentType, "application/json") && parse(text) == Parsed(b.value)
    ensures !b.JsonBody? <==> !Contains(contentType, "application/json") || parse(text) == Malformed
  {
    if Contains(contentType, "application/json") then
      match parse(text)
      case Parsed(v) => JsonBody(v)
      case Malformed => TextBody(text)
    else TextBody(text)
  }

  function RecordOf(p: Preset, url: string, o: Outcome, clock: Clock, parse: Parser): (e: Record)
    ensures e.name == p.name && e.kind == p.kind && e.url == url
    ensures e.duration == clock.elapsed && e.timestamp == clock.iso
    ensures e.id == p.id + "-" + NatToString(clock.now)
    ensures o.Failed? ==> e.status == Marker("ERR") && !e.ok && e.headers == map[]
                          && e.body == TextBody(o.error) && e.raw == o.error
    ensures o.Responded? ==> e.status == Code(o.status) && e.ok == o.ok && e.headers == o.headers
                             && e.raw == o.text && e.body == ResponseBodyOf(o.contentType, o.text, parse)
  {
    var id := p.id + "-" + NatToString(clock.now);
    match o
    case Responded(status, ok, contentType, text, headers) =>
      Record(id, p.name, p.kind, Code(status), ok, clock.elapsed, clock.iso,
             ResponseBodyOf(contentType, text, parse), text, headers, url)
    case Failed(error) =>
      Record(id, p.name, p.kind, Marker("ERR"), false, clock.elapsed, clock.iso,
             TextBody(error), error, map[], url)
  }

  function PingOf(o: Outcome, clock: Clock): (g: Ping)
    ensures g.duration == clock.elapsed && g.timestamp == clock.iso
    ensures o.Failed? ==> g.status == Marker("ERR") && !g.ok
    ensures o.Responded? ==> g.status == Code(o.status) && g.ok == o.ok
  {
    match o
    case Responded(status, ok, _, _, _) => Ping(Code(status), clock.elapsed, clock.iso, ok)
    case Failed(_) => Ping(Marker("ERR"), clock.elapsed, clock.iso, false)
  }

  function Min(a: nat, b: nat): nat {
    if a < b then a else b
  }

  /** `[entry, ...history].slice(0, 20)` */
  function Push(history: seq<Record>, e: Record): (h: seq<Record>)
    ensures |h| == Min(|history| + 1, HistoryLimit)
    ensures h[0] == e
    ensures h[1..] == history[..Min(|history|, HistoryLimit - 1)]
  {
    ([e] + history)[..Min(|history| + 1, HistoryLimit)]
  }

  function Reverse<T>(xs: seq<T>): (r: seq<T>)
    ensures |r| == |xs|
    ensures forall i :: 0 <= i < |xs| ==> r[i] == xs[|xs| - 1 - i]
  {
    if |xs| == 0 then [] else Reverse(xs[1..]) + [xs[0]]
  }

  /** The history after pushing records one after the other. */
  function PushAll(history: seq<Record>, es: seq<Record>): seq<Record>
    decreases |es|
  {
    if |es| == 0 then history else PushAll(Push(history, es[0]), es[1..])
  }

  /** After any number of explicit runs the history holds the most recent
      records, newest first, and never more than 20 of them. */
  lemma {:induction false} HistoryKeepsNewest(history: seq<Record>, es: seq<Record>)
    requires |history| <= HistoryLimit
    ensures PushAll(history, es) == (Reverse(es) + history)[..Min(|es| + |history|, HistoryLimit)]
    decreases |es|
  {
    if |es| > 0 {
      var h1 := Push(history, es[0]);
      HistoryKeepsNewest(h1, es[1..]);
      var rest := Reverse(es[1..]);
      assert Reverse(es) == rest + [es[0]];
      var n := Min(|es| + |history|, HistoryLimit);
      assert |es[1..]| + |h1| >= n;
      assert (rest + h1)[..n] == (Reverse(es) + history)[..n] by {
        forall i | 0 <= i < n ensures (rest + h1)[i] == (Reverse(es) + history)[i] {
          if i < |rest| {
          } else if i == |rest| {
            assert h1[0] == es[0];
          } else {
            assert (rest + h1)[i] == h1[i - |rest|];
            assert h1[i - |rest|] == history[i - |rest| - 1];
          }
        }
      }
      assert Min(|es[1..]| + |h1|, HistoryLimit) == n;
    }
  }

  /** The result of one run: the new console and the request handed to
      `fetch`, if any. */
  datatype RunResult = RunResult(console: Console, issued: Option<Request>)

  /** `runRequest(preset, {silent})`, from building the request to routing
      its outcome. A preset without a URL does nothing. A silent run only
      records a ping for the preset's id; an explicit run shows the record and
      pushes it onto the history. */
  function Run(c: Console, p: Preset, silent: bool, o: Outcome, clock: Clock, parse: Parser): (r: RunResult)
    ensures p.url == "" ==> r.console == c && r.issued.None?
    ensures p.url != "" ==> r.issued == BuildRequest(p, c.lib.auth, parse) && r.issued.Some?
    ensures r.console.lib == c.lib && r.console.monitoring == c.monitoring
    ensures r.console.sockets == c.sockets && r.console.current == c.current && r.console.wsLog == c.wsLog
    ensures p.url != "" && silent ==>
              && r.console.shown == c.shown && r.console.history == c.history
              && r.console.lastPing.Keys == c.lastPing.Keys + {p.id}
              && r.console.lastPing[p.id] == PingOf(o, clock)
              && (forall k :: k in c.lastPing && k != p.id ==> r.console.lastPing[k] == c.lastPing[k])
    ensures p.url != "" && !silent ==>
              && r.console.lastPing == c.lastPing
              && r.console.shown == Full(RecordOf(p, r.issued.value.url, o, clock, parse))
              && r.console.history == Push(c.history, RecordOf(p, r.issued.value.url, o, clock, parse))
  {
    match BuildRequest(p, c.lib.auth, parse)
    case None => RunResult(c, None)
    case Some(req) =>
      if silent then
        RunResult(c.(lastPing := c.lastPing[p.id := PingOf(o, clock)]), Some(req))
      else
        var e := RecordOf(p, req.url, o, clock, parse);
        RunResult(c.(shown := Full(e), history := Push(c.history, e)), Some(req))
  }

  /** A transport failure is shown as an `ERR` record that is not ok and has
      no headers, whichever way it is routed. */
  lemma FailureIsErrRecord(c: Console, p: Preset, clock: Clock, parse: Parser, error: string)
    requires p.url != ""
    ensures var r := Run(c, p, false, Failed(error), clock, parse).console;
      r.shown.Full? && r.shown.record.status == Marker("ERR") && !r.shown.record.ok
      && r.shown.record.headers == map[] && r.history[0] == r.shown.record
    ensures var r := Run(c, p, true, Failed(error), clock, parse).console;
      r.lastPing[p.id].status == Marker("ERR") && !r.lastPing[p.id].ok
  {
  }

  /** Republishes a history entry; the history is left as it is. */
  function SelectHistory(c: Console, i: nat): (r: Console)
    requires i < |c.history|
    ensures r.shown == Full(c.history[i]) && r.history == c.history
  {
    c.(shown := Full(c.history[i]))
  }

  /** The Clear button. */
  function ClearResponse(c: Console): (r: Console)
    ensures r.shown == Nothing && r.history == c.history
  {
    c.(shown := Nothing)
  }

  /** `monitoring[id]`, with a missing entry reading as off. */
  function Enabled(m: seq<MonitorFlag>, id: string): bool {
    if |m| == 0 then false else if m[0].id == id then m[0].enabled else Enabled(m[1..], id)
  }

  predicate DistinctFlags(m: seq<MonitorFlag>) {
    forall i, j :: 0 <= i < j < |m| ==> m[i].id != m[j].id
  }

  /** `{...current, [id]: !current[id]}`: flips an existing switch in place
      or appends a new one that is on. */
  function ToggleFlag(m: seq<MonitorFlag>, id: string): (r: seq<MonitorFlag>)
    ensures Enabled(r, id) == !Enabled(m, id)
    ensures forall k :: k != id ==> Enabled(r, k) == Enabled(m, k)
    ensures DistinctFlags(m) ==> DistinctFlags(r)
    ensures forall f :: f in r ==> f.id == id || f in m
  {
    if |m| == 0 then [MonitorFlag(id, true)]
    else if m[0].id == id then ToggleHere(m, id); [MonitorFlag(id, !m[0].enabled)] + m[1..]
    else ToggleLater(m, id, ToggleFlag(m[1..], id)); [m[0]] + ToggleFlag(m[1..], id)
  }

  lemma ToggleHere(m: seq<MonitorFlag>, id: string)
    requires |m| > 0 && m[0].id == id
    ensures var r := [MonitorFlag(id, !m[0].enabled)] + m[1..];
      && Enabled(r, id) == !Enabled(m, id)
      && (forall k :: k != id ==> Enabled(r, k) == Enabled(m, k))
      && (DistinctFlags(m) ==> DistinctFlags(r))
      && (forall f :: f in r ==> f.id == id || f in m)
  {
    var r := [MonitorFlag(id, !m[0].enabled)] + m[1..];
    assert r[1..] == m[1..];
  }

  lemma ToggleLater(m: seq<MonitorFlag>, id: string, rest: seq<MonitorFlag>)
    requires |m| > 0 && m[0].id != id
    requires Enabled(rest, id) == !Enabled(m[1..], id)
    requires forall k :: k != id ==> Enabled(rest, k) == Enabled(m[1..], k)
    requires DistinctFlags(m[1..]) ==> DistinctFlags(rest)
    requires forall f :: f in rest ==> f.id == id || f in m[1..]
    ensures var r := [m[0]] + rest;
      && Enabled(r, id) == !Enabled(m, id)
      && (forall k :: k != id ==> Enabled(r, k) == Enabled(m, k))
      && (DistinctFlags(m) ==> DistinctFlags(r))
      && (forall f :: f in r ==> f.id == id || f in m)
  {
    var r := [m[0]] + rest;
    assert r[1..] == rest;
    if DistinctFlags(m) {
      assert forall f :: f in rest ==> f.id != m[0].id;
      forall i, j | 0 <= i < j < |r| ensures r[i].id != r[j].id {
        if i > 0 {
          assert r[i] == rest[i - 1] && r[j] == rest[j - 1];
        } else {
          assert r[j] in rest;
        }
      }
    }
  }

  function ToggleMonitor(c: Console, id: string): (r: Console)
    ensures Enabled(r.monitoring, id) == !Enabled(c.monitoring, id)
    ensures forall x :: x != id ==> Enabled(r.monitoring, x) == Enabled(c.monitoring, x)
    ensures r == c.(monitoring := r.monitoring)
    ensures r.lib == c.lib && r.lastPing == c.lastPing && r.history == c.history
  {
    c.(monitoring := ToggleFlag(c.monitoring, id))
  }

  /** A preset a monitor tick pings: its switch is on, it still exists, and
      it is not a WebSocket preset. */
  predicate Pinged(m: seq<MonitorFlag>, presets: seq<Preset>, id: string) {
    Enabled(m, id) && Find(presets, id).Some? && Find(presets, id).value.kind != WebSocket
  }

  lemma {:induction false} EnabledFromFlag(m: seq<MonitorFlag>, i: nat)
    requires DistinctFlags(m) && i < |m|
    ensures Enabled(m, m[i].id) == m[i].enabled
    decreases i
  {
    if i > 0 {
      EnabledFromFlag(m[1..], i - 1);
    }
  }

  lemma {:induction false} EnabledHasFlag(m: seq<MonitorFlag>, id: string) returns (i: nat)
    requires Enabled(m, id)
    ensures i < |m| && m[i].id == id && m[i].enabled
    decreases |m|
  {
    if m[0].id == id {
      i := 0;
    } else {
      var j := EnabledHasFlag(m[1..], id);
      i := j + 1;
    }
  }

  /** The interval body: walks the switches in order and collects the presets
      to ping silently. */
  method MonitorTick(m: seq<MonitorFlag>, presets: seq<Preset>) returns (runs: seq<Preset>)
    requires DistinctFlags(m)
    ensures |runs| <= |m|
    ensures forall p :: p in runs ==> Pinged(m, presets, p.id) && Find(presets, p.id) == Some(p)
    ensures forall id :: Pinged(m, presets, id) ==> Find(presets, id).value in runs
    ensures forall i, j :: 0 <= i < j < |runs| ==> runs[i].id != runs[j].id
  {
    runs := [];
    var n := 0;
    while n < |m|
      invariant n <= |m|
      invariant TickSoFar(m, presets, n, runs)
    {
      var flag := m[n];
      EnabledFromFlag(m, n);
      if flag.enabled {
        var found := Find(presets, flag.id);
        if found.Some? && found.value.kind != WebSocket {
          TickPush(m, presets, n, runs);
          runs := runs + [found.value];
        }
      }
      n := n + 1;
    }
    forall id | Pinged(m, presets, id) ensures Find(presets, id).value in runs {
      var i := EnabledHasFlag(m, id);
    }
  }

  /** What the tick has collected after the first `n` switches. */
  predicate TickSoFar(m: seq<MonitorFlag>, presets: seq<Preset>, n: nat, runs: seq<Preset>)
    requires n <= |m|
  {
    && |runs| <= n
    && (forall p :: p in runs ==> Pinged(m, presets, p.id) && Find(presets, p.id) == Some(p))
    && (forall p :: p in runs ==> exists i :: 0 <= i < n && m[i].id == p.id)
    && (forall i :: 0 <= i < n && Pinged(m, presets, m[i].id) ==> Find(presets, m[i].id).value in runs)
    && (forall i, j :: 0 <= i < j < |runs| ==> runs[i].id != runs[j].id)
  }

  lemma TickPush(m: seq<MonitorFlag>, presets: seq<Preset>, n: nat, runs: seq<Preset>)
    requires DistinctFlags(m) && n < |m| && TickSoFar(m, presets, n, runs)
    requires Pinged(m, presets, m[n].id)
    ensures TickSoFar(m, presets, n + 1, runs + [Find(presets, m[n].id).value])
  {
    var f := Find(presets, m[n].id).value;
    var r := runs + [f];
    TickFresh(m, presets, n, runs);
    forall p | p in r ensures Pinged(m, presets, p.id) && Find(presets, p.id) == Some(p) {
    }
    forall p | p in r ensures exists i :: 0 <= i < n + 1 && m[i].id == p.id {
      if p in runs {
        var i :| 0 <= i < n && m[i].id == p.id;
      } else {
        assert m[n].id == p.id;
      }
    }
    forall i | 0 <= i < n + 1 && Pinged(m, presets, m[i].id) ensures Find(presets, m[i].id).value in r {
    }
    forall i, j | 0 <= i < j < |r| ensures r[i].id != r[j].id {
      if j == |runs| {
        assert r[i] in runs;
      }
    }
  }

  /** A switch later than the first `n` names no preset collected so far. */
  lemma TickFresh(m: seq<MonitorFlag>, presets: seq<Preset>, n: nat, runs: seq<Preset>)
    requires DistinctFlags(m) && n < |m| && TickSoFar(m, presets, n, runs)
    ensures forall p :: p in runs ==> p.id != m[n].id
  {
    forall p | p in runs ensures p.id != m[n].id {
      var i :| 0 <= i < n && m[i].id == p.id;
    }
  }

  /** One silent run that finished: the preset, what `fetch` did, and when. */
  datatype Completion = Completion(preset: Preset, outcome: Outcome, clock: Clock)

  /** Silent runs applied in the order they finish. */
  function Settle(c: Console, done: seq<Completion>, parse: Parser): (r: Console)
    ensures r == c.(lastPing := r.lastPing)
    ensures forall id :: id in c.lastPing ==> id in r.lastPing
    decreases |done|
  {
    if |done| == 0 then c
    else
      var d := done[0];
      Settle(Run(c, d.preset, true, d.outcome, d.clock, parse).console, done[1..], parse)
  }

  /** The ping the last finished run for `id` left, if any run for it had a URL. */
  function LastPing(done: seq<Completion>, id: string): Option<Ping>
    decreases |done|
  {
    if |done| == 0 then None
    else
      var d := done[|done| - 1];
      if d.preset.id == id && d.preset.url != "" then Some(PingOf(d.outcome, d.clock))
      else LastPing(done[..|done| - 1], id)
  }

  /** Overlapping pings: whatever order they finish in, each preset's
      last-ping entry is the one its own last finished run wrote, entries of
      presets not pinged are untouched, and nothing outside the last-ping map
      changes. */
  lemma SettleLastFinishedWins(c: Console, done: seq<Completion>, parse: Parser)
    ensures var r := Settle(c, done, parse);
      && r == c.(lastPing := r.lastPing)
      && (forall id :: LastPing(done, id).Some? ==> id in r.lastPing && r.lastPing[id] == LastPing(done, id).value)
      && (forall id :: LastPing(done, id).None? ==>
            (id in r.lastPing <==> id in c.lastPing) && (id in c.lastPing ==> r.lastPing[id] == c.lastPing[id]))
  {
    SettleOnlyPings(c, done, parse);
    PingsAfterLast(c.lastPing, done);
  }

  /** The last-ping map after `done`, written from the last completion back. */
  function PingsAfter(m: map<string, Ping>, done: seq<Completion>): map<string, Ping>
    decreases |done|
  {
    if |done| == 0 then m
    else
      var d := done[|done| - 1];
      if d.preset.url != "" then PingsAfter(m, done[..|done| - 1])[d.preset.id := PingOf(d.outcome, d.clock)]
      else PingsAfter(m, done[..|done| - 1])
  }

  lemma {:induction false} SettleOnlyPings(c: Console, done: seq<Completion>, parse: Parser)
    ensures Settle(c, done, parse) == c.(lastPing := PingsAfter(c.lastPing, done))
    decreases |done|
  {
    if |done| > 0 {
      var front := done[..|done| - 1];
      var d := done[|done| - 1];
      assert done == front + [d];
      SettleOnlyPings(c, front, parse);
      SettleSnoc(c, front, d, parse);
      var s := Settle(c, front, parse);
      SilentRunPings(s, d, parse);
      PingsAfterSnoc(c.lastPing, done);
      SameButPings(c, s, Run(s, d.preset, true, d.outcome, d.clock, parse).console);
    }
  }

  lemma PingsAfterSnoc(m: map<string, Ping>, done: seq<Completion>)
    requires |done| > 0
    ensures var d := done[|done| - 1];
      PingsAfter(m, done) == if d.preset.url != "" then PingsAfter(m, done[..|done| - 1])[d.preset.id := PingOf(d.outcome, d.clock)]
                             else PingsAfter(m, done[..|done| - 1])
  {
  }

  lemma SameButPings(a: Console, b: Console, c: Console)
    requires b == a.(lastPing := b.lastPing) && c == b.(lastPing := c.lastPing)
    ensures c == a.(lastPing := c.lastPing)
  {
  }

  lemma {:induction false} PingsAfterLast(m: map<string, Ping>, done: seq<Completion>)
    ensures forall id :: LastPing(done, id).Some? ==> id in PingsAfter(m, done) && PingsAfter(m, done)[id] == LastPing(done, id).value
    ensures forall id :: LastPing(done, id).None? ==>
              (id in PingsAfter(m, done) <==> id in m) && (id in m ==> PingsAfter(m, done)[id] == m[id])
    decreases |done|
  {
    if |done| > 0 {
      PingsAfterLast(m, done[..|done| - 1]);
    }
  }

  /** A silent run changes the last-ping map alone, and only when the preset has a URL. */
  lemma SilentRunPings(c: Console, d: Completion, parse: Parser)
    ensures var r := Run(c, d.preset, true, d.outcome, d.clock, parse).console;
      && r == c.(lastPing := r.lastPing)
      && r.lastPing == if d.preset.url != "" then c.lastPing[d.preset.id := PingOf(d.outcome, d.clock)] else c.lastPing
  {
  }

  lemma {:induction false} SettleSnoc(c: Console, done: seq<Completion>, d: Completion, parse: Parser)
    ensures Settle(c, done + [d], parse) == Run(Settle(c, done, parse), d.preset, true, d.outcome, d.clock, parse).console
    decreases |done|
  {
    if |done| == 0 {
      assert done + [d] == [d];
    } else {
      var c1 := Run(c, done[0].preset, true, done[0].outcome, done[0].clock, parse).console;
      assert (done + [d])[1..] == done[1..] + [d];
      SettleSnoc(c1, done[1..], d, parse);
    }
  }
}

=== FILE: contact.dfy ===
/** The contact worker (workers/contact-api/worker.js): one POST endpoint that
    checks the caller's origin, cleans and validates a contact form, and hands
    an e-mail to the provider. The request's body is parsed by an abstract
    `JSON.parse`, the provider's answer is an input, and URL parsing is left
    to the caller, who supplies the path. */
module Contact {
  import opened Optional
  import opened Text
  import opened Json
  import opened Http

  /** The worker's configuration. A missing `ALLOWED_ORIGINS` reads as "". */
  datatype Env = Env(allowedOrigins: string, resendFrom: string, contactTo: string, resendApiKey: string)

  /** What the worker reads from a request: the URL's path, the method, the
      `Origin` header if any, and the body text. */
  datatype Request = Request(pathname: string, httpMethod: string, origin: Option<string>, body: string)

  /** The worker either answers, or throws and leaves the answer to the
      platform, which then has none of the worker's headers. */
  datatype Outcome = Answered(response: Response) | Threw

  /** The message posted to the e-mail provider. */
  datatype Email = Email(from: string, to: seq<string>, replyTo: string, subject: string, text: string, html: string)

  datatype ProviderCall = ProviderCall(authorization: string, email: Email)

  /** How the provider's `fetch` went: accepted, answered not ok, or threw. */
  datatype ProviderReply = Delivered | Rejected(status: int, text: string) | Unreachable

  /** The worker's answer and the call it made to the provider, if any. */
  datatype Handled = Handled(outcome: Outcome, call: Option<ProviderCall>)

  // ---------------------------------------------------------------------
  // Origins and headers
  // ---------------------------------------------------------------------

  /** `getAllowedOrigins`: the comma-separated list, each entry trimmed,
      empty entries dropped. */
  function AllowedOrigins(raw: string): (xs: seq<string>)
    ensures forall i :: 0 <= i < |xs| ==> xs[i] != "" && Trimmed(xs[i]) && ',' !in xs[i]
    ensures forall x :: x in xs <==> x != "" && exists p :: p in Split(raw, ',') && Trim(p) == x
  {
    TrimAllKeepsOut(Split(raw, ','), ',');
    TrimmedMembers(Split(raw, ','));
    NonEmpty(TrimAll(Split(raw, ',')))
  }

  /** The entries that survive are exactly the non-empty trimmed parts. */
  lemma TrimmedMembers(parts: seq<string>)
    ensures forall x :: x in NonEmpty(TrimAll(parts)) <==> x != "" && exists p :: p in parts && Trim(p) == x
  {
    forall x | x in NonEmpty(TrimAll(parts)) ensures x != "" && exists p :: p in parts && Trim(p) == x {
      KeptIsTrimmedPart(parts, x);
    }
    forall p | p in parts && Trim(p) != "" ensures Trim(p) in NonEmpty(TrimAll(parts)) {
      TrimmedPartIsKept(parts, p);
    }
  }

  lemma KeptIsTrimmedPart(parts: seq<string>, x: string)
    requires x in NonEmpty(TrimAll(parts))
    ensures x != "" && exists p :: p in parts && Trim(p) == x
  {
    var t := TrimAll(parts);
    assert x in t;
    var i :| 0 <= i < |t| && t[i] == x;
    assert parts[i] in parts && Trim(parts[i]) == x;
  }

  lemma TrimmedPartIsKept(parts: seq<string>, p: string)
    requires p in parts && Trim(p) != ""
    ensures Trim(p) in NonEmpty(TrimAll(parts))
  {
    var t := TrimAll(parts);
    var i :| 0 <= i < |parts| && parts[i] == p;
    assert t[i] == Trim(p);
    assert Trim(p) in t;
  }

  /** A list written out the way the worker expects it is read back as is. */
  lemma AllowedOriginsRoundTrip(xs: seq<string>)
    requires |xs| >= 1
    requires forall i :: 0 <= i < |xs| ==> xs[i] != "" && Trimmed(xs[i]) && ',' !in xs[i]
    ensures AllowedOrigins(Join(xs, ',')) == xs
  {
    SplitJoin(xs, ',');
    forall i | 0 <= i < |xs| ensures Trim(xs[i]) == xs[i] {
      TrimOfTrimmed(xs[i]);
    }
    assert TrimAll(xs) == xs;
    NonEmptyOfNonEmpty(xs);
  }

  /** Entries of nothing but white space and commas allow no origin at all. */
  lemma BlankOriginsAllowNothing(raw: string)
    requires forall i :: 0 <= i < |raw| ==> raw[i] == ',' || IsSpace(raw[i])
    ensures AllowedOrigins(raw) == []
  {
    var parts := Split(raw, ',');
    JoinSplit(raw, ',');
    forall i | 0 <= i < |parts| ensures Trim(parts[i]) == "" {
      PartsOfJoin(parts, ',', i);
    }
    NonEmptyOfBlanks(TrimAll(parts));
  }

  lemma {:induction false} PartsOfJoin(parts: seq<string>, d: char, i: nat)
    requires i < |parts|
    requires forall k :: 0 <= k < |Join(parts, d)| ==> Join(parts, d)[k] == d || IsSpace(Join(parts, d)[k])
    requires forall k :: 0 <= k < |parts| ==> d !in parts[k]
    ensures AllSpace(parts[i])
    decreases |parts|
  {
    var j := Join(parts, d);
    if |parts| == 1 {
      assert j == parts[0];
    } else {
      assert j == parts[0] + [d] + Join(parts[1..], d);
      if i == 0 {
        forall k | 0 <= k < |parts[0]| ensures IsSpace(parts[0][k]) {
          assert j[k] == parts[0][k];
        }
      } else {
        var rest := Join(parts[1..], d);
        forall k | 0 <= k < |rest| ensures rest[k] == d || IsSpace(rest[k]) {
          assert rest[k] == j[|parts[0]| + 1 + k];
        }
        PartsOfJoin(parts[1..], d, i - 1);
      }
    }
  }

  lemma {:induction false} NonEmptyOfBlanks(xs: seq<string>)
    requires forall i :: 0 <= i < |xs| ==> xs[i] == ""
    ensures NonEmpty(xs) == []
    decreases |xs|
  {
    if |xs| > 0 {
      NonEmptyOfBlanks(xs[1..]);
    }
  }

  /** `corsHeaders`: the caller's origin when it is allowed, else the first
      allowed origin when that is not empty, else `*`. */
  function CorsHeaders(origin: string, allowed: seq<string>): (h: map<string, string>)
    ensures h.Keys == {"Access-Control-Allow-Origin", "Access-Control-Allow-Methods",
                       "Access-Control-Allow-Headers", "Access-Control-Max-Age", "Vary"}
    ensures h["Vary"] == "Origin" && h["Access-Control-Allow-Methods"] == "POST, OPTIONS"
    ensures origin in allowed ==> h["Access-Control-Allow-Origin"] == origin
    ensures h["Access-Control-Allow-Origin"] in allowed || h["Access-Control-Allow-Origin"] == "*"
    ensures origin !in allowed && |allowed| > 0 && allowed[0] != "" ==> h["Access-Control-Allow-Origin"] == allowed[0]
    ensures origin !in allowed && (|allowed| == 0 || allowed[0] == "") ==> h["Access-Control-Allow-Origin"] == "*"
    ensures h["Access-Control-Allow-Headers"] == "Content-Type" && h["Access-Control-Max-Age"] == "86400"
  {
    var allow := if origin in allowed then origin else if |allowed| > 0 && allowed[0] != "" then allowed[0] else "*";
    map[
      "Access-Control-Allow-Origin" := allow,
      "Access-Control-Allow-Methods" := "POST, OPTIONS",
      "Access-Control-Allow-Headers" := "Content-Type",
      "Access-Control-Max-Age" := "86400",
      "Vary" := "Origin"]
  }

  const Success: Json := JObject(map["ok" := JBool(true)])

  // ---------------------------------------------------------------------
  // Cleaning and validating the form
  // ---------------------------------------------------------------------

  /** The only white space is the plain space. */
  predicate BlanksOnly(s: string) {
    forall i :: 0 <= i < |s| && IsSpace(s[i]) ==> s[i] == ' '
  }

  /** No two spaces in a row. */
  predicate SingleBlanks(s: string) {
    forall i :: 1 <= i < |s| && s[i] == ' ' ==> s[i - 1] != ' '
  }

  lemma ConsBlanks(c: char, t: string)
    requires IsSpace(c) ==> c == ' '
    requires BlanksOnly(t) && SingleBlanks(t)
    requires c == ' ' && |t| > 0 ==> t[0] != ' '
    ensures BlanksOnly([c] + t) && SingleBlanks([c] + t)
  {
    var u := [c] + t;
    forall i | 1 <= i < |u| && u[i] == ' ' ensures u[i - 1] != ' ' {
      assert u[i] == t[i - 1];
      if i > 1 {
        assert u[i - 1] == t[i - 2];
      }
    }
  }

  /** `replace(/\s+/g, " ")`: every run of white space becomes one space. */
  function CollapseSpace(s: string): (r: string)
    ensures |r| <= |s|
    ensures |r| > 0 ==> (IsSpace(r[0]) <==> IsSpace(s[0]))
    decreases |s|
  {
    if |s| == 0 then ""
    else if IsSpace(s[0]) then " " + CollapseSpace(TrimStart(s[1..]))
    else [s[0]] + CollapseSpace(s[1..])
  }

  /** What collapsing leaves: only plain spaces, never two in a row, and
      the same non-space characters in the same order. */
  lemma {:induction false} CollapseShape(s: string)
    ensures BlanksOnly(CollapseSpace(s)) && SingleBlanks(CollapseSpace(s))
    ensures Squeeze(CollapseSpace(s)) == Squeeze(s)
    decreases |s|
  {
    if |s| > 0 {
      if IsSpace(s[0]) {
        CollapseShape(TrimStart(s[1..]));
        CollapseRun(s, CollapseSpace(TrimStart(s[1..])));
      } else {
        CollapseShape(s[1..]);
        CollapseKeep(s, CollapseSpace(s[1..]));
      }
    }
  }

  /** A run of white space at the front becomes one space before the rest. */
  lemma CollapseRun(s: string, tail: string)
    requires |s| > 0 && IsSpace(s[0])
    requires BlanksOnly(tail) && SingleBlanks(tail) && Squeeze(tail) == Squeeze(TrimStart(s[1..]))
    requires |tail| > 0 ==> tail[0] != ' '
    ensures BlanksOnly(" " + tail) && SingleBlanks(" " + tail) && Squeeze(" " + tail) == Squeeze(s)
  {
    ConsBlanks(' ', tail);
    SqueezeRun(s, tail);
  }

  lemma SqueezeRun(s: string, tail: string)
    requires |s| > 0 && IsSpace(s[0])
    requires Squeeze(tail) == Squeeze(TrimStart(s[1..]))
    ensures Squeeze(" " + tail) == Squeeze(s)
  {
    SqueezeDropsSpace(' ', tail);
    SqueezeDropsSpace(s[0], s[1..]);
    SqueezeTrimStart(s[1..]);
  }

  lemma SqueezeDropsSpace(c: char, t: string)
    requires IsSpace(c)
    ensures Squeeze([c] + t) == Squeeze(t)
  {
    assert ([c] + t)[1..] == t;
  }

  /** Any other character is kept before the rest. */
  lemma CollapseKeep(s: string, tail: string)
    requires |s| > 0 && !IsSpace(s[0])
    requires BlanksOnly(tail) && SingleBlanks(tail) && Squeeze(tail) == Squeeze(s[1..])
    ensures BlanksOnly([s[0]] + tail) && SingleBlanks([s[0]] + tail) && Squeeze([s[0]] + tail) == Squeeze(s)
  {
    ConsBlanks(s[0], tail);
    SqueezeAppend([s[0]], tail);
    assert s == [s[0]] + s[1..];
    SqueezeAppend([s[0]], s[1..]);
  }

  /** Text without white space is left as it is. */
  lemma {:induction false} CollapseNoSpace(s: string)
    requires NoSpace(s)
    ensures CollapseSpace(s) == s
    decreases |s|
  {
    if |s| > 0 {
      CollapseNoSpace(s[1..]);
      assert s == [s[0]] + s[1..];
    }
  }

  /** Collapsing goes piece by piece across a boundary that does not fall
      inside a run of white space. */
  lemma {:induction false} CollapseAppend(a: string, b: string)
    requires |a| > 0 ==> !IsSpace(a[|a| - 1])
    ensures CollapseSpace(a + b) == CollapseSpace(a) + CollapseSpace(b)
    decreases |a|, 1
  {
    if |a| == 0 {
      assert a + b == b;
    } else if IsSpace(a[0]) {
      CollapseAppendRun(a, b);
    } else {
      CollapseAppendKeep(a, b);
    }
  }

  lemma {:induction false} CollapseAppendRun(a: string, b: string)
    requires |a| > 0 && IsSpace(a[0]) && !IsSpace(a[|a| - 1])
    ensures CollapseSpace(a + b) == CollapseSpace(a) + CollapseSpace(b)
    decreases |a|, 0
  {
    var t := a[1..];
    assert (a + b)[0] == a[0] && (a + b)[1..] == t + b;
    TrimStartAppend(t, b);
    TrimStartKeepsLast(t);
    CollapseAppend(TrimStart(t), b);
    CollapseRunHead(a + b);
  }

  lemma CollapseRunHead(s: string)
    requires |s| > 0 && IsSpace(s[0])
    ensures CollapseSpace(s) == " " + CollapseSpace(TrimStart(s[1..]))
  {
  }

  lemma {:induction false} TrimStartKeepsLast(t: string)
    requires |t| > 0 && !IsSpace(t[|t| - 1])
    ensures |TrimStart(t)| > 0 && TrimStart(t)[|TrimStart(t)| - 1] == t[|t| - 1]
    decreases |t|
  {
    if IsSpace(t[0]) {
      var rest := t[1..];
      assert |t| > 1 && rest[|rest| - 1] == t[|t| - 1];
      assert TrimStart(t) == TrimStart(rest);
      TrimStartKeepsLast(rest);
    } else {
      assert TrimStart(t) == t;
    }
  }

  lemma {:induction false} CollapseAppendKeep(a: string, b: string)
    requires |a| > 0 && !IsSpace(a[0]) && !IsSpace(a[|a| - 1])
    ensures CollapseSpace(a + b) == CollapseSpace(a) + CollapseSpace(b)
    decreases |a|, 0
  {
    assert (a + b)[0] == a[0] && (a + b)[1..] == a[1..] + b;
    CollapseAppend(a[1..], b);
    assert CollapseSpace(a + b) == [a[0]] + CollapseSpace(a[1..] + b);
  }

  lemma {:induction false} TrimStartAppend(t: string, b: string)
    requires |t| > 0 && !IsSpace(t[|t| - 1])
    ensures TrimStart(t + b) == TrimStart(t) + b
    decreases |t|
  {
    if IsSpace(t[0]) {
      assert (t + b)[1..] == t[1..] + b;
      TrimStartAppend(t[1..], b);
    }
  }

  lemma {:induction false} TrimStartBlanks(w: string, y: string)
    requires AllSpace(w)
    requires |y| > 0 ==> !IsSpace(y[0])
    ensures TrimStart(w + y) == y
    decreases |w|
  {
    if |w| > 0 {
      assert (w + y)[1..] == w[1..] + y;
      TrimStartBlanks(w[1..], y);
    } else {
      assert w + y == y;
    }
  }

  /** A run of white space at the front becomes one space. */
  lemma CollapseLeadingRun(w: string, y: string)
    requires |w| > 0 && AllSpace(w)
    requires |y| > 0 ==> !IsSpace(y[0])
    ensures CollapseSpace(w + y) == " " + CollapseSpace(y)
  {
    AllSpaceTail(w);
    var t := w + y;
    assert t[0] == w[0];
    assert t[1..] == w[1..] + y;
    TrimStartBlanks(w[1..], y);
    assert CollapseSpace(t) == " " + CollapseSpace(TrimStart(t[1..]));
  }

  lemma AllSpaceTail(w: string)
    requires |w| > 0 && AllSpace(w)
    ensures IsSpace(w[0]) && AllSpace(w[1..])
  {
  }

  /** A run of white space between two pieces becomes a single space. */
  lemma CollapseGap(x: string, w: string, y: string)
    requires |x| > 0 ==> !IsSpace(x[|x| - 1])
    requires |w| > 0 && AllSpace(w)
    requires |y| > 0 ==> !IsSpace(y[0])
    ensures CollapseSpace(x + w + y) == CollapseSpace(x) + " " + CollapseSpace(y)
  {
    Regroup(x, w, y);
    CollapseAppend(x, w + y);
    CollapseLeadingRun(w, y);
    Regroup(CollapseSpace(x), " ", CollapseSpace(y));
  }

  lemma Regroup(a: string, b: string, c: string)
    ensures a + b + c == a + (b + c)
  {
  }

  function Min(a: nat, b: nat): nat {
    if a < b then a else b
  }

  /** `sanitize(value, maxLength)`: text of the field, runs of white space
      collapsed, trimmed, cut to the maximum length. */
  function Sanitize(text: string, maxLength: nat): (r: string)
    ensures |r| <= maxLength
    ensures BlanksOnly(r) && SingleBlanks(r) && '\n' !in r
    ensures |r| > 0 ==> !IsSpace(r[0])
    ensures maxLength > 0 ==> (r == "" <==> AllSpace(text))
    ensures |r| == Min(maxLength, |Trim(CollapseSpace(text))|) && r == Trim(CollapseSpace(text))[..|r|]
  {
    CollapseShape(text);
    SanitizeShape(CollapseSpace(text), maxLength);
    SanitizeEmpty(text, maxLength);
    Cut(Trim(CollapseSpace(text)), maxLength)
  }

  /** `slice(0, maxLength)`. */
  function Cut(s: string, maxLength: nat): (r: string)
    ensures |r| == Min(maxLength, |s|) && r == s[..|r|]
  {
    s[..Min(maxLength, |s|)]
  }

  lemma SanitizeShape(c: string, maxLength: nat)
    requires BlanksOnly(c) && SingleBlanks(c)
    ensures var r := Cut(Trim(c), maxLength);
      BlanksOnly(r) && SingleBlanks(r) && '\n' !in r && (|r| > 0 ==> !IsSpace(r[0]))
  {
    var r := Cut(Trim(c), maxLength);
    TrimPrefixBlanks(c, |r|);
    BlanksHaveNoBreak(r);
  }

  lemma SanitizeEmpty(text: string, maxLength: nat)
    ensures maxLength > 0 ==> (Cut(Trim(CollapseSpace(text)), maxLength) == "" <==> AllSpace(text))
  {
    CollapseShape(text);
    SqueezeEmpty(CollapseSpace(text));
    SqueezeEmpty(text);
  }

  lemma BlanksHaveNoBreak(s: string)
    requires BlanksOnly(s)
    ensures '\n' !in s
  {
    if '\n' in s {
      var i :| 0 <= i < |s| && s[i] == '\n';
      assert IsSpace(s[i]);
    }
  }

  lemma TrimPrefixBlanks(c: string, m: nat)
    requires BlanksOnly(c) && SingleBlanks(c)
    requires m <= |Trim(c)|
    ensures BlanksOnly(Trim(c)[..m]) && SingleBlanks(Trim(c)[..m])
  {
    var i, j := TrimSlice(c);
    BlanksSlice(c, i, j);
    BlanksSlice(Trim(c), 0, m);
    assert Trim(c)[0..m] == Trim(c)[..m];
  }

  lemma BlanksSlice(s: string, i: nat, j: nat)
    requires i <= j <= |s|
    requires BlanksOnly(s) && SingleBlanks(s)
    ensures BlanksOnly(s[i..j]) && SingleBlanks(s[i..j])
  {
    var u := s[i..j];
    forall k | 1 <= k < |u| && u[k] == ' ' ensures u[k - 1] != ' ' {
      assert u[k] == s[i + k] && u[k - 1] == s[i + k - 1];
    }
  }

  /** Nothing but white space is lost while the field fits its maximum. */
  lemma SanitizeKeepsContent(text: string, maxLength: nat)
    requires |Trim(CollapseSpace(text))| <= maxLength
    ensures Squeeze(Sanitize(text, maxLength)) == Squeeze(text)
  {
    CollapseShape(text);
    CutShort(Trim(CollapseSpace(text)), maxLength);
    SqueezeTrim(CollapseSpace(text));
  }

  lemma CutShort(s: string, maxLength: nat)
    requires |s| <= maxLength
    ensures Cut(s, maxLength) == s
  {
  }

  /** The pattern `^[^\s@]+@[^\s@]+\.[^\s@]+$` read directly: some `@` and
      a later `.` split the text into three non-empty runs of characters
      that are neither white space nor `@`. */
  predicate MatchesEmailPattern(s: string) {
    exists a, k :: 0 < a && a + 1 < k && k + 1 < |s| && s[a] == '@' && s[k] == '.'
                   && Plain(s[..a]) && Plain(s[a + 1..k]) && Plain(s[k + 1..])
  }

  predicate Plain(s: string) {
    forall i :: 0 <= i < |s| ==> !IsSpace(s[i]) && s[i] != '@'
  }

  /** The position of the first `c` in `s`, or `|s|`. */
  function IndexOf(s: string, c: char): (i: nat)
    ensures i <= |s|
    ensures i < |s| ==> s[i] == c
    ensures c !in s[..i]
  {
    if |s| == 0 then 0
    else if s[0] == c then 0
    else
      var i := 1 + IndexOf(s[1..], c);
      assert s[..i] == [s[0]] + s[1..][..i - 1];
      i
  }

  lemma PlainHasNoAt(x: string)
    requires Plain(x)
    ensures '@' !in x
  {
  }

  lemma IndexOfFirst(s: string, c: char, a: nat)
    requires a < |s| && s[a] == c && c !in s[..a]
    ensures IndexOf(s, c) == a
  {
  }

  /** `isValidEmail`, decided in one pass: one `@` after a plain local part,
      and a plain domain with a `.` strictly inside it. */
  predicate IsValidEmail(s: string) {
    var a := IndexOf(s, '@');
    0 < a < |s| && Plain(s[..a])
    && var d := s[a + 1..];
    |d| >= 3 && Plain(d) && '.' in d[1..|d| - 1]
  }

  lemma PlainSlice(s: string, i: nat, j: nat)
    requires i <= j <= |s| && Plain(s)
    ensures Plain(s[i..j])
  {
    assert forall k :: 0 <= k < j - i ==> s[i..j][k] == s[i + k];
  }

  lemma ValidEmailMatches(s: string)
    requires IsValidEmail(s)
    ensures MatchesEmailPattern(s)
  {
    var a := IndexOf(s, '@');
    var d := s[a + 1..];
    var m :| 0 <= m < |d| - 2 && d[1..|d| - 1][m] == '.';
    var k := a + 2 + m;
    assert s[k] == d[m + 1] == '.';
    assert s[a + 1..k] == d[..m + 1];
    assert s[k + 1..] == d[m + 2..];
    PlainSlice(d, 0, m + 1);
    PlainSlice(d, m + 2, |d|);
    assert s[a] == '@' && Plain(s[..a]) && Plain(s[a + 1..k]) && Plain(s[k + 1..]);
  }

  lemma MatchesValidEmail(s: string)
    requires MatchesEmailPattern(s)
    ensures IsValidEmail(s)
  {
    var a, k :| 0 < a && a + 1 < k && k + 1 < |s| && s[a] == '@' && s[k] == '.'
                && Plain(s[..a]) && Plain(s[a + 1..k]) && Plain(s[k + 1..]);
    DomainOf(s, a, k);
    ValidEmailAt(s, a);
  }

  /** A plain local part ending at `a` makes `a` the first `@`. */
  lemma ValidEmailAt(s: string, a: nat)
    requires 0 < a < |s| && s[a] == '@' && Plain(s[..a])
    requires |s[a + 1..]| >= 3 && Plain(s[a + 1..]) && '.' in s[a + 1..][1..|s[a + 1..]| - 1]
    ensures IsValidEmail(s)
  {
    PlainHasNoAt(s[..a]);
    IndexOfFirst(s, '@', a);
  }

  lemma DomainOf(s: string, a: nat, k: nat)
    requires a + 1 < k && k + 1 < |s| && s[k] == '.'
    requires Plain(s[a + 1..k]) && Plain(s[k + 1..])
    ensures |s[a + 1..]| >= 3 && Plain(s[a + 1..]) && '.' in s[a + 1..][1..|s[a + 1..]| - 1]
  {
    var d := s[a + 1..];
    assert d == s[a + 1..k] + [s[k]] + s[k + 1..];
    PlainAround(s[a + 1..k], '.', s[k + 1..]);
    assert d[1..|d| - 1][k - a - 2] == '.';
  }

  lemma PlainAround(x: string, c: char, y: string)
    requires Plain(x) && Plain(y) && !IsSpace(c) && c != '@'
    ensures Plain(x + [c] + y)
  {
    var z := x + [c] + y;
    forall i | 0 <= i < |z| ensures !IsSpace(z[i]) && z[i] != '@' {
      if i < |x| {
        assert z[i] == x[i];
      } else if i > |x| {
        assert z[i] == y[i - |x| - 1];
      }
    }
  }

  /** The one-pass check agrees with the pattern on every input. */
  lemma EmailMatchesPattern(s: string)
    ensures IsValidEmail(s) <==> MatchesEmailPattern(s)
  {
    if IsValidEmail(s) {
      ValidEmailMatches(s);
    }
    if MatchesEmailPattern(s) {
      MatchesValidEmail(s);
    }
  }

  /** The cleaned form. */
  datatype Form = Form(name: string, email: string, message: string, company: string, source: string)

  /** The cleaned fields of a payload: e-mail addresses are lower-cased
      after cutting. */
  function ReadForm(payload: Json): (f: Form)
    ensures |f.name| <= 120 && |f.email| <= 254 && |f.message| <= 5000
    ensures |f.company| <= 120 && |f.source| <= 500
    ensures '\n' !in f.name && '\n' !in f.message && '\n' !in f.source
  {
    Form(Sanitize(FieldText(Get(payload, "name")), 120), Lower(Sanitize(FieldText(Get(payload, "email")), 254)), Sanitize(FieldText(Get(payload, "message")), 5000),
         Sanitize(FieldText(Get(payload, "company")), 120), Sanitize(FieldText(Get(payload, "source")), 500))
  }

  /** Which property feeds which field: each is cleaned to its own
      maximum, and the e-mail address is lower-cased after cutting. */
  lemma ReadFormFields(payload: Json)
    ensures var f := ReadForm(payload);
      && f.name == Sanitize(FieldText(Get(payload, "name")), 120)
      && f.email == Lower(Sanitize(FieldText(Get(payload, "email")), 254))
      && f.message == Sanitize(FieldText(Get(payload, "message")), 5000)
      && f.company == Sanitize(FieldText(Get(payload, "company")), 120)
      && f.source == Sanitize(FieldText(Get(payload, "source")), 500)
  {
  }

  /** The checks after the honeypot, in order; the first that fails names
      the error. */
  function Invalid(f: Form): (e: Option<string>)
    ensures e.None? <==> |f.name| >= 2 && IsValidEmail(f.email) && |f.message| >= 10
    ensures |f.name| < 2 ==> e == Some("Name is required")
    ensures |f.name| >= 2 && !IsValidEmail(f.email) ==> e == Some("A valid email is required")
    ensures |f.name| >= 2 && IsValidEmail(f.email) && |f.message| < 10 ==> e == Some("Message is too short")
  {
    if |f.name| < 2 then Some("Name is required")
    else if !IsValidEmail(f.email) then Some("A valid email is required")
    else if |f.message| < 10 then Some("Message is too short")
    else None
  }

  // ---------------------------------------------------------------------
  // The e-mail
  // ---------------------------------------------------------------------

  function EscapeChar(c: char): (r: string)
    ensures c != '\n' ==> '<' !in r && '>' !in r
    ensures r != ""
  {
    if c == '&' then "&amp;"
    else if c == '<' then "&lt;"
    else if c == '>' then "&gt;"
    else if c == '\n' then "<br />"
    else [c]
  }

  /** The character-by-character reading of the message's HTML escape. */
  function EscapeEach(s: string): (r: string)
    ensures '\n' !in s ==> '<' !in r && '>' !in r
    ensures |r| >= |s|
  {
    if |s| == 0 then "" else EscapeChar(s[0]) + EscapeEach(s[1..])
  }

  /** The four global replaces the worker applies to the message, in order. */
  function EscapeMessage(s: string): (r: string)
    ensures '\n' !in r
  {
    ReplaceChar(ReplaceChar(ReplaceChar(ReplaceChar(s, '&', "&amp;"), '<', "&lt;"), '>', "&gt;"), '\n', "<br />")
  }

  lemma EscapeMessageAppend(a: string, b: string)
    ensures EscapeMessage(a + b) == EscapeMessage(a) + EscapeMessage(b)
  {
    ReplaceCharAppend(a, b, '&', "&amp;");
    var a1, b1 := ReplaceChar(a, '&', "&amp;"), ReplaceChar(b, '&', "&amp;");
    ReplaceCharAppend(a1, b1, '<', "&lt;");
    var a2, b2 := ReplaceChar(a1, '<', "&lt;"), ReplaceChar(b1, '<', "&lt;");
    ReplaceCharAppend(a2, b2, '>', "&gt;");
    var a3, b3 := ReplaceChar(a2, '>', "&gt;"), ReplaceChar(b2, '>', "&gt;");
    ReplaceCharAppend(a3, b3, '\n', "<br />");
  }

  lemma EscapeMessageChar(c: char)
    ensures EscapeMessage([c]) == EscapeChar(c)
  {
    EscapeOneWith(c, "&amp;", "&lt;", "&gt;", "<br />");
  }

  /** The four replaces on one character, for any replacement texts that do
      not hold a character a later replace looks for. */
  lemma EscapeOneWith(c: char, amp: string, lt: string, gt: string, br: string)
    requires '<' !in amp && '>' !in amp && '\n' !in amp && '>' !in lt && '\n' !in lt && '\n' !in gt
    ensures ReplaceChar(ReplaceChar(ReplaceChar(ReplaceChar([c], '&', amp), '<', lt), '>', gt), '\n', br)
            == if c == '&' then amp else if c == '<' then lt else if c == '>' then gt else if c == '\n' then br else [c]
  {
    ReplaceCharSingle(c, '&', amp);
    if c == '&' {
      ReplaceCharAbsent(amp, '<', lt);
      ReplaceCharAbsent(amp, '>', gt);
      ReplaceCharAbsent(amp, '\n', br);
    } else {
      ReplaceCharSingle(c, '<', lt);
      if c == '<' {
        ReplaceCharAbsent(lt, '>', gt);
        ReplaceCharAbsent(lt, '\n', br);
      } else {
        ReplaceCharSingle(c, '>', gt);
        if c == '>' {
          ReplaceCharAbsent(gt, '\n', br);
        } else {
          ReplaceCharSingle(c, '\n', br);
        }
      }
    }
  }

  /** The sequence of replaces escapes each character on its own: no
      replace sees text an earlier one produced. */
  lemma {:induction false} EscapeMessageIsPerChar(s: string)
    ensures EscapeMessage(s) == EscapeEach(s)
    decreases |s|
  {
    if |s| > 0 {
      assert s == [s[0]] + s[1..];
      EscapeMessageAppend([s[0]], s[1..]);
      EscapeMessageChar(s[0]);
      EscapeMessageIsPerChar(s[1..]);
    }
  }

  /** Reads the entities the escape writes back into characters. */
  function Unescape(h: string): string
    decreases |h|
  {
    if |h| == 0 then ""
    else if "&amp;" <= h then "&" + Unescape(h[5..])
    else if "&lt;" <= h then "<" + Unescape(h[4..])
    else if "&gt;" <= h then ">" + Unescape(h[4..])
    else [h[0]] + Unescape(h[1..])
  }

  /** A message without line breaks, which is every cleaned message, is
      recovered from its HTML form. */
  lemma {:induction false} UnescapeEscape(s: string)
    requires '\n' !in s
    ensures Unescape(EscapeMessage(s)) == s
  {
    EscapeMessageIsPerChar(s);
    UnescapeEach(s);
  }

  lemma {:induction false} UnescapeEach(s: string)
    requires '\n' !in s
    ensures Unescape(EscapeEach(s)) == s
    decreases |s|
  {
    if |s| > 0 {
      UnescapeEach(s[1..]);
      UnescapeOne(s[0], EscapeEach(s[1..]));
      assert s == [s[0]] + s[1..];
    }
  }

  /** Reading back one escaped character. */
  lemma UnescapeOne(c: char, rest: string)
    requires c != '\n'
    ensures Unescape(EscapeChar(c) + rest) == [c] + Unescape(rest)
  {
    var h := EscapeChar(c) + rest;
    if c == '&' {
      assert "&amp;" <= h && h[5..] == rest;
    } else if c == '<' {
      assert h[1] == 'l';
      assert "&lt;" <= h && h[4..] == rest;
    } else if c == '>' {
      assert h[1] == 'g';
      assert "&gt;" <= h && h[4..] == rest;
    } else {
      assert h[0] == c && h[1..] == rest;
    }
  }

  /** The plain-text body: the labelled lines joined by line breaks, with
      every empty line, including the intended blank one, filtered out. */
  function TextBody(f: Form): (r: string)
    ensures "Name: " + f.name <= r
  {
    var lines := NonEmpty(["Name: " + f.name, "Email: " + f.email,
                           if f.source != "" then "Source: " + f.source else "",
                           "", "Message:", f.message]);
    JoinHead(lines, '\n');
    Join(lines, '\n')
  }

  lemma JoinHead(parts: seq<string>, d: char)
    requires |parts| > 0
    ensures parts[0] <= Join(parts, d)
  {
  }

  /** Read back line by line, the text body gives its labelled lines, the
      source line only when there is a source, and no blank line. */
  lemma TextBodyLines(f: Form)
    requires '\n' !in f.name && '\n' !in f.email && '\n' !in f.message && '\n' !in f.source
    requires f.message != ""
    ensures Split(TextBody(f), '\n') ==
      ["Name: " + f.name, "Email: " + f.email]
      + (if f.source != "" then ["Source: " + f.source] else [])
      + ["Message:", f.message]
  {
    var n, e := "Name: " + f.name, "Email: " + f.email;
    var sl := if f.source != "" then "Source: " + f.source else "";
    assert '\n' !in n && '\n' !in e && '\n' !in sl by {
      NoBreakAppend("Name: ", f.name);
      NoBreakAppend("Email: ", f.email);
      NoBreakAppend("Source: ", f.source);
    }
    FilteredLines(n, e, sl, f.message);
    var lines := [n, e] + (if sl != "" then [sl] else []) + ["Message:", f.message];
    assert forall i :: 0 <= i < |lines| ==> '\n' !in lines[i];
    SplitJoin(lines, '\n');
  }

  lemma NoBreakAppend(a: string, b: string)
    requires '\n' !in a && '\n' !in b
    ensures '\n' !in a + b
  {
  }

  lemma FilteredLines(n: string, e: string, sl: string, m: string)
    requires n != "" && e != "" && m != ""
    ensures NonEmpty([n, e, sl, "", "Message:", m]) == [n, e] + (if sl != "" then [sl] else []) + ["Message:", m]
  {
    assert [n, e, sl, "", "Message:", m] == [n, e] + [sl, ""] + ["Message:", m];
    NonEmptyAppend([n, e] + [sl, ""], ["Message:", m]);
    NonEmptyAppend([n, e], [sl, ""]);
    NonEmptyOfNonEmpty([n, e]);
    NonEmptyOfNonEmpty(["Message:", m]);
    assert [sl, ""][1..] == [""];
  }

  /** The fixed text of the HTML body around the four field texts. */
  datatype Template = Template(
    head: string, afterName: string, afterEmail: string,
    sourceOpen: string, sourceClose: string, beforeMessage: string, tail: string)

  const Html: Template := Page("\n")

  /** The worker's template, its line breaks written as `nl`. */
  function Page(nl: string): Template {
    Template(
      nl + "        <h2>New portfolio inquiry</h2>" + nl + "        <p><strong>Name:</strong> ",
      "</p>" + nl + "        <p><strong>Email:</strong> ",
      "</p>" + nl + "        ",
      "<p><strong>Source:</strong> ",
      "</p>",
      nl + "        <p><strong>Message:</strong></p>" + nl + "        <p>",
      "</p>" + nl + "      ")
  }

  /** A template filled in with the given field texts; the source paragraph
      is present only when there is a source. */
  function Fill(t: Template, name: string, email: string, source: string, message: string): string {
    t.head + name + t.afterName + email + t.afterEmail + SourceBlock(t, source)
    + t.beforeMessage + message + t.tail
  }

  function SourceBlock(t: Template, source: string): string {
    if source != "" then t.sourceOpen + source + t.sourceClose else ""
  }

  /** The HTML body as written: only the message is escaped; name, e-mail
      and source go in as typed. */
  function HtmlBodyAsWritten(f: Form): (r: string)
    ensures Html.head + f.name + Html.afterName + f.email + Html.afterEmail <= r
  {
    Fill(Html, f.name, f.email, f.source, EscapeMessage(f.message))
  }

  /** Characters the escape leaves alone. */
  predicate Inert(s: string) {
    '&' !in s && '<' !in s && '>' !in s && '\n' !in s
  }

  lemma EscapeInert(s: string)
    requires Inert(s)
    ensures EscapeMessage(s) == s
  {
    ReplaceCharAbsent(s, '&', "&amp;");
    ReplaceCharAbsent(s, '<', "&lt;");
    ReplaceCharAbsent(s, '>', "&gt;");
    ReplaceCharAbsent(s, '\n', "<br />");
  }

  /** The escape only matters for fields holding markup characters: for
      the others, the body as written is the escaped one. */
  lemma HtmlBodiesAgreeWhenInert(f: Form)
    requires Inert(f.name) && Inert(f.email) && Inert(f.source)
    ensures HtmlBodyAsWritten(f) == HtmlBody(f)
  {
    EscapeInert(f.name);
    EscapeInert(f.email);
    EscapeInert(f.source);
  }

  /** The HTML body with every field escaped. */
  function HtmlBody(f: Form): string {
    Fill(Html, EscapeMessage(f.name), EscapeMessage(f.email), EscapeMessage(f.source), EscapeMessage(f.message))
  }

  /** How many tags a template itself opens or closes. */
  function TemplateTags(t: Template, withSource: bool): nat {
    Count(t.head, '<') + Count(t.afterName, '<') + Count(t.afterEmail, '<')
    + Count(t.beforeMessage, '<') + Count(t.tail, '<')
    + (if withSource then Count(t.sourceOpen, '<') + Count(t.sourceClose, '<') else 0)
  }

  lemma SourceBlockCount(t: Template, source: string)
    ensures Count(SourceBlock(t, source), '<') ==
      Count(source, '<') + (if source != "" then Count(t.sourceOpen, '<') + Count(t.sourceClose, '<') else 0)
  {
    if source != "" {
      CountAppend(t.sourceOpen, source, '<');
      CountAppend(t.sourceOpen + source, t.sourceClose, '<');
    }
  }

  /** The tags of a filled template are the template's own plus those in
      the field texts. */
  lemma FillCount(t: Template, name: string, email: string, source: string, message: string)
    ensures Count(Fill(t, name, email, source, message), '<') ==
      TemplateTags(t, source != "") + Count(name, '<') + Count(email, '<')
      + Count(source, '<') + Count(message, '<')
  {
    SourceBlockCount(t, source);
    var s1 := t.head + name;
    var s2 := s1 + t.afterName;
    var s3 := s2 + email;
    var s4 := s3 + t.afterEmail;
    var s5 := s4 + SourceBlock(t, source);
    var s6 := s5 + t.beforeMessage;
    var s7 := s6 + message;
    CountAppend(t.head, name, '<');
    CountAppend(s1, t.afterName, '<');
    CountAppend(s2, email, '<');
    CountAppend(s3, t.afterEmail, '<');
    CountAppend(s4, SourceBlock(t, source), '<');
    CountAppend(s5, t.beforeMessage, '<');
    CountAppend(s6, message, '<');
    CountAppend(s7, t.tail, '<');
  }

  /** An escaped one-line field holds no tag, and is empty only when the
      field is. */
  lemma EscapedTags(s: string)
    requires '\n' !in s
    ensures Count(EscapeMessage(s), '<') == 0
    ensures EscapeMessage(s) == "" <==> s == ""
  {
    EscapeMessageIsPerChar(s);
  }

  /** With every field escaped, the only tags in the HTML are the
      template's own, whatever the visitor typed. */
  lemma HtmlBodyTagsAreTemplate(f: Form)
    requires '\n' !in f.name && '\n' !in f.email && '\n' !in f.source && '\n' !in f.message
    ensures Count(HtmlBody(f), '<') == TemplateTags(Html, f.source != "")
  {
    EscapedTags(f.name);
    EscapedTags(f.email);
    EscapedTags(f.source);
    EscapedTags(f.message);
    FillCount(Html, EscapeMessage(f.name), EscapeMessage(f.email), EscapeMessage(f.source), EscapeMessage(f.message));
  }

  /** A visitor's form with the given name and a message that quotes it. */
  function Visitor(name: string): Form {
    Form(name, "eve@example.com", "Hello from " + name, "", "")
  }

  /** The form a visitor can send whose name carries its own markup. */
  const MarkupName: string := "<b>Eve</b>"
  const MarkupForm: Form := Visitor(MarkupName)

  lemma LowerIsPlain(s: string)
    requires forall i :: 0 <= i < |s| ==> 'a' <= s[i] <= 'z' || s[i] == '.'
    ensures Plain(s)
  {
    forall i | 0 <= i < |s| ensures !IsSpace(s[i]) && s[i] != '@' {
      assert 'a' <= s[i] <= 'z' || s[i] == '.';
    }
  }

  lemma MarkupEmailMatches()
    ensures MatchesEmailPattern(MarkupForm.email)
  {
    var e := MarkupForm.email;
    assert e[3] == '@' && e[11] == '.';
    LowerIsPlain(e[..3]);
    LowerIsPlain(e[4..11]);
    LowerIsPlain(e[12..]);
  }

  lemma MarkupFormIsValid()
    ensures Invalid(MarkupForm).None? && MarkupForm.company == ""
  {
    MarkupEmailMatches();
    EmailMatchesPattern(MarkupForm.email);
  }

  lemma MarkupNameTags()
    ensures Count(MarkupName, '<') == 2
  {
  }

  lemma MarkupEmailTags()
    ensures Count(MarkupForm.email, '<') == 0
  {
    assert '<' !in MarkupForm.email;
  }

  lemma MarkupMessageOneLine()
    ensures '\n' !in MarkupForm.message
  {
  }

  lemma MarkupOneLine()
    ensures '\n' !in MarkupForm.name && '\n' !in MarkupForm.email
  {
  }

  /** As written, the tags in the HTML are the template's plus every one
      the visitor typed into the name, e-mail or source. */
  lemma AsWrittenTags(f: Form)
    requires '\n' !in f.message
    ensures Count(HtmlBodyAsWritten(f), '<') ==
      TemplateTags(Html, f.source != "") + Count(f.name, '<') + Count(f.email, '<') + Count(f.source, '<')
  {
    FillCount(Html, f.name, f.email, f.source, EscapeMessage(f.message));
    EscapedTags(f.message);
  }

  lemma MarkupAsWrittenTags()
    ensures Count(HtmlBodyAsWritten(MarkupForm), '<') == TemplateTags(Html, false) + 2
  {
    MarkupNameTags();
    MarkupEmailTags();
    MarkupMessageOneLine();
    AsWrittenTags(MarkupForm);
  }

  lemma MarkupEscapedTags()
    ensures Count(HtmlBody(MarkupForm), '<') == TemplateTags(Html, false)
  {
    MarkupOneLine();
    MarkupMessageOneLine();
    HtmlBodyTagsAreTemplate(MarkupForm);
  }

  /** As written, a name with markup passes validation and its tags land in
      the HTML beside the template's; escaped, they do not. */
  lemma NameMarkupReachesHtml()
    ensures Invalid(MarkupForm).None? && MarkupForm.company == ""
    ensures Count(HtmlBodyAsWritten(MarkupForm), '<') == TemplateTags(Html, false) + 2
    ensures Count(HtmlBody(MarkupForm), '<') == TemplateTags(Html, false)
  {
    MarkupFormIsValid();
    MarkupAsWrittenTags();
    MarkupEscapedTags();
  }

  function EmailOf(env: Env, f: Form, escapeAll: bool): (e: Email)
    ensures e.replyTo == f.email && e.to == [env.contactTo] && e.from == env.resendFrom
    ensures e.subject == "Portfolio inquiry from " + f.name
  {
    Email(env.resendFrom, [env.contactTo], f.email, "Portfolio inquiry from " + f.name,
          TextBody(f), if escapeAll then HtmlBody(f) else HtmlBodyAsWritten(f))
  }

  /** The e-mail carries the plain-text body, and the HTML body escaped as
      the switch says. */
  lemma EmailOfBodies(env: Env, f: Form, escapeAll: bool)
    ensures EmailOf(env, f, escapeAll).text == TextBody(f)
    ensures EmailOf(env, f, escapeAll).html == if escapeAll then HtmlBody(f) else HtmlBodyAsWritten(f)
  {
  }

  // ---------------------------------------------------------------------
  // The handler
  // ---------------------------------------------------------------------

  /** The CORS headers every answer to `req` carries. */
  function CorsFor(req: Request, env: Env): map<string, string> {
    CorsHeaders(req.origin.GetOr(""), AllowedOrigins(env.allowedOrigins))
  }

  /** A response carrying every header of `cors` unchanged. */
  predicate CarriesCors(r: Response, cors: map<string, string>) {
    forall k :: k in cors ==> k in r.headers && r.headers[k] == cors[k]
  }

  /** `jsonResponse(payload, status, responseCorsHeaders)`, seen from the
      handler: the status, the payload and every CORS header. */
  function Answer(payload: Json, status: int, cors: map<string, string>): (r: Response)
    ensures r.status == status && r.body == Some(payload) && CarriesCors(r, cors)
  {
    JsonResponse(payload, status, cors)
  }

  /** The checks before the body is read: a response, or go on. */
  datatype Gate = Stop(response: Response) | Proceed(payload: Json)

  function Preflight(req: Request, env: Env, parse: Parser): (g: Gate)
    ensures g.Proceed? <==> req.pathname == "/api/contact" && req.httpMethod == "POST"
                            && req.origin.GetOr("") in AllowedOrigins(env.allowedOrigins)
                            && parse(req.body).Parsed?
    ensures g.Proceed? ==> g.payload == parse(req.body).value
    ensures g.Stop? ==> CarriesCors(g.response, CorsFor(req, env))
    ensures g.Stop? ==> g.response.status in {204, 400, 403, 404, 405}
    ensures req.pathname != "/api/contact" ==> g.Stop? && g.response.status == 404
    ensures req.pathname == "/api/contact" && req.httpMethod == "OPTIONS" ==>
              g.Stop? && g.response.status == 204 && g.response.body.None?
    ensures req.pathname == "/api/contact" && req.httpMethod != "OPTIONS" && req.httpMethod != "POST" ==>
              g.Stop? && g.response.status == 405
    ensures req.pathname == "/api/contact" && req.httpMethod == "POST"
            && req.origin.GetOr("") !in AllowedOrigins(env.allowedOrigins) ==>
              g.Stop? && g.response.status == 403
    ensures g.Stop? && g.response.status == 400 <==>
              req.pathname == "/api/contact" && req.httpMethod == "POST"
              && req.origin.GetOr("") in AllowedOrigins(env.allowedOrigins) && parse(req.body).Malformed?
  {
    var origin := req.origin.GetOr("");
    var allowed := AllowedOrigins(env.allowedOrigins);
    var cors := CorsHeaders(origin, allowed);
    if req.pathname != "/api/contact" then Stop(Answer(Failure("Not found"), 404, cors))
    else if req.httpMethod == "OPTIONS" then Stop(Response(204, cors, None))
    else if req.httpMethod != "POST" then Stop(Answer(Failure("Method not allowed"), 405, cors))
    else if origin !in allowed then Stop(Answer(Failure("Origin not allowed"), 403, cors))
    else match parse(req.body)
      case Malformed => Stop(Answer(Failure("Invalid JSON body"), 400, cors))
      case Parsed(payload) => Proceed(payload)
  }

  /** The status the worker answers with once the provider has been called. */
  function ReplyStatus(reply: ProviderReply): int {
    match reply
    case Delivered => 200
    case Rejected(_, _) => 502
    case Unreachable => 500
  }

  /** The body that goes with it. */
  function ReplyPayload(reply: ProviderReply): Json {
    match reply
    case Delivered => Success
    case Rejected(_, _) => Failure("Email provider rejected request")
    case Unreachable => Failure("Server error")
  }

  /** Everything after the body is read, for a payload whose fields can be
      read: the honeypot, the checks, then the provider. */
  function Submit(req: Request, env: Env, payload: Json, reply: ProviderReply, escapeAll: bool): (h: Handled)
    ensures h.outcome.Answered? && CarriesCors(h.outcome.response, CorsFor(req, env))
    ensures h.call.Some? <==> ReadForm(payload).company == "" && Invalid(ReadForm(payload)).None?
    ensures h.call.Some? ==> h.call.value == ProviderCall("Bearer " + env.resendApiKey, EmailOf(env, ReadForm(payload), escapeAll))
    ensures h.call.Some? ==> h.outcome.response.status == ReplyStatus(reply)
    ensures h.call.None? ==> h.outcome.response.status == (if ReadForm(payload).company != "" then 200 else 400)
  {
    Decide(env, ReadForm(payload), reply, escapeAll, CorsFor(req, env))
  }

  /** The body and status of the answer once the body is read: `{ ok: true }`
      and 200 for a filled honeypot, the first failing check's error and
      400, otherwise what goes with the provider's outcome. */
  function Verdict(f: Form, reply: ProviderReply): (v: (Json, int))
    ensures f.company != "" ==> v == (Success, 200)
    ensures f.company == "" && Invalid(f).Some? ==> v == (Failure(Invalid(f).value), 400)
    ensures f.company == "" && Invalid(f).None? ==> v == (ReplyPayload(reply), ReplyStatus(reply))
  {
    if f.company != "" then (Success, 200)
    else if Invalid(f).Some? then (Failure(Invalid(f).value), 400)
    else (ReplyPayload(reply), ReplyStatus(reply))
  }

  /** The honeypot, the checks and the provider, on the cleaned form, with
      the CORS headers already chosen for the request. */
  function Decide(env: Env, f: Form, reply: ProviderReply, escapeAll: bool, cors: map<string, string>): (h: Handled)
    ensures h.outcome.Answered? && CarriesCors(h.outcome.response, cors)
    ensures h.outcome.response.body == Some(Verdict(f, reply).0)
    ensures h.call.Some? <==> f.company == "" && Invalid(f).None?
    ensures h.call.Some? ==> h.call.value == ProviderCall("Bearer " + env.resendApiKey, EmailOf(env, f, escapeAll))
    ensures h.call.Some? ==> h.outcome.response.status == ReplyStatus(reply)
    ensures h.call.None? ==> h.outcome.response.status == (if f.company != "" then 200 else 400)
  {
    var v := Verdict(f, reply);
    var call := if f.company == "" && Invalid(f).None?
                then Some(ProviderCall("Bearer " + env.resendApiKey, EmailOf(env, f, escapeAll))) else None;
    Handled(Answered(Answer(v.0, v.1, cors)), call)
  }

  /** The worker's `fetch` as written: a body of `null` parses, and reading
      `payload.name` on it throws. */
  function HandleAsWritten(req: Request, env: Env, parse: Parser, reply: ProviderReply): (h: Handled)
    ensures h.outcome.Answered? ==> CarriesCors(h.outcome.response, CorsFor(req, env))
    ensures h.outcome.Threw? ==> h.call.None? && Preflight(req, env, parse).Proceed?
    ensures h.call.Some? ==>
              Preflight(req, env, parse).Proceed?
              && h.call.value.email == EmailOf(env, ReadForm(Preflight(req, env, parse).payload), false)
  {
    match Preflight(req, env, parse)
    case Stop(response) => Handled(Answered(response), None)
    case Proceed(payload) =>
      if payload == JNull then Handled(Threw, None)
      else Submit(req, env, payload, reply, false)
  }

  /** The worker with a `null` body refused like an unparsable one, and with
      every field escaped in the HTML. */
  function Handle(req: Request, env: Env, parse: Parser, reply: ProviderReply): (h: Handled)
    ensures h.outcome.Answered? && CarriesCors(h.outcome.response, CorsFor(req, env))
  {
    match Preflight(req, env, parse)
    case Stop(response) => Handled(Answered(response), None)
    case Proceed(payload) =>
      if payload == JNull then
        Handled(Answered(Answer(Failure("Invalid JSON body"), 400, CorsFor(req, env))), None)
      else Submit(req, env, payload, reply, true)
  }

  /** What a request must be for an e-mail to go out. */
  predicate Accepted(req: Request, env: Env, parse: Parser) {
    && req.pathname == "/api/contact" && req.httpMethod == "POST"
    && req.origin.GetOr("") in AllowedOrigins(env.allowedOrigins)
    && parse(req.body).Parsed? && parse(req.body).value != JNull
    && ReadForm(parse(req.body).value).company == ""
    && Invalid(ReadForm(parse(req.body).value)).None?
  }

  /** The provider is called exactly for accepted submissions, with the
      configured key and the e-mail built from the cleaned form. */
  lemma HandleSendsOnlyAccepted(req: Request, env: Env, parse: Parser, reply: ProviderReply)
    ensures Handle(req, env, parse, reply).call.Some? <==> Accepted(req, env, parse)
    ensures Handle(req, env, parse, reply).call.Some? ==>
              Handle(req, env, parse, reply).call.value ==
              ProviderCall("Bearer " + env.resendApiKey, EmailOf(env, ReadForm(parse(req.body).value), true))
  {
    if Preflight(req, env, parse).Stop? {
      StoppedSendsNothing(req, env, parse, reply);
    } else {
      var payload := parse(req.body).value;
      ProceedCall(req, env, parse, reply);
      if payload != JNull {
        var f := ReadForm(payload);
        assert Submit(req, env, payload, reply, true).call.Some? <==> f.company == "" && Invalid(f).None?;
      }
    }
  }

  lemma StoppedSendsNothing(req: Request, env: Env, parse: Parser, reply: ProviderReply)
    requires Preflight(req, env, parse).Stop?
    ensures Handle(req, env, parse, reply).call.None? && !Accepted(req, env, parse)
  {
  }

  lemma ProceedCall(req: Request, env: Env, parse: Parser, reply: ProviderReply)
    requires Preflight(req, env, parse).Proceed?
    ensures parse(req.body).Parsed?
    ensures Accepted(req, env, parse) <==>
              parse(req.body).value != JNull
              && ReadForm(parse(req.body).value).company == "" && Invalid(ReadForm(parse(req.body).value)).None?
    ensures Handle(req, env, parse, reply).call ==
              if parse(req.body).value == JNull then None
              else Submit(req, env, parse(req.body).value, reply, true).call
  {
  }

  /** Every answer echoes the caller's origin exactly when it is allowed
      (an origin of `*` aside, which the fallback also writes). */
  lemma HandleEchoesAllowedOrigin(req: Request, env: Env, parse: Parser, reply: ProviderReply)
    requires req.origin.GetOr("") != "*"
    ensures req.origin.GetOr("") in AllowedOrigins(env.allowedOrigins) <==>
              Handle(req, env, parse, reply).outcome.response.headers["Access-Control-Allow-Origin"] == req.origin.GetOr("")
  {
    var h := Handle(req, env, parse, reply);
    assert "Access-Control-Allow-Origin" in CorsFor(req, env);
  }

  /** An accepted submission answers with the provider's outcome: 200 when
      it took the e-mail, 502 when it refused, 500 when it could not be
      reached. */
  lemma AcceptedStatus(req: Request, env: Env, parse: Parser, reply: ProviderReply)
    requires Accepted(req, env, parse)
    ensures Handle(req, env, parse, reply).outcome.response.status == ReplyStatus(reply)
  {
    assert Preflight(req, env, parse) == Proceed(parse(req.body).value);
  }

  /** 404 off the path; 204 without a body for a preflight on it. */
  lemma RoutingStatus(req: Request, env: Env, parse: Parser, reply: ProviderReply)
    ensures req.pathname != "/api/contact" ==> Handle(req, env, parse, reply).outcome.response.status == 404
    ensures req.pathname == "/api/contact" && req.httpMethod == "OPTIONS" ==>
              Handle(req, env, parse, reply).outcome.response.status == 204
              && Handle(req, env, parse, reply).outcome.response.body.None?
  {
  }

  /** A body that does not parse answers 400, as does one that parses to
      `null`. */
  lemma BadBodyStatus(req: Request, env: Env, parse: Parser, reply: ProviderReply)
    requires req.pathname == "/api/contact" && req.httpMethod == "POST"
    requires req.origin.GetOr("") in AllowedOrigins(env.allowedOrigins)
    requires parse(req.body).Malformed?
    ensures Handle(req, env, parse, reply).outcome.response.status == 400
    ensures Handle(req, env, parse, reply).call.None?
  {
  }

  lemma NullBodyStatus(req: Request, env: Env, parse: Parser, reply: ProviderReply)
    requires Preflight(req, env, parse) == Proceed(JNull)
    ensures Handle(req, env, parse, reply).outcome.response.status == 400
    ensures Handle(req, env, parse, reply).call.None?
  {
  }

  /** A 200 without an e-mail is the filled-in honeypot and nothing else. */
  lemma SilentSuccessIsHoneypot(req: Request, env: Env, parse: Parser, reply: ProviderReply)
    requires Handle(req, env, parse, reply).outcome.response.status == 200
    requires Handle(req, env, parse, reply).call.None?
    ensures Preflight(req, env, parse).Proceed?
    ensures ReadForm(Preflight(req, env, parse).payload).company != ""
  {
    match Preflight(req, env, parse)
    case Stop(_) =>
    case Proceed(payload) =>
      if payload != JNull {
        assert Handle(req, env, parse, reply) == Submit(req, env, payload, reply, true);
      }
  }

  /** The escaping switch changes the HTML of the e-mail and nothing else. */
  lemma SubmitEscapeOnlyChangesHtml(req: Request, env: Env, payload: Json, reply: ProviderReply)
    ensures Submit(req, env, payload, reply, false).outcome == Submit(req, env, payload, reply, true).outcome
    ensures Submit(req, env, payload, reply, false).call.Some? <==> Submit(req, env, payload, reply, true).call.Some?
    ensures Submit(req, env, payload, reply, false).call.Some? ==>
              Submit(req, env, payload, reply, true).call.value.email ==
              Submit(req, env, payload, reply, false).call.value.email.(html := HtmlBody(ReadForm(payload)))
  {
  }

  /** The two handlers agree on every request except a `null` body that got
      past the origin check, where the one as written throws and the
      corrected one answers 400 with its CORS headers. */
  lemma NullBodyIsTheOnlyThrow(req: Request, env: Env, parse: Parser, reply: ProviderReply)
    ensures HandleAsWritten(req, env, parse, reply).outcome.Threw? <==> Preflight(req, env, parse) == Proceed(JNull)
  {
  }

  /** Off that one case, the corrected handler answers as the worker does
      and calls the provider when it does. */
  lemma HandlersAgreeElsewhere(req: Request, env: Env, parse: Parser, reply: ProviderReply)
    requires Preflight(req, env, parse) != Proceed(JNull)
    ensures HandleAsWritten(req, env, parse, reply).outcome == Handle(req, env, parse, reply).outcome
    ensures HandleAsWritten(req, env, parse, reply).call.Some? <==> Handle(req, env, parse, reply).call.Some?
  {
    match Preflight(req, env, parse)
    case Stop(_) =>
    case Proceed(payload) =>
      SubmitEscapeOnlyChangesHtml(req, env, payload, reply);
  }
}

=== FILE: http.dfy ===
/** What the two workers share: the JSON response with the security
    headers (workers/contact-api/worker.js and
    workers/ci-observability-ingest/worker.js each define the same
    `jsonResponse`) and the `{ok: false, error}` failure body. */
module Http {
  import opened Optional
  import opened Json

  /** A response: status, headers, and a JSON body unless it has none. */
  datatype Response = Response(status: int, headers: map<string, string>, body: Option<Json>)

  const SecurityHeaders: map<string, string> := map[
    "X-Content-Type-Options" := "nosniff",
    "X-Frame-Options" := "DENY",
    "Referrer-Policy" := "strict-origin-when-cross-origin"]

  /** `jsonResponse`: the JSON content type, then the security headers, then
      the extra headers, later ones winning. */
  function JsonResponse(payload: Json, status: int, extra: map<string, string>): (r: Response)
    ensures r.status == status && r.body == Some(payload)
    ensures forall k :: k in extra ==> k in r.headers && r.headers[k] == extra[k]
    ensures forall k :: k in SecurityHeaders && k !in extra ==> k in r.headers && r.headers[k] == SecurityHeaders[k]
    ensures r.headers.Keys == {"Content-Type"} + SecurityHeaders.Keys + extra.Keys
    ensures "Content-Type" !in extra ==> r.headers["Content-Type"] == "application/json; charset=utf-8"
  {
    Response(status, map["Content-Type" := "application/json; charset=utf-8"] + SecurityHeaders + extra, Some(payload))
  }

  function Failure(error: string): Json {
    JObject(map["ok" := JBool(false), "error" := JString(error)])
  }
}

=== FILE: ingest.dfy ===
/** The CI-event ingest worker (workers/ci-observability-ingest/worker.js):
    one authenticated POST endpoint that checks the shape of a CI event,
    stores it as one NDJSON object under a key partitioned by time,
    repository and event, and forwards it downstream when configured. The
    clock, the random UUID, `JSON.parse`, `JSON.stringify`, the bucket's
    `put` and the downstream `fetch` are inputs. */
module Ingest {
  import opened Optional
  import opened Text
  import opened Json
  import opened Http

  /** The worker's bindings. An unset string binding reads as "". */
  datatype Env = Env(ingestToken: string, hasBucket: bool, downstreamUrl: string, downstreamToken: string)

  /** What the worker reads from a request: the URL's path, the method, the
      `Authorization` header if any, and the body text. */
  datatype Request = Request(pathname: string, httpMethod: string, authorization: Option<string>, body: string)

  // ---------------------------------------------------------------------
  // Authentication
  // ---------------------------------------------------------------------

  const BearerPrefix: string := "Bearer "

  /** `getBearerToken`: the trimmed rest of a header that starts with
      exactly `Bearer `, else "". */
  function BearerToken(header: Option<string>): (t: string)
    ensures Trimmed(t)
    ensures t != "" ==> header.Some? && BearerPrefix <= header.value && |t| <= |header.value| - |BearerPrefix|
  {
    match header
    case None => ""
    case Some(h) => if BearerPrefix <= h then Trim(h[|BearerPrefix|..]) else ""
  }

  /** A token without white space at its ends is read back from its header. */
  lemma BearerRoundTrip(token: string)
    requires Trimmed(token)
    ensures BearerToken(Some(BearerPrefix + token)) == token
  {
    BearerOfPrefixed(token);
    TrimOfTrimmed(token);
  }

  lemma BearerOfPrefixed(rest: string)
    ensures BearerToken(Some(BearerPrefix + rest)) == Trim(rest)
  {
    AfterPrefix(BearerPrefix, rest);
  }

  lemma AfterPrefix(p: string, s: string)
    ensures p <= p + s && (p + s)[|p|..] == s
  {
  }

  /** The scheme is matched case-sensitively: any other spelling of the
      first seven characters yields no token. */
  lemma OtherSchemeHasNoToken(scheme: string, rest: string)
    requires |scheme| == |BearerPrefix| && scheme != BearerPrefix
    ensures BearerToken(Some(scheme + rest)) == ""
  {
    NotPrefix(BearerPrefix, scheme, rest);
  }

  lemma NotPrefix(p: string, q: string, rest: string)
    requires |p| == |q| && p != q
    ensures !(p <= q + rest)
  {
    assert (q + rest)[..|q|] == q;
  }

  // ---------------------------------------------------------------------
  // Event shape
  // ---------------------------------------------------------------------

  /** `typeof v === "string" && v` for a property read. */
  predicate IsNonEmptyString(v: Prop) {
    v.Defined? && v.value.JString? && Truthy(v.value)
  }

  /** The field `k` of an object holds a non-empty string. */
  predicate StringField(fields: map<string, Json>, k: string) {
    k in fields && fields[k].JString? && fields[k].s != ""
  }

  /** `isValidEventShape`: a truthy value of type `object` whose three
      identifying properties are non-empty strings. Arrays are objects to
      `typeof` but have none of the properties. */
  function IsValidEventShape(payload: Json): (b: bool)
    ensures b <==> payload.JObject? && StringField(payload.fields, "event_name")
                   && StringField(payload.fields, "repository") && StringField(payload.fields, "event_id")
  {
    if !Truthy(payload) || !(payload.JObject? || payload.JArray?) then false
    else IsNonEmptyString(Get(payload, "event_name")) && IsNonEmptyString(Get(payload, "repository"))
         && IsNonEmptyString(Get(payload, "event_id"))
  }

  // ---------------------------------------------------------------------
  // Key segments
  // ---------------------------------------------------------------------

  /** The characters a key segment may hold: `[a-z0-9._-]`. */
  predicate SegmentChar(c: char) {
    'a' <= c <= 'z' || '0' <= c <= '9' || c == '.' || c == '_' || c == '-'
  }

  /** A segment character other than the dash: what sanitising never drops. */
  predicate Kept(c: char) {
    SegmentChar(c) && c != '-'
  }

  predicate SegmentChars(s: string) {
    forall i :: 0 <= i < |s| ==> SegmentChar(s[i])
  }

  predicate NoDoubleDash(s: string) {
    forall i :: 0 <= i < |s| - 1 ==> !(s[i] == '-' && s[i + 1] == '-')
  }

  /** What a sanitised segment looks like when the fallback is not used. */
  predicate CleanSegment(s: string) {
    s != "" && SegmentChars(s) && NoDoubleDash(s) && s[0] != '-' && s[|s| - 1] != '-'
  }

  /** The kept characters of `s`, in order. */
  function Letters(s: string): (r: string)
    ensures |r| <= |s|
  {
    if |s| == 0 then "" else (if Kept(s[0]) then [s[0]] else "") + Letters(s[1..])
  }

  lemma {:induction false} LettersAppend(a: string, b: string)
    ensures Letters(a + b) == Letters(a) + Letters(b)
    decreases |a|
  {
    if |a| > 0 {
      LettersAppend(a[1..], b);
      assert (a + b)[0] == a[0] && (a + b)[1..] == a[1..] + b;
    } else {
      assert a + b == b;
    }
  }

  /** Drops the leading run of characters outside the class. */
  function DropForeign(s: string): (r: string)
    ensures |r| <= |s| && r == s[|s| - |r|..]
    ensures |r| > 0 ==> SegmentChar(r[0])
    decreases |s|
  {
    if |s| == 0 || SegmentChar(s[0]) then s else DropForeign(s[1..])
  }

  lemma {:induction false} LettersDropForeign(s: string)
    ensures Letters(DropForeign(s)) == Letters(s)
    decreases |s|
  {
    if |s| > 0 && !SegmentChar(s[0]) {
      LettersDropForeign(s[1..]);
    }
  }

  /** `replace(/[^a-z0-9._-]+/g, "-")`: each run of characters outside the
      class becomes one dash. */
  function DashForeign(s: string): (r: string)
    ensures SegmentChars(r)
    decreases |s|
  {
    if |s| == 0 then ""
    else if SegmentChar(s[0]) then [s[0]] + DashForeign(s[1..])
    else "-" + DashForeign(DropForeign(s[1..]))
  }

  lemma {:induction false} LettersDashForeign(s: string)
    ensures Letters(DashForeign(s)) == Letters(s)
    decreases |s|
  {
    if |s| > 0 {
      if SegmentChar(s[0]) {
        LettersDashForeign(s[1..]);
      } else {
        LettersDropForeign(s[1..]);
        LettersDashForeign(DropForeign(s[1..]));
      }
    }
  }

  /** Drops the leading run of dashes. */
  function DropDashes(s: string): (r: string)
    ensures |r| <= |s| && r == s[|s| - |r|..]
    ensures |r| > 0 ==> r[0] != '-'
    decreases |s|
  {
    if |s| == 0 || s[0] != '-' then s else DropDashes(s[1..])
  }

  lemma {:induction false} LettersDropDashes(s: string)
    ensures Letters(DropDashes(s)) == Letters(s)
    decreases |s|
  {
    if |s| > 0 && s[0] == '-' {
      LettersDropDashes(s[1..]);
    }
  }

  /** `replace(/-+/g, "-")`: each run of dashes becomes one dash. */
  function SqueezeDashes(s: string): (r: string)
    ensures |r| == 0 <==> |s| == 0
    ensures |s| > 0 ==> r[0] == s[0]
    decreases |s|
  {
    if |s| == 0 then ""
    else if s[0] == '-' then "-" + SqueezeDashes(DropDashes(s[1..]))
    else [s[0]] + SqueezeDashes(s[1..])
  }

  /** Squeezing leaves no two dashes in a row and adds no new character. */
  lemma SqueezeShape(s: string)
    ensures NoDoubleDash(SqueezeDashes(s))
    ensures SegmentChars(s) ==> SegmentChars(SqueezeDashes(s))
  {
    SqueezeNoDoubleDash(s);
    if SegmentChars(s) {
      SqueezeSegmentChars(s);
    }
  }

  lemma {:induction false} SqueezeNoDoubleDash(s: string)
    ensures NoDoubleDash(SqueezeDashes(s))
    decreases |s|
  {
    if |s| > 0 {
      var t := if s[0] == '-' then DropDashes(s[1..]) else s[1..];
      SqueezeNoDoubleDash(t);
      ConsNoDoubleDash(s[0], SqueezeDashes(t));
    }
  }

  lemma ConsNoDoubleDash(c: char, r: string)
    requires NoDoubleDash(r)
    requires c == '-' && |r| > 0 ==> r[0] != '-'
    ensures NoDoubleDash([c] + r)
  {
    forall i | 0 <= i < |[c] + r| - 1
      ensures !(([c] + r)[i] == '-' && ([c] + r)[i + 1] == '-')
    {
      if i > 0 {
        assert ([c] + r)[i] == r[i - 1] && ([c] + r)[i + 1] == r[i];
      }
    }
  }

  lemma {:induction false} SqueezeSegmentChars(s: string)
    requires SegmentChars(s)
    ensures SegmentChars(SqueezeDashes(s))
    decreases |s|
  {
    if |s| > 0 {
      var t := if s[0] == '-' then DropDashes(s[1..]) else s[1..];
      assert SegmentChars(t);
      SqueezeSegmentChars(t);
      ConsSegmentChars(s[0], SqueezeDashes(t));
    }
  }

  lemma ConsSegmentChars(c: char, r: string)
    requires SegmentChar(c) && SegmentChars(r)
    ensures SegmentChars([c] + r)
  {
  }

  lemma {:induction false} LettersSqueeze(s: string)
    ensures Letters(SqueezeDashes(s)) == Letters(s)
    decreases |s|
  {
    if |s| > 0 {
      if s[0] == '-' {
        LettersDropDashes(s[1..]);
        LettersSqueeze(DropDashes(s[1..]));
      } else {
        LettersSqueeze(s[1..]);
      }
    }
  }

  /** A run the first replace matches: characters outside the class. */
  predicate Foreign(w: string) {
    forall i :: 0 <= i < |w| ==> !SegmentChar(w[i])
  }

  /** A run the second replace matches: dashes only. */
  predicate Dashes(w: string) {
    forall i :: 0 <= i < |w| ==> w[i] == '-'
  }

  /** A foreign run is dropped up to the next segment character. */
  lemma {:induction false} DropForeignRun(w: string, y: string)
    requires Foreign(w)
    requires y == "" || SegmentChar(y[0])
    ensures DropForeign(w + y) == y
    decreases |w|
  {
    if |w| == 0 {
      assert w + y == y;
    } else {
      assert (w + y)[0] == w[0] && (w + y)[1..] == w[1..] + y;
      DropForeignRun(w[1..], y);
    }
  }

  /** Dropping a foreign run stops inside `x` when `x` ends with a segment
      character, so whatever follows `x` is kept whole. */
  lemma {:induction false} DropForeignAppend(x: string, y: string)
    requires |x| > 0 && SegmentChar(x[|x| - 1])
    ensures DropForeign(x + y) == DropForeign(x) + y
    ensures |DropForeign(x)| > 0 && SegmentChar(DropForeign(x)[|DropForeign(x)| - 1])
    decreases |x|
  {
    assert (x + y)[0] == x[0];
    if !SegmentChar(x[0]) {
      assert (x + y)[1..] == x[1..] + y;
      DropForeignAppend(x[1..], y);
    }
  }

  /** The first replace works piece by piece across a boundary that follows
      a segment character. */
  lemma {:induction false} DashForeignAppend(x: string, y: string)
    requires x == "" || SegmentChar(x[|x| - 1])
    ensures DashForeign(x + y) == DashForeign(x) + DashForeign(y)
    decreases |x|
  {
    if |x| == 0 {
      assert x + y == y;
    } else {
      assert (x + y)[0] == x[0] && (x + y)[1..] == x[1..] + y;
      if SegmentChar(x[0]) {
        DashForeignAppend(x[1..], y);
        assert DashForeign(x + y) == [x[0]] + DashForeign(x[1..] + y);
        ConsAssoc([x[0]], DashForeign(x[1..]), DashForeign(y));
      } else {
        var t := DropForeign(x[1..]);
        DropForeignAppend(x[1..], y);
        DashForeignAppend(t, y);
        assert DashForeign(x + y) == "-" + DashForeign(t + y);
        ConsAssoc("-", DashForeign(t), DashForeign(y));
      }
    }
  }

  /** A run of characters outside the class, between segment characters,
      becomes exactly one dash where the run was. */
  lemma DashForeignGap(x: string, w: string, y: string)
    requires x == "" || SegmentChar(x[|x| - 1])
    requires |w| > 0 && Foreign(w)
    requires y == "" || SegmentChar(y[0])
    ensures DashForeign(x + w + y) == DashForeign(x) + "-" + DashForeign(y)
  {
    var u := w + y;
    DashForeignAppend(x, u);
    DashForeignRunHead(w, y);
    Regroup(x, w, y, DashForeign(x), DashForeign(y));
  }

  lemma DashForeignRunHead(w: string, y: string)
    requires |w| > 0 && Foreign(w)
    requires y == "" || SegmentChar(y[0])
    ensures DashForeign(w + y) == "-" + DashForeign(y)
  {
    var u := w + y;
    assert u[0] == w[0] && u[1..] == w[1..] + y;
    assert Foreign(w[1..]);
    DropForeignRun(w[1..], y);
  }

  lemma ConsAssoc(c: string, a: string, b: string)
    ensures c + (a + b) == (c + a) + b
  {
  }

  lemma Regroup(x: string, w: string, y: string, a: string, b: string)
    ensures x + w + y == x + (w + y) && a + ("-" + b) == a + "-" + b
  {
  }

  /** A run of dashes is dropped up to the next other character. */
  lemma {:induction false} DropDashesRun(w: string, y: string)
    requires Dashes(w)
    requires y == "" || y[0] != '-'
    ensures DropDashes(w + y) == y
    decreases |w|
  {
    if |w| == 0 {
      assert w + y == y;
    } else {
      assert (w + y)[0] == w[0] && (w + y)[1..] == w[1..] + y;
      DropDashesRun(w[1..], y);
    }
  }

  lemma {:induction false} DropDashesAppend(x: string, y: string)
    requires |x| > 0 && x[|x| - 1] != '-'
    ensures DropDashes(x + y) == DropDashes(x) + y
    ensures |DropDashes(x)| > 0 && DropDashes(x)[|DropDashes(x)| - 1] != '-'
    decreases |x|
  {
    assert (x + y)[0] == x[0];
    if x[0] == '-' {
      assert (x + y)[1..] == x[1..] + y;
      DropDashesAppend(x[1..], y);
    }
  }

  /** Squeezing works piece by piece across a boundary that follows a
      character other than the dash. */
  lemma {:induction false} SqueezeAppend(x: string, y: string)
    requires x == "" || x[|x| - 1] != '-'
    ensures SqueezeDashes(x + y) == SqueezeDashes(x) + SqueezeDashes(y)
    decreases |x|
  {
    if |x| == 0 {
      assert x + y == y;
    } else {
      assert (x + y)[0] == x[0] && (x + y)[1..] == x[1..] + y;
      if x[0] != '-' {
        SqueezeAppend(x[1..], y);
        assert SqueezeDashes(x + y) == [x[0]] + SqueezeDashes(x[1..] + y);
        ConsAssoc([x[0]], SqueezeDashes(x[1..]), SqueezeDashes(y));
      } else {
        var t := DropDashes(x[1..]);
        DropDashesAppend(x[1..], y);
        SqueezeAppend(t, y);
        assert SqueezeDashes(x + y) == "-" + SqueezeDashes(t + y);
        ConsAssoc("-", SqueezeDashes(t), SqueezeDashes(y));
      }
    }
  }

  /** A run of dashes between two other characters becomes exactly one dash
      where the run was. */
  lemma SqueezeGap(x: string, w: string, y: string)
    requires x == "" || x[|x| - 1] != '-'
    requires |w| > 0 && Dashes(w)
    requires y == "" || y[0] != '-'
    ensures SqueezeDashes(x + w + y) == SqueezeDashes(x) + "-" + SqueezeDashes(y)
  {
    var u := w + y;
    SqueezeAppend(x, u);
    SqueezeRunHead(w, y);
    Regroup(x, w, y, SqueezeDashes(x), SqueezeDashes(y));
  }

  lemma SqueezeRunHead(w: string, y: string)
    requires |w| > 0 && Dashes(w)
    requires y == "" || y[0] != '-'
    ensures SqueezeDashes(w + y) == "-" + SqueezeDashes(y)
  {
    var u := w + y;
    assert u[0] == w[0] && u[1..] == w[1..] + y;
    assert Dashes(w[1..]);
    DropDashesRun(w[1..], y);
  }

  function DropLeadingDash(s: string): string {
    if |s| > 0 && s[0] == '-' then s[1..] else s
  }

  function DropTrailingDash(s: string): string {
    if |s| > 0 && s[|s| - 1] == '-' then s[..|s| - 1] else s
  }

  /** `replace(/^-|-$/g, "")`: one dash off each end. */
  function StripEdgeDashes(s: string): (r: string)
    ensures SegmentChars(s) ==> SegmentChars(r)
    ensures NoDoubleDash(s) ==> NoDoubleDash(r) && (|r| > 0 ==> r[0] != '-' && r[|r| - 1] != '-')
  {
    DropTrailingDash(DropLeadingDash(s))
  }

  lemma LettersStrip(s: string)
    ensures Letters(StripEdgeDashes(s)) == Letters(s)
  {
    var a := DropLeadingDash(s);
    if |a| > 0 && a[|a| - 1] == '-' {
      LettersAppend(a[..|a| - 1], [a[|a| - 1]]);
      assert a[..|a| - 1] + [a[|a| - 1]] == a;
    }
  }

  /** The text `sanitizeSegment` produces before it falls back: trimmed,
      lower-cased, foreign runs and dash runs collapsed, edge dashes cut. */
  function Safe(text: string): (r: string)
    ensures r == "" || CleanSegment(r)
    ensures Letters(r) == Letters(Lower(Trim(text)))
  {
    SafeSteps(Lower(Trim(text)));
    StripEdgeDashes(SqueezeDashes(DashForeign(Lower(Trim(text)))))
  }

  lemma SafeSteps(l: string)
    ensures var r := StripEdgeDashes(SqueezeDashes(DashForeign(l)));
      (r == "" || CleanSegment(r)) && Letters(r) == Letters(l)
  {
    SqueezeShape(DashForeign(l));
    LettersDashForeign(l);
    LettersSqueeze(DashForeign(l));
    LettersStrip(SqueezeDashes(DashForeign(l)));
  }

  /** Two clean pieces separated by a run of characters outside the class
      come out joined by exactly one dash: `My Repo` gives `my-repo`. */
  lemma SafeJoinsWithDash(text: string, x: string, w: string, y: string)
    requires CleanSegment(x) && CleanSegment(y)
    requires |w| > 0 && Foreign(w)
    requires Lower(Trim(text)) == x + w + y
    ensures Safe(text) == x + "-" + y
  {
    DashStageJoins(x, w, y);
    SqueezeStageJoins(x, y);
    StripStageKeeps(x, y);
  }

  lemma DashStageJoins(x: string, w: string, y: string)
    requires CleanSegment(x) && CleanSegment(y)
    requires |w| > 0 && Foreign(w)
    ensures DashForeign(x + w + y) == x + "-" + y
  {
    DashForeignGap(x, w, y);
    DashForeignKeeps(x);
    DashForeignKeeps(y);
  }

  lemma SqueezeStageJoins(x: string, y: string)
    requires CleanSegment(x) && CleanSegment(y)
    ensures SqueezeDashes(x + "-" + y) == x + "-" + y
  {
    SqueezeGap(x, "-", y);
    SqueezeKeeps(x);
    SqueezeKeeps(y);
  }

  lemma StripStageKeeps(x: string, y: string)
    requires CleanSegment(x) && CleanSegment(y)
    ensures StripEdgeDashes(x + "-" + y) == x + "-" + y
  {
    var j := x + "-" + y;
    assert j[0] == x[0] && j[|j| - 1] == y[|y| - 1];
  }

  /** A clean segment has a kept character: its first one. */
  lemma CleanHasLetters(s: string)
    requires CleanSegment(s)
    ensures Letters(s) != ""
  {
    assert Letters(s) == [s[0]] + Letters(s[1..]);
  }

  /** `sanitizeSegment(value, fallback)`. */
  function SanitizeSegment(value: Prop, fallback: string): (r: string)
    ensures r == fallback || CleanSegment(r)
  {
    if Safe(FieldText(value)) != "" then Safe(FieldText(value)) else fallback
  }

  /** A value whose text is two clean pieces around a run outside the class
      gives those pieces joined by one dash, never the fallback. */
  lemma SegmentJoinsWithDash(value: Prop, fallback: string, x: string, w: string, y: string)
    requires CleanSegment(x) && CleanSegment(y)
    requires |w| > 0 && Foreign(w)
    requires Lower(Trim(FieldText(value))) == x + w + y
    ensures SanitizeSegment(value, fallback) == x + "-" + y
  {
    SafeJoinsWithDash(FieldText(value), x, w, y);
  }

  /** The fallback is used exactly when the lower-cased text has no letter,
      digit, dot or underscore; otherwise the segment is clean and keeps all
      of them, in order. */
  lemma SanitizeKeepsLetters(value: Prop, fallback: string)
    ensures var l := Lower(Trim(FieldText(value)));
      && (Letters(l) == "" ==> SanitizeSegment(value, fallback) == fallback)
      && (Letters(l) != "" ==> CleanSegment(SanitizeSegment(value, fallback))
                               && Letters(SanitizeSegment(value, fallback)) == Letters(l))
  {
    var r := Safe(FieldText(value));
    if r != "" {
      CleanHasLetters(r);
    }
  }

  /** Sanitising a clean segment gives it back. */
  lemma SanitizeIdempotent(s: string, fallback: string)
    requires CleanSegment(s)
    ensures SanitizeSegment(Defined(JString(s)), fallback) == s
  {
    SanitizeString(s, fallback);
    SafeKeepsClean(s);
  }

  lemma SanitizeString(s: string, fallback: string)
    requires s != ""
    ensures SanitizeSegment(Defined(JString(s)), fallback) == if Safe(s) != "" then Safe(s) else fallback
  {
    assert FieldText(Defined(JString(s))) == s;
  }

  lemma SafeKeepsClean(s: string)
    requires CleanSegment(s)
    ensures Safe(s) == s
  {
    CleanIsTrimmed(s);
    TrimOfTrimmed(s);
    LowerKeeps(s);
    DashForeignKeeps(s);
    SqueezeKeeps(s);
  }

  lemma CleanIsTrimmed(s: string)
    requires CleanSegment(s)
    ensures Trimmed(s)
  {
    assert SegmentChar(s[0]) && SegmentChar(s[|s| - 1]);
  }

  lemma LowerKeeps(s: string)
    requires SegmentChars(s)
    ensures Lower(s) == s
  {
    assert forall i :: 0 <= i < |s| ==> LowerChar(s[i]) == s[i];
  }

  lemma {:induction false} DashForeignKeeps(s: string)
    requires SegmentChars(s)
    ensures DashForeign(s) == s
    decreases |s|
  {
    if |s| > 0 {
      DashForeignKeeps(s[1..]);
    }
  }

  lemma {:induction false} SqueezeKeeps(s: string)
    requires NoDoubleDash(s)
    ensures SqueezeDashes(s) == s
    decreases |s|
  {
    if |s| > 0 {
      SqueezeKeeps(s[1..]);
      if s[0] == '-' {
        assert DropDashes(s[1..]) == s[1..];
      }
    }
  }

  // ---------------------------------------------------------------------
  // Storage
  // ---------------------------------------------------------------------

  /** When the event arrived: the ISO text of `new Date().toISOString()` and
      its UTC parts, `month` counting from 0 as `getUTCMonth` does. */
  datatype Received = Received(iso: string, year: nat, month: nat, day: nat, hour: nat)

  predicate ValidReceived(t: Received) {
    t.month < 12 && 1 <= t.day <= 31 && t.hour < 24
  }

  /** A `name=value` piece of the key. */
  function Pair(name: string, value: string): string {
    name + "=" + value
  }

  /** The slash-separated pieces of the storage key, given the three
      sanitised segments. */
  function KeyParts(t: Received, repo: string, event: string, id: string): seq<string> {
    ["events",
     Pair("year", NatToString(t.year)),
     Pair("month", Pad2(t.month + 1)),
     Pair("day", Pad2(t.day)),
     Pair("hour", Pad2(t.hour)),
     Pair("repo", repo),
     Pair("event", event),
     id + ".ndjson"]
  }

  /** The object key `storeInR2` writes to; `uuid` stands for
      `crypto.randomUUID()`, the event id's fallback. */
  function StorageKey(t: Received, payload: Json, uuid: string): string {
    Join(KeyParts(t, SanitizeSegment(Get(payload, "repository"), "repo"),
                  SanitizeSegment(Get(payload, "event_name"), "event"),
                  SanitizeSegment(Get(payload, "event_id"), uuid)), '/')
  }

  /** The value of a `name=NN` piece with exactly two digits, if it is one. */
  function ReadPadded(piece: string, name: string): Option<nat> {
    if |piece| == |name| + 3 && piece[..|name| + 1] == name + "=" && AllDigits(piece[|name| + 1..])
    then Some(ParseNat(piece[|name| + 1..]))
    else None
  }

  lemma PaddedReadsBack(name: string, n: nat)
    requires n < 100
    ensures ReadPadded(Pair(name, Pad2(n)), name) == Some(n)
  {
    Pad2RoundTrip(n);
    var piece := name + "=" + Pad2(n);
    assert piece[..|name| + 1] == name + "=";
    assert piece[|name| + 1..] == Pad2(n);
  }

  lemma SegmentHasNoSlash(value: Prop, fallback: string)
    requires '/' !in fallback
    ensures '/' !in SanitizeSegment(value, fallback)
  {
    var r := SanitizeSegment(value, fallback);
    if r != fallback {
      assert SegmentChars(r);
    }
  }

  lemma PairHasNoSlash(name: string, value: string)
    requires '/' !in name && '/' !in value
    ensures '/' !in Pair(name, value)
  {
  }

  lemma DigitsHaveNoSlash(s: string)
    requires AllDigits(s)
    ensures '/' !in s
  {
  }

  lemma KeyPartsHaveNoSlash(t: Received, repo: string, event: string, id: string)
    requires ValidReceived(t) && '/' !in repo && '/' !in event && '/' !in id
    ensures forall i :: 0 <= i < |KeyParts(t, repo, event, id)| ==> '/' !in KeyParts(t, repo, event, id)[i]
  {
    DigitsHaveNoSlash(NatToString(t.year));
    Pad2RoundTrip(t.month + 1);
    Pad2RoundTrip(t.day);
    Pad2RoundTrip(t.hour);
    DigitsHaveNoSlash(Pad2(t.month + 1));
    DigitsHaveNoSlash(Pad2(t.day));
    DigitsHaveNoSlash(Pad2(t.hour));
  }

  /** Splitting a key on `/` gives back its eight pieces, and the month
      (counted from 1), day and hour pieces read back as two-digit numbers. */
  lemma KeyPartsRoundTrip(t: Received, repo: string, event: string, id: string)
    requires ValidReceived(t) && '/' !in repo && '/' !in event && '/' !in id
    ensures var parts := Split(Join(KeyParts(t, repo, event, id), '/'), '/');
      && parts == KeyParts(t, repo, event, id)
      && ReadPadded(parts[2], "month") == Some(t.month + 1)
      && ReadPadded(parts[3], "day") == Some(t.day)
      && ReadPadded(parts[4], "hour") == Some(t.hour)
  {
    KeyPartsHaveNoSlash(t, repo, event, id);
    SplitJoin(KeyParts(t, repo, event, id), '/');
    PaddedReadsBack("month", t.month + 1);
    PaddedReadsBack("day", t.day);
    PaddedReadsBack("hour", t.hour);
  }

  /** The storage key of an event splits back into its pieces: the
      partitions, then the repository, event and id segments. */
  lemma KeyRoundTrip(t: Received, payload: Json, uuid: string)
    requires ValidReceived(t) && '/' !in uuid
    ensures var parts := Split(StorageKey(t, payload, uuid), '/');
      && parts == KeyParts(t, SanitizeSegment(Get(payload, "repository"), "repo"),
                           SanitizeSegment(Get(payload, "event_name"), "event"),
                           SanitizeSegment(Get(payload, "event_id"), uuid))
      && ReadPadded(parts[2], "month") == Some(t.month + 1)
      && ReadPadded(parts[3], "day") == Some(t.day)
      && ReadPadded(parts[4], "hour") == Some(t.hour)
  {
    StorageKeyParts(t, payload, uuid);
    SegmentsHaveNoSlash(payload, uuid);
    KeyPartsRoundTrip(t, SanitizeSegment(Get(payload, "repository"), "repo"),
                      SanitizeSegment(Get(payload, "event_name"), "event"),
                      SanitizeSegment(Get(payload, "event_id"), uuid));
  }

  lemma StorageKeyParts(t: Received, payload: Json, uuid: string)
    ensures StorageKey(t, payload, uuid)
            == Join(KeyParts(t, SanitizeSegment(Get(payload, "repository"), "repo"),
                             SanitizeSegment(Get(payload, "event_name"), "event"),
                             SanitizeSegment(Get(payload, "event_id"), uuid)), '/')
  {
  }

  lemma SegmentsHaveNoSlash(payload: Json, uuid: string)
    requires '/' !in uuid
    ensures '/' !in SanitizeSegment(Get(payload, "repository"), "repo")
    ensures '/' !in SanitizeSegment(Get(payload, "event_name"), "event")
    ensures '/' !in SanitizeSegment(Get(payload, "event_id"), uuid)
  {
    SegmentHasNoSlash(Get(payload, "repository"), "repo");
    SegmentHasNoSlash(Get(payload, "event_name"), "event");
    SegmentHasNoSlash(Get(payload, "event_id"), uuid);
  }

  /** `{...payload, ingested_at}` for an object payload. */
  function Stamped(payload: Json, at: string): (r: Json)
    requires payload.JObject?
    ensures r.JObject? && r.fields.Keys == payload.fields.Keys + {"ingested_at"}
    ensures r.fields["ingested_at"] == JString(at)
    ensures forall k :: k in payload.fields && k != "ingested_at" ==> r.fields[k] == payload.fields[k]
  {
    JObject(payload.fields["ingested_at" := JString(at)])
  }

  /** `JSON.stringify`, left abstract. */
  type Stringifier = Json -> string

  /** `toNdjsonLine`: the serialised object and one line feed. Read back
      line by line, a serialisation without a raw line feed is one record. */
  function NdjsonLine(payload: Json, stringify: Stringifier): (line: string)
    ensures |line| > 0 && line[|line| - 1] == '\n'
    ensures '\n' !in stringify(payload) ==> Split(line, '\n') == [stringify(payload), ""]
  {
    if '\n' !in stringify(payload) then OneLine(stringify(payload)); stringify(payload) + "\n"
    else stringify(payload) + "\n"
  }

  lemma OneLine(p: string)
    requires '\n' !in p
    ensures Split(p + "\n", '\n') == [p, ""]
  {
    SplitAfter(p, '\n', "");
    assert p + ['\n'] + "" == p + "\n";
  }

  /** An attempted `put`: the key and the object's text. */
  datatype Put = Put(key: string, text: string)

  /** The end of `storeInR2`: stored under a key, not stored because no
      bucket is bound, or the `put` threw. */
  datatype Stored = StoredAt(key: string) | NoBucket | PutFailed

  /** The outside world's part in one request. */
  datatype World = World(received: Received, uuid: string, putSucceeds: bool, downstream: Downstream)

  /** How the downstream `fetch` went: an answer, or a thrown error. */
  datatype Downstream = Answered(status: int, ok: bool, text: string) | Unreachable

  /** `storeInR2` for an admitted event. */
  function Store(env: Env, payload: Json, stringify: Stringifier, w: World): (r: (Stored, Option<Put>))
    requires payload.JObject?
    ensures r.1.Some? <==> env.hasBucket
    ensures r.1.Some? ==> r.1.value == Put(StorageKey(w.received, payload, w.uuid),
                                           NdjsonLine(Stamped(payload, w.received.iso), stringify))
    ensures r.0 == (if !env.hasBucket then NoBucket else if w.putSucceeds then StoredAt(r.1.value.key) else PutFailed)
  {
    if !env.hasBucket then (NoBucket, None)
    else
      var put := Put(StorageKey(w.received, payload, w.uuid), NdjsonLine(Stamped(payload, w.received.iso), stringify));
      (if w.putSucceeds then StoredAt(put.key) else PutFailed, Some(put))
  }

  // ---------------------------------------------------------------------
  // Forwarding
  // ---------------------------------------------------------------------

  /** A downstream `fetch`: the URL, the headers and the JSON body. */
  datatype Call = Call(url: string, headers: map<string, string>, body: Json)

  /** The headers `forwardEventIfConfigured` sends. */
  function ForwardHeaders(env: Env): (h: map<string, string>)
    ensures "Authorization" in h <==> env.downstreamToken != ""
    ensures h.Keys - {"Authorization"} == {"Content-Type", "X-CI-Source"}
  {
    var base := map["Content-Type" := "application/json", "X-CI-Source" := "ci-observability-ingest-worker"];
    if env.downstreamToken != "" then base["Authorization" := BearerPrefix + env.downstreamToken] else base
  }

  /** A downstream instance of this worker whose ingest token is the
      forwarding token reads that token back from the forwarded header. */
  lemma ForwardedTokenAuthenticates(env: Env)
    requires env.downstreamToken != "" && Trimmed(env.downstreamToken)
    ensures BearerToken(Some(ForwardHeaders(env)["Authorization"])) == env.downstreamToken
  {
    BearerRoundTrip(env.downstreamToken);
  }

  /** The end of `forwardEventIfConfigured`: forwarded, skipped because no
      URL is configured, or thrown. */
  datatype Forwarded = ForwardedOk | NoDownstream | ForwardFailed

  function Forward(env: Env, body: Json, w: World): (r: (Forwarded, Option<Call>))
    ensures r.1.Some? <==> env.downstreamUrl != ""
    ensures r.1.Some? ==> r.1.value == Call(env.downstreamUrl, ForwardHeaders(env), body)
    ensures r.0 == ForwardedOk <==> r.1.Some? && w.downstream.Answered? && w.downstream.ok
    ensures r.0 == NoDownstream <==> r.1.None?
  {
    if env.downstreamUrl == "" then (NoDownstream, None)
    else
      var call := Call(env.downstreamUrl, ForwardHeaders(env), body);
      match w.downstream
      case Answered(_, ok, _) => (if ok then ForwardedOk else ForwardFailed, Some(call))
      case Unreachable => (ForwardFailed, Some(call))
  }

  // ---------------------------------------------------------------------
  // The handler
  // ---------------------------------------------------------------------

  /** The response and what the worker did to the outside world. */
  datatype Handled = Handled(response: Response, put: Option<Put>, call: Option<Call>)

  function Reply(status: int, error: string): (h: Handled)
    ensures h.response.status == status && h.put.None? && h.call.None?
  {
    Handled(JsonResponse(Failure(error), status, map[]), None, None)
  }

  const Health: Json := JObject(map["ok" := JBool(true), "service" := JString("ci-observability-ingest")])

  /** The `202` body. */
  function Receipt(stored: bool, key: Option<string>, forwarded: bool): Json {
    JObject(map["ok" := JBool(true), "stored" := JBool(stored),
                "storage_key" := if key.Some? then JString(key.value) else JNull,
                "forwarded" := JBool(forwarded)])
  }

  /** Whether the world lets an admitted event through: storage did not
      throw and the downstream, if any, answered ok. */
  predicate WorldAccepts(env: Env, w: World) {
    (!env.hasBucket || w.putSucceeds)
    && (env.downstreamUrl == "" || (w.downstream.Answered? && w.downstream.ok))
  }

  /** The `try` block: store, then forward the stamped event; a throw from
      either is answered `502`. When storage throws, nothing is forwarded. */
  function Process(env: Env, payload: Json, stringify: Stringifier, w: World): (h: Handled)
    requires payload.JObject?
    ensures h.put == Store(env, payload, stringify, w).1
    ensures h.call == if env.hasBucket && !w.putSucceeds then None else Forward(env, Stamped(payload, w.received.iso), w).1
    ensures h.response.status == if WorldAccepts(env, w) then 202 else 502
    ensures WorldAccepts(env, w) ==>
              h.response.body == Some(Receipt(env.hasBucket, if env.hasBucket then Some(h.put.value.key) else None,
                                              env.downstreamUrl != ""))
  {
    FinishFacts(Store(env, payload, stringify, w), Forward(env, Stamped(payload, w.received.iso), w));
    Finish(Store(env, payload, stringify, w), Forward(env, Stamped(payload, w.received.iso), w))
  }

  lemma FinishFacts(stored: (Stored, Option<Put>), forwarded: (Forwarded, Option<Call>))
    ensures var h := Finish(stored, forwarded);
      && h.put == stored.1
      && h.call == (if stored.0 == PutFailed then None else forwarded.1)
      && h.response.status == (if stored.0 != PutFailed && forwarded.0 != ForwardFailed then 202 else 502)
      && (stored.0 != PutFailed && forwarded.0 != ForwardFailed ==>
            h.response.body == Some(Receipt(stored.0.StoredAt?, if stored.0.StoredAt? then Some(stored.0.key) else None,
                                            forwarded.0 == ForwardedOk)))
  {
  }

  function Finish(stored: (Stored, Option<Put>), forwarded: (Forwarded, Option<Call>)): Handled {
    if stored.0 == PutFailed then
      Handled(JsonResponse(Failure("Failed to process event"), 502, map[]), stored.1, None)
    else if forwarded.0 == ForwardFailed then
      Handled(JsonResponse(Failure("Failed to process event"), 502, map[]), stored.1, forwarded.1)
    else
      var key := if stored.0.StoredAt? then Some(stored.0.key) else None;
      Handled(JsonResponse(Receipt(stored.0.StoredAt?, key, forwarded.0 == ForwardedOk), 202, map[]),
              stored.1, forwarded.1)
  }

  /** A request that reaches the body: the ingest path, POST, a configured
      token, and the same token presented. */
  predicate Authorized(req: Request, env: Env) {
    req.pathname == "/api/ci-events" && req.httpMethod == "POST" && env.ingestToken != ""
    && BearerToken(req.authorization) == env.ingestToken
  }

  /** An authorized request whose body parses to a well-shaped event. */
  predicate Admitted(req: Request, env: Env, parse: Parser) {
    Authorized(req, env) && parse(req.body).Parsed? && IsValidEventShape(parse(req.body).value)
  }

  /** The checks before the event is processed: an answer, or the event. */
  datatype Gate = Stop(handled: Handled) | Admit(payload: Json)

  function Check(req: Request, env: Env, parse: Parser): (g: Gate)
    ensures g.Admit? <==> Admitted(req, env, parse)
    ensures g.Admit? ==> g.payload == parse(req.body).value && g.payload.JObject?
    ensures g.Stop? ==> g.handled.put.None? && g.handled.call.None?
    ensures g.Stop? && Authorized(req, env) ==> g.handled.response.status == 400
  {
    if req.pathname == "/healthz" then Stop(Handled(JsonResponse(Health, 200, map[]), None, None))
    else if req.pathname != "/api/ci-events" then Stop(Reply(404, "Not found"))
    else if req.httpMethod != "POST" then
      Stop(Handled(JsonResponse(Failure("Method not allowed"), 405, map["Allow" := "POST"]), None, None))
    else if env.ingestToken == "" then Stop(Reply(500, "Server not configured"))
    else if BearerToken(req.authorization) == "" || BearerToken(req.authorization) != env.ingestToken then
      Stop(Reply(401, "Unauthorized"))
    else match parse(req.body)
      case Malformed => Stop(Reply(400, "Invalid JSON body"))
      case Parsed(payload) =>
        if !IsValidEventShape(payload) then Stop(Reply(400, "Invalid event payload shape"))
        else Admit(payload)
  }

  /** The `fetch` handler. */
  function Handle(req: Request, env: Env, parse: Parser, stringify: Stringifier, w: World): (h: Handled)
    ensures Admitted(req, env, parse) ==> h == Process(env, parse(req.body).value, stringify, w)
    ensures !Admitted(req, env, parse) ==> h.put.None? && h.call.None?
    ensures !Admitted(req, env, parse) && Authorized(req, env) ==> h.response.status == 400
  {
    match Check(req, env, parse)
    case Stop(h) => h
    case Admit(payload) => Process(env, payload, stringify, w)
  }

  lemma HandleAdmitted(req: Request, env: Env, parse: Parser, stringify: Stringifier, w: World)
    requires Admitted(req, env, parse)
    ensures Handle(req, env, parse, stringify, w) == Process(env, parse(req.body).value, stringify, w)
  {
  }

  /** The checks in their order: health on any method, then not found,
      method, configuration before authentication, and the token. */
  lemma RoutingStatus(req: Request, env: Env, parse: Parser, stringify: Stringifier, w: World)
    ensures var h := Handle(req, env, parse, stringify, w);
      && (h.response.status == 200 <==> req.pathname == "/healthz")
      && (h.response.status == 404 <==> req.pathname != "/healthz" && req.pathname != "/api/ci-events")
      && (h.response.status == 405 <==> req.pathname == "/api/ci-events" && req.httpMethod != "POST")
      && (h.response.status == 500 <==> req.pathname == "/api/ci-events" && req.httpMethod == "POST" && env.ingestToken == "")
      && (h.response.status == 401 <==>
            req.pathname == "/api/ci-events" && req.httpMethod == "POST" && env.ingestToken != ""
            && BearerToken(req.authorization) != env.ingestToken)
  {
    if Admitted(req, env, parse) {
      HandleAdmitted(req, env, parse, stringify, w);
    }
  }

  /** A configured token with white space at an end can never be
      presented: the presented token is always trimmed. */
  lemma UntrimmedTokenLocksOut(req: Request, env: Env, parse: Parser, stringify: Stringifier, w: World)
    requires req.pathname == "/api/ci-events" && req.httpMethod == "POST" && !Trimmed(env.ingestToken)
    ensures Handle(req, env, parse, stringify, w).response.status == 401
  {
    RoutingStatus(req, env, parse, stringify, w);
  }

  /** A `405` names the one allowed method. */
  lemma MethodNotAllowedNamesPost(req: Request, env: Env, parse: Parser, stringify: Stringifier, w: World)
    requires req.pathname == "/api/ci-events" && req.httpMethod != "POST"
    ensures var h := Handle(req, env, parse, stringify, w);
      h.response.status == 405 && "Allow" in h.response.headers && h.response.headers["Allow"] == "POST"
  {
  }

  /** An authorized request is refused with `400` exactly when its body
      does not parse or is not a well-shaped event. */
  lemma BadBodyStatus(req: Request, env: Env, parse: Parser, stringify: Stringifier, w: World)
    requires Authorized(req, env)
    ensures Handle(req, env, parse, stringify, w).response.status == 400 <==> !Admitted(req, env, parse)
  {
    if Admitted(req, env, parse) {
      HandleAdmitted(req, env, parse, stringify, w);
    }
  }

  /** Nothing is stored or forwarded for a request that is not admitted. */
  lemma EffectsOnlyWhenAdmitted(req: Request, env: Env, parse: Parser, stringify: Stringifier, w: World)
    ensures var h := Handle(req, env, parse, stringify, w);
      h.put.Some? || h.call.Some? ==> Admitted(req, env, parse)
  {
  }

  /** For an admitted event: the object is put under its storage key with
      the stamped event as text exactly when a bucket is bound; the call
      goes out exactly when a URL is configured and storage did not throw;
      and what is forwarded is the object that was stored. */
  lemma AdmittedEffects(req: Request, env: Env, parse: Parser, stringify: Stringifier, w: World)
    requires Admitted(req, env, parse)
    ensures var h := Handle(req, env, parse, stringify, w);
      var stamped := Stamped(parse(req.body).value, w.received.iso);
      && (h.put.Some? <==> env.hasBucket)
      && (h.put.Some? ==> h.put.value == Put(StorageKey(w.received, parse(req.body).value, w.uuid), NdjsonLine(stamped, stringify)))
      && (h.call.Some? <==> env.downstreamUrl != "" && (!env.hasBucket || w.putSucceeds))
      && (h.call.Some? ==> h.call.value == Call(env.downstreamUrl, ForwardHeaders(env), stamped))
  {
    HandleAdmitted(req, env, parse, stringify, w);
  }

  /** An admitted event is answered `202` when the world accepts it and
      `502` otherwise. */
  lemma AdmittedStatus(req: Request, env: Env, parse: Parser, stringify: Stringifier, w: World)
    requires Admitted(req, env, parse)
    ensures var h := Handle(req, env, parse, stringify, w);
      && (h.response.status == 202 <==> WorldAccepts(env, w))
      && (h.response.status == 502 <==> !WorldAccepts(env, w))
  {
    HandleAdmitted(req, env, parse, stringify, w);
  }

  /** The `202` body reports the key the object was put under, or `null`
      with `stored: false` when no bucket is bound, and whether the event
      was forwarded. */
  lemma ReceiptReportsStorage(req: Request, env: Env, parse: Parser, stringify: Stringifier, w: World)
    requires Admitted(req, env, parse) && WorldAccepts(env, w)
    ensures var h := Handle(req, env, parse, stringify, w);
      && h.response.body.Some?
      && h.response.body.value == Receipt(env.hasBucket, if env.hasBucket then Some(h.put.value.key) else None,
                                          env.downstreamUrl != "")
  {
    HandleAdmitted(req, env, parse, stringify, w);
  }

  /** A downstream failure is answered `502` even though the object was
      already put. */
  lemma StoredThenFailed(req: Request, env: Env, parse: Parser, stringify: Stringifier, w: World)
    requires Admitted(req, env, parse) && env.hasBucket && w.putSucceeds
    requires env.downstreamUrl != "" && !(w.downstream.Answered? && w.downstream.ok)
    ensures var h := Handle(req, env, parse, stringify, w);
      h.response.status == 502 && h.put.Some? && h.call.Some?
  {
    HandleAdmitted(req, env, parse, stringify, w);
  }
}

=== FILE: json.dfy ===
/** JSON values as the JavaScript code sees them after `JSON.parse`, with the
    parts of JavaScript's coercion rules the core relies on: truthiness,
    `String(value)` and property lookup. Parsing itself is abstract: it is a
    parameter of the operations that parse. Numbers are integers here. */
module Json {
  import opened Text

  datatype Json =
    | JNull
    | JBool(b: bool)
    | JNumber(n: int)
    | JString(s: string)
    | JArray(items: seq<Json>)
    | JObject(fields: map<string, Json>)

  /** The outcome of `JSON.parse` on some text: a value, or a thrown error. */
  datatype JsonParse = Malformed | Parsed(value: Json)

  /** An abstract `JSON.parse`. */
  type Parser = string -> JsonParse

  /** JavaScript truthiness of a JSON value. */
  predicate Truthy(j: Json) {
    match j
    case JNull => false
    case JBool(b) => b
    case JNumber(n) => n != 0
    case JString(s) => s != ""
    case JArray(_) => true
    case JObject(_) => true
  }

  /** Truthiness of a property that may be missing (`undefined`). */
  predicate Present(v: Prop) {
    v.Defined? && Truthy(v.value)
  }

  /** A property read: `undefined`, or a value. */
  datatype Prop = Undefined | Defined(value: Json)

  function IntToString(n: int): string {
    if n < 0 then "-" + NatToString(-n) else NatToString(n)
  }

  /** `String(value)`: arrays join their elements with `,`, writing `null`
      elements as empty text; objects print as `[object Object]`. */
  function ToJsString(j: Json): string
    decreases j, 1
  {
    match j
    case JNull => "null"
    case JBool(b) => if b then "true" else "false"
    case JNumber(n) => IntToString(n)
    case JString(s) => s
    case JArray(items) => Join(ElementStrings(j, items), ',')
    case JObject(_) => "[object Object]"
  }

  function ElementStrings(ghost parent: Json, items: seq<Json>): seq<string>
    requires forall i :: 0 <= i < |items| ==> items[i] < parent
    decreases parent, 0, |items|
  {
    if |items| == 0 then []
    else
      [if items[0] == JNull then "" else ToJsString(items[0])]
      + ElementStrings(parent, items[1..])
  }

  /** `String(value || "")` for a property that may be missing. */
  function FieldText(v: Prop): (s: string)
    ensures !Present(v) ==> s == ""
    ensures v.Defined? && v.value.JString? ==> s == v.value.s
  {
    if Present(v) then ToJsString(v.value) else ""
  }

  /** `payload[key]`: own properties of an object; a missing property, or any
      property of a primitive or an array, reads as `undefined`. Reading a
      property of `null` throws in JavaScript and is handled by the callers. */
  function Get(payload: Json, key: string): (r: Prop)
    ensures r.Defined? <==> payload.JObject? && key in payload.fields
  {
    if payload.JObject? && key in payload.fields then Defined(payload.fields[key]) else Undefined
  }
}

=== FILE: optional.dfy ===
/** The optional value used wherever the JavaScript code has `undefined`,
    `null` or "not found". */
module Optional {
  datatype Option<+T> = None | Some(value: T) {
    function GetOr(default: T): T {
      match this
      case Some(v) => v
      case None => default
    }
  }
}

=== FILE: presets.dfy ===
/** The request library: saved request definitions (presets), the shared
    auth configuration, the active selection, and the operations the console
    offers on them (src/App.jsx). An absent string field of a JavaScript
    preset is the empty string here: every read of such a field in the source
    treats `undefined` and `''` alike. */
module Presets {
  import opened Optional
  import opened Text

  datatype Kind = REST | GraphQL | WebSocket

  datatype Preset = Preset(
    id: string,
    name: string,
    kind: Kind,
    httpMethod: string,
    url: string,
    headers: string,
    query: string,
    body: string,
    graphqlQuery: string,
    graphqlVariables: string,
    wsMessage: string,
    includeBearer: Option<bool>,
    includeApiKey: Option<bool>)
  {
    /** `preset.includeBearer ?? true` */
    predicate WantsBearer() {
      includeBearer.GetOr(true)
    }

    /** `preset.includeApiKey ?? false` */
    predicate WantsApiKey() {
      includeApiKey.GetOr(false)
    }
  }

  datatype Auth = Auth(bearerToken: string, apiKeyName: string, apiKeyValue: string)

  /** The persisted store plus the (unpersisted) active preset id. */
  datatype Library = Library(presets: seq<Preset>, auth: Auth, activeId: string)

  /** A partial preset, `{...preset, ...updates}`: the console's edit form
      never changes a preset's id. */
  datatype PresetPatch = PresetPatch(
    name: Option<string>,
    kind: Option<Kind>,
    httpMethod: Option<string>,
    url: Option<string>,
    headers: Option<string>,
    query: Option<string>,
    body: Option<string>,
    graphqlQuery: Option<string>,
    graphqlVariables: Option<string>,
    wsMessage: Option<string>,
    includeBearer: Option<bool>,
    includeApiKey: Option<bool>)

  const DefaultAuth := Auth("", "x-api-key", "")

  function Rest(id: string, name: string, httpMethod: string, url: string, headers: string, body: string): Preset {
    Preset(id, name, REST, httpMethod, url, headers, "", body, "", "", "", None, None)
  }

  /** The built-in library used when nothing is stored. */
  const DefaultPresets: seq<Preset> := [
    Rest("rest-jsonplaceholder-posts", "JSONPlaceholder: List Posts", "GET",
         "https://jsonplaceholder.typicode.com/posts", "{\n  \"accept\": \"application/json\"\n}", ""),
    Rest("rest-jsonplaceholder-create", "JSONPlaceholder: Create Post", "POST",
         "https://jsonplaceholder.typicode.com/posts", "{\n  \"content-type\": \"application/json\"\n}",
         "{\n  \"title\": \"QA demo\",\n  \"body\": \"Testing create flow\",\n  \"userId\": 7\n}"),
    Rest("rest-httpbin-delay", "httpbin: Delayed Response", "GET",
         "https://httpbin.org/delay/2", "{\n  \"accept\": \"application/json\"\n}", ""),
    Preset("graphql-countries", "Countries GraphQL: Country List", GraphQL, "POST",
           "https://countries.trevorblades.com/", "{\n  \"content-type\": \"application/json\"\n}", "", "",
           "query GetCountries {\n  countries {\n    code\n    name\n    emoji\n    capital\n  }\n}", "{}", "",
           None, None),
    Preset("ws-postman-echo", "Postman Echo: WebSocket", WebSocket, "CONNECT",
           "wss://ws.postman-echo.com/raw", "", "", "", "", "", "hello websocket", None, None)
  ]

  /** Position of the first preset with the given id (`Array.prototype.find`). */
  function FindIndex(presets: seq<Preset>, id: string): (r: Option<nat>)
    ensures r.Some? ==> r.value < |presets| && presets[r.value].id == id
    ensures r.Some? ==> forall j :: 0 <= j < r.value ==> presets[j].id != id
    ensures r.None? ==> forall j :: 0 <= j < |presets| ==> presets[j].id != id
  {
    if |presets| == 0 then None
    else if presets[0].id == id then Some(0)
    else match FindIndex(presets[1..], id)
      case None => None
      case Some(k) => Some(k + 1)
  }

  function Find(presets: seq<Preset>, id: string): (r: Option<Preset>)
    ensures r.Some? ==> r.value in presets && r.value.id == id
    ensures r.None? <==> forall j :: 0 <= j < |presets| ==> presets[j].id != id
  {
    match FindIndex(presets, id)
    case None => None
    case Some(k) => Some(presets[k])
  }

  /** The preset the console edits and runs: the one with the active id, or
      the first preset, or none in an empty library. */
  function Active(lib: Library): (r: Option<Preset>)
    ensures r.None? <==> |lib.presets| == 0
    ensures r.Some? ==> r.value in lib.presets
    ensures (exists j :: 0 <= j < |lib.presets| && lib.presets[j].id == lib.activeId) ==>
              r.Some? && r.value.id == lib.activeId
  {
    match Find(lib.presets, lib.activeId)
    case Some(p) => Some(p)
    case None => if |lib.presets| > 0 then Some(lib.presets[0]) else None
  }

  /** The library at start-up: the first preset is active, or none. */
  function Initial(presets: seq<Preset>, auth: Auth): (r: Library)
    ensures r.presets == presets && r.auth == auth
    ensures |presets| > 0 ==> Active(r) == Some(presets[0])
    ensures |presets| == 0 ==> r.activeId == ""
  {
    Library(presets, auth, if |presets| > 0 then presets[0].id else "")
  }

  /** The effect that selects the first preset whenever the active id is empty. */
  function SettleActive(lib: Library): (r: Library)
    ensures r.presets == lib.presets && r.auth == lib.auth
    ensures r.activeId == "" ==> lib.activeId == "" && (|lib.presets| == 0 || lib.presets[0].id == "")
    ensures lib.activeId != "" ==> r == lib
    ensures (forall j :: 0 <= j < |lib.presets| ==> lib.presets[j].id != "") ==> Active(r) == Active(lib)
  {
    if lib.activeId == "" && |lib.presets| > 0 then lib.(activeId := lib.presets[0].id) else lib
  }

  /** `{...preset, ...updates}`. */
  function Apply(p: Preset, u: PresetPatch): (r: Preset)
    ensures r.id == p.id
  {
    Preset(
      p.id,
      u.name.GetOr(p.name),
      u.kind.GetOr(p.kind),
      u.httpMethod.GetOr(p.httpMethod),
      u.url.GetOr(p.url),
      u.headers.GetOr(p.headers),
      u.query.GetOr(p.query),
      u.body.GetOr(p.body),
      u.graphqlQuery.GetOr(p.graphqlQuery),
      u.graphqlVariables.GetOr(p.graphqlVariables),
      u.wsMessage.GetOr(p.wsMessage),
      if u.includeBearer.Some? then u.includeBearer else p.includeBearer,
      if u.includeApiKey.Some? then u.includeApiKey else p.includeApiKey)
  }

  /** A field the patch sets reads back from the result; a field it leaves
      out keeps its old value. */
  lemma ApplyReadsBack(p: Preset, u: PresetPatch)
    ensures var r := Apply(p, u);
      && (u.name.Some? ==> r.name == u.name.value) && (u.name.None? ==> r.name == p.name)
      && (u.kind.Some? ==> r.kind == u.kind.value) && (u.kind.None? ==> r.kind == p.kind)
      && (u.url.Some? ==> r.url == u.url.value) && (u.url.None? ==> r.url == p.url)
      && (u.includeBearer.Some? ==> r.WantsBearer() == u.includeBearer.value)
      && (u.includeBearer.None? ==> r.WantsBearer() == p.WantsBearer())
      && (u.includeApiKey.Some? ==> r.WantsApiKey() == u.includeApiKey.value)
      && (u.includeApiKey.None? ==> r.WantsApiKey() == p.WantsApiKey())
  {
  }

  function PatchMatching(presets: seq<Preset>, id: string, u: PresetPatch): (r: seq<Preset>)
    ensures |r| == |presets|
    ensures forall i :: 0 <= i < |r| ==> r[i].id == presets[i].id
    ensures forall i :: 0 <= i < |r| && presets[i].id != id ==> r[i] == presets[i]
    ensures forall i :: 0 <= i < |r| && presets[i].id == id ==> r[i] == Apply(presets[i], u)
  {
    seq(|presets|, i requires 0 <= i < |presets| => if presets[i].id == id then Apply(presets[i], u) else presets[i])
  }

  /** `updatePreset`: merges the patch into every preset that carries the
      active preset's id; nothing else changes. */
  function UpdateActive(lib: Library, u: PresetPatch): (r: Library)
    ensures r.auth == lib.auth && r.activeId == lib.activeId
    ensures |r.presets| == |lib.presets|
    ensures forall i :: 0 <= i < |r.presets| ==> r.presets[i].id == lib.presets[i].id
    ensures Active(lib).None? ==> r == lib
    ensures Active(lib).Some? ==> forall i :: 0 <= i < |r.presets| && lib.presets[i].id != Active(lib).value.id ==>
              r.presets[i] == lib.presets[i]
  {
    match Active(lib)
    case None => lib
    case Some(a) => lib.(presets := PatchMatching(lib.presets, a.id, u))
  }

  /** After an update the active preset is the old active preset with the
      patch applied. */
  lemma UpdateActiveUpdatesActive(lib: Library, u: PresetPatch)
    requires |lib.presets| > 0
    ensures Active(UpdateActive(lib, u)) == Some(Apply(Active(lib).value, u))
  {
    var a := Active(lib).value;
    var r := UpdateActive(lib, u);
    match FindIndex(lib.presets, lib.activeId)
    case Some(k) =>
      assert FindIndex(r.presets, lib.activeId) == Some(k) by {
        FindIndexSameIds(lib.presets, r.presets, lib.activeId);
      }
    case None =>
      FindIndexSameIds(lib.presets, r.presets, lib.activeId);
      assert r.presets[0] == Apply(lib.presets[0], u);
  }

  lemma {:induction false} FindIndexSameIds(a: seq<Preset>, b: seq<Preset>, id: string)
    requires |a| == |b|
    requires forall i :: 0 <= i < |a| ==> a[i].id == b[i].id
    ensures FindIndex(a, id) == FindIndex(b, id)
    decreases |a|
  {
    if |a| > 0 && a[0].id != id {
      FindIndexSameIds(a[1..], b[1..], id);
    }
  }

  /** A new REST preset, as `addPreset` creates it. */
  function NewRest(id: string): Preset {
    Rest(id, "New REST Request", "GET", "https://jsonplaceholder.typicode.com/todos/1",
         "{\n  \"accept\": \"application/json\"\n}", "")
  }

  /** `addPreset`: prepends a new REST preset with id `rest-<now>` and makes
      it active. */
  function AddPreset(lib: Library, now: nat): (r: Library)
    ensures |r.presets| == |lib.presets| + 1 && r.presets[1..] == lib.presets
    ensures r.presets[0].kind == REST && r.presets[0].id == "rest-" + NatToString(now)
    ensures r.auth == lib.auth
    ensures Active(r) == Some(r.presets[0])
  {
    var id := "rest-" + NatToString(now);
    Library([NewRest(id)] + lib.presets, lib.auth, id)
  }

  /** `b` keeps some elements of `a`, in their original order. */
  ghost predicate Subsequence(b: seq<Preset>, a: seq<Preset>)
    decreases |a|
  {
    if |b| == 0 then true
    else if |a| == 0 then false
    else (b[0] == a[0] && Subsequence(b[1..], a[1..])) || Subsequence(b, a[1..])
  }

  /** `presets.filter(preset => preset.id !== id)`. */
  function Without(presets: seq<Preset>, id: string): (r: seq<Preset>)
    ensures forall q :: multiset(r)[q] == if q.id == id then 0 else multiset(presets)[q]
    ensures Subsequence(r, presets)
  {
    if |presets| == 0 then []
    else
      var rest := Without(presets[1..], id);
      assert presets == [presets[0]] + presets[1..];
      if presets[0].id == id then rest
      else
        assert ([presets[0]] + rest)[1..] == rest;
        [presets[0]] + rest
  }

  /** `deletePreset`: drops every preset with the id; if it was the active
      one, the new first preset (or none) becomes active. */
  function DeletePreset(lib: Library, id: string): (r: Library)
    ensures r.auth == lib.auth
    ensures forall q :: q in r.presets ==> q in lib.presets && q.id != id
    ensures forall q :: q in lib.presets && q.id != id ==> q in r.presets
    ensures Subsequence(r.presets, lib.presets)
    ensures lib.activeId != id ==> r.activeId == lib.activeId
    ensures lib.activeId == id && |r.presets| > 0 ==> r.activeId == r.presets[0].id
    ensures lib.activeId == id && |r.presets| == 0 ==> r.activeId == ""
    ensures r.presets == Without(lib.presets, id)
  {
    var rest := Without(lib.presets, id);
    assert forall q :: q in rest <==> multiset(rest)[q] > 0;
    assert forall q :: q in lib.presets <==> multiset(lib.presets)[q] > 0;
    Library(rest, lib.auth, if lib.activeId == id then (if |rest| > 0 then rest[0].id else "") else lib.activeId)
  }

  /** Deleting the active preset leaves the new first preset active, and
      deleting the last preset leaves no active preset. */
  lemma DeleteActiveFallsBack(lib: Library)
    requires lib.activeId != ""
    ensures var r := DeletePreset(lib, lib.activeId);
      && (|r.presets| == 0 ==> Active(r).None? && r.activeId == "")
      && (|r.presets| > 0 ==> Active(r) == Some(r.presets[0]))
  {
  }
}

=== FILE: requests.dfy ===
/** Request construction for one preset run (src/App.jsx, `runRequest` up to
    the `fetch` call): header normalisation, auth injection, query-string
    building, method and body selection, plus the console's one-line
    summaries. `fetch` itself is not modelled: the result is the request it
    would be given. */
module Requests {
  import opened Optional
  import opened Text
  import opened Json
  import opened Presets

  /** A request's headers, as the JavaScript object handed to `fetch`. */
  type Headers = map<string, Json>

  datatype Body =
    | RawText(text: string)
    /** `JSON.stringify({query, variables})`, kept as its two parts. */
    | GraphqlDocument(query: string, variables: Json)

  datatype Request = Request(url: string, httpMethod: string, headers: Headers, body: Option<Body>)

  /** `normalizeHeaders`: the preset's header text parsed as a JSON object;
      empty text, text that does not parse, and any value that is not a
      plain object (null, an array, a primitive) all give `{}`. */
  function NormalizeHeaders(text: string, parse: Parser): (h: Headers)
    ensures h == map[] || (text != "" && parse(text) == Parsed(JObject(h)))
    ensures text != "" && parse(text).Parsed? && parse(text).value.JObject? ==>
              h == parse(text).value.fields
  {
    if text == "" then map[]
    else match parse(text)
      case Malformed => map[]
      case Parsed(v) => if v.JObject? then v.fields else map[]
  }

  /** The bearer token is attached: the preset wants it and there is one. */
  predicate BearerApplies(p: Preset, auth: Auth) {
    p.WantsBearer() && auth.bearerToken != ""
  }

  /** The API key is attached: the preset wants it and name and value are set. */
  predicate ApiKeyApplies(p: Preset, auth: Auth) {
    p.WantsApiKey() && auth.apiKeyName != "" && auth.apiKeyValue != ""
  }

  /** Adds `Authorization: Bearer <token>` and then `<apiKeyName>: <value>`
      to the preset's headers; each overwrites a same-named key, and the API
      key is written last. */
  function WithAuth(base: Headers, p: Preset, auth: Auth): (h: Headers)
    ensures h.Keys == base.Keys
                      + (if BearerApplies(p, auth) then {"Authorization"} else {})
                      + (if ApiKeyApplies(p, auth) then {auth.apiKeyName} else {})
    ensures ApiKeyApplies(p, auth) ==> h[auth.apiKeyName] == JString(auth.apiKeyValue)
    ensures BearerApplies(p, auth) && !(ApiKeyApplies(p, auth) && auth.apiKeyName == "Authorization") ==>
              h["Authorization"] == JString("Bearer " + auth.bearerToken)
    ensures forall k :: k in base
                        && !(BearerApplies(p, auth) && k == "Authorization")
                        && !(ApiKeyApplies(p, auth) && k == auth.apiKeyName)
                        ==> h[k] == base[k]
  {
    var h1 := if BearerApplies(p, auth) then base["Authorization" := JString("Bearer " + auth.bearerToken)] else base;
    if ApiKeyApplies(p, auth) then h1[auth.apiKeyName := JString(auth.apiKeyValue)] else h1
  }

  /** The headers of a run before any content type is defaulted. */
  function AuthHeaders(p: Preset, auth: Auth, parse: Parser): Headers {
    WithAuth(NormalizeHeaders(p.headers, parse), p, auth)
  }

  /** A query line as sent: trimmed, with `=` appended when it has none. */
  function QueryPair(line: string): (q: string)
    requires !AllSpace(line)
    ensures q != "" && '=' in q && Trimmed(q)
    ensures Trim(line) <= q && |q| <= |Trim(line)| + 1
    ensures q == Trim(line) <==> '=' in Trim(line)
  {
    if '=' in Trim(line) then Trim(line)
    else
      WithEquals(Trim(line));
      Trim(line) + "="
  }

  lemma WithEquals(t: string)
    requires t != "" && Trimmed(t)
    ensures '=' in t + "=" && Trimmed(t + "=")
  {
    assert !IsSpace('=');
    assert (t + "=")[0] == t[0] && (t + "=")[|t|] == '=';
  }

  /** The lines that are not blank, in order (`.filter(Boolean)` after trimming). */
  function NonBlank(lines: seq<string>): (r: seq<string>)
    ensures |r| <= |lines|
    ensures forall k :: 0 <= k < |r| ==> !AllSpace(r[k]) && r[k] in lines
    ensures forall x :: x in lines && !AllSpace(x) ==> x in r
    ensures |r| == 0 <==> forall i :: 0 <= i < |lines| ==> AllSpace(lines[i])
  {
    if |lines| == 0 then []
    else if AllSpace(lines[0]) then NonBlank(lines[1..])
    else [lines[0]] + NonBlank(lines[1..])
  }

  /** One line on its own: kept exactly when it is not blank. */
  lemma NonBlankOne(x: string)
    ensures NonBlank([x]) == if AllSpace(x) then [] else [x]
  {
    assert [x][1..] == [];
  }

  /** Filtering goes piece by piece, so the kept lines stay in their order
      and keep their repeats. */
  lemma {:induction false} NonBlankAppend(a: seq<string>, b: seq<string>)
    ensures NonBlank(a + b) == NonBlank(a) + NonBlank(b)
    decreases |a|
  {
    if |a| == 0 {
      assert a + b == b;
    } else {
      assert (a + b)[0] == a[0] && (a + b)[1..] == a[1..] + b;
      NonBlankAppend(a[1..], b);
    }
  }

  function Pairs(xs: seq<string>): (ps: seq<string>)
    requires forall k :: 0 <= k < |xs| ==> !AllSpace(xs[k])
    ensures |ps| == |xs|
    ensures forall k :: 0 <= k < |ps| ==> ps[k] == QueryPair(xs[k])
  {
    seq(|xs|, k requires 0 <= k < |xs| => QueryPair(xs[k]))
  }

  /** The non-blank lines of the query, each made into a pair: every pair is
      non-empty, trimmed and holds a `=`; pair `k` comes from the `k`-th
      non-blank line. */
  function QueryPairs(lines: seq<string>): (ps: seq<string>)
    ensures |ps| == |NonBlank(lines)|
    ensures forall k :: 0 <= k < |ps| ==> ps[k] == QueryPair(NonBlank(lines)[k])
    ensures forall k :: 0 <= k < |ps| ==> ps[k] != "" && '=' in ps[k] && Trimmed(ps[k])
  {
    Pairs(NonBlank(lines))
  }

  /** The query text with `&` between its pairs. */
  function QueryString(query: string): string {
    Join(QueryPairs(Split(query, '\n')), '&')
  }

  lemma {:induction false} AllSpaceJoin(parts: seq<string>, d: char)
    requires IsSpace(d)
    ensures AllSpace(Join(parts, d)) <==> forall i :: 0 <= i < |parts| ==> AllSpace(parts[i])
    decreases |parts|
  {
    if |parts| > 1 {
      AllSpaceJoin(parts[1..], d);
      var t := Join(parts[1..], d);
      assert Join(parts, d) == parts[0] + ([d] + t);
      AllSpaceConcat(parts[0], [d] + t);
      AllSpaceConcat([d], t);
      assert forall i :: 1 <= i < |parts| ==> parts[i] == parts[1..][i - 1];
    }
  }

  lemma AllSpaceConcat(a: string, b: string)
    ensures AllSpace(a + b) <==> AllSpace(a) && AllSpace(b)
  {
    if AllSpace(a) && AllSpace(b) {
      forall i | 0 <= i < |a + b| ensures IsSpace((a + b)[i]) {
        if i >= |a| {
          assert (a + b)[i] == b[i - |a|];
        }
      }
    }
    if AllSpace(a + b) {
      forall i | 0 <= i < |a| ensures IsSpace(a[i]) {
        assert a[i] == (a + b)[i];
      }
      forall i | 0 <= i < |b| ensures IsSpace(b[i]) {
        assert b[i] == (a + b)[i + |a|];
      }
    }
  }

  /** A query with only white space in it adds no pair. */
  lemma BlankQueryHasNoPairs(query: string)
    ensures QueryPairs(Split(query, '\n')) == [] <==> AllSpace(query)
  {
    JoinSplit(query, '\n');
    AllSpaceJoin(Split(query, '\n'), '\n');
  }

  /** The URL fetched: the trimmed URL, followed, when the query has a
      non-blank line, by `?` (or `&` if the URL already has a `?`) and the
      query string. The query is used whatever the preset's type. */
  function ResolveUrl(url: string, query: string): (r: string)
    ensures AllSpace(query) ==> r == Trim(url)
    ensures !AllSpace(query) ==>
              r == Trim(url) + [if '?' in Trim(url) then '&' else '?'] + QueryString(query)
  {
    var base := Trim(url);
    BlankQueryHasNoPairs(query);
    if query == "" then base
    else
      var qs := QueryString(query);
      assert qs == "" <==> AllSpace(query);
      if qs == "" then base
      else base + [if '?' in base then '&' else '?'] + qs
  }

  lemma QueryPairsAvoid(lines: seq<string>, c: char)
    requires c != '='
    requires forall i :: 0 <= i < |lines| ==> c !in lines[i]
    ensures forall k :: 0 <= k < |QueryPairs(lines)| ==> c !in QueryPairs(lines)[k]
  {
    forall k | 0 <= k < |QueryPairs(lines)| ensures c !in QueryPairs(lines)[k] {
      assert NonBlank(lines)[k] in lines;
      PairAvoids(NonBlank(lines)[k], c);
    }
  }

  lemma PairAvoids(line: string, c: char)
    requires !AllSpace(line) && c != '=' && c !in line
    ensures c !in QueryPair(line)
  {
    TrimKeepsOut(line, c);
  }

  lemma SplitChars(s: string, d: char, c: char)
    requires c !in s
    ensures forall i :: 0 <= i < |Split(s, d)| ==> c !in Split(s, d)[i]
  {
    var parts := Split(s, d);
    forall i | 0 <= i < |parts| ensures c !in parts[i] {
      if c in parts[i] {
        JoinSplit(s, d);
        JoinPieceChars(parts, d, i, c);
        assert false;
      }
    }
  }

  lemma {:induction false} JoinPieceChars(parts: seq<string>, d: char, i: nat, c: char)
    requires i < |parts|
    requires c in parts[i]
    ensures c in Join(parts, d)
    decreases |parts|
  {
    if |parts| > 1 {
      if i > 0 {
        JoinPieceChars(parts[1..], d, i - 1, c);
      }
    }
  }

  /** When no query line holds `&`, splitting what follows the separator on
      `&` gives back exactly the pairs, in order. */
  lemma QueryRoundTrip(url: string, query: string)
    requires !AllSpace(query)
    requires '&' !in query
    ensures var r := ResolveUrl(url, query);
      var n := |Trim(url)|;
      && |r| > n
      && r[n] == (if '?' in Trim(url) then '&' else '?')
      && Split(r[n + 1..], '&') == QueryPairs(Split(query, '\n'))
  {
    var lines := Split(query, '\n');
    var ps := QueryPairs(lines);
    BlankQueryHasNoPairs(query);
    SplitChars(query, '\n', '&');
    QueryPairsAvoid(lines, '&');
    SplitJoin(ps, '&');
    var r := ResolveUrl(url, query);
    assert r[|Trim(url)| + 1..] == QueryString(query);
  }

  /** `preset.method || 'GET'` */
  function MethodOf(p: Preset): string {
    if p.httpMethod == "" then "GET" else p.httpMethod
  }

  /** A REST preset whose method is neither GET nor HEAD. */
  predicate SendsRawBody(p: Preset) {
    p.kind == REST && MethodOf(p) != "GET" && MethodOf(p) != "HEAD"
  }

  /** `safeJsonParse(preset.graphqlVariables || '{}', {})`: the default text
      `{}` is the empty object by the JSON grammar, so only the preset's own
      text goes through the parser. */
  function GraphqlVariables(p: Preset, parse: Parser): (v: Json)
    ensures p.graphqlVariables == "" ==> v == JObject(map[])
    ensures p.graphqlVariables != "" && parse(p.graphqlVariables) == Malformed ==> v == JObject(map[])
    ensures p.graphqlVariables != "" && parse(p.graphqlVariables).Parsed? ==> v == parse(p.graphqlVariables).value
  {
    if p.graphqlVariables == "" then JObject(map[])
    else match parse(p.graphqlVariables)
      case Malformed => JObject(map[])
      case Parsed(v) => v
  }

  /** A content type counts as set when the exact key `content-type` holds a
      truthy value. */
  predicate HasContentType(h: Headers) {
    "content-type" in h && Truthy(h["content-type"])
  }

  function DefaultContentType(h: Headers): (r: Headers)
    ensures HasContentType(r)
    ensures r.Keys == h.Keys + {"content-type"}
    ensures forall k :: k in h && k != "content-type" ==> r[k] == h[k]
    ensures HasContentType(h) ==> r == h
    ensures !HasContentType(h) ==> r["content-type"] == JString("application/json")
  {
    if HasContentType(h) then h else h["content-type" := JString("application/json")]
  }

  /** The request a run issues, or none when the preset has no URL. */
  function BuildRequest(p: Preset, auth: Auth, parse: Parser): (r: Option<Request>)
    ensures r.None? <==> p.url == ""
    ensures r.Some? ==> r.value.url == ResolveUrl(p.url, p.query)
    ensures r.Some? ==> r.value.httpMethod == if p.kind == GraphQL then "POST" else MethodOf(p)
    ensures r.Some? && p.kind == GraphQL ==>
              && r.value.httpMethod == "POST"
              && r.value.body == Some(GraphqlDocument(p.graphqlQuery, GraphqlVariables(p, parse)))
              && r.value.headers == DefaultContentType(AuthHeaders(p, auth, parse))
    ensures r.Some? && SendsRawBody(p) ==>
              && r.value.httpMethod == MethodOf(p)
              && r.value.body == (if p.body == "" then None else Some(RawText(p.body)))
              && r.value.headers == (if p.body == "" then AuthHeaders(p, auth, parse)
                                     else DefaultContentType(AuthHeaders(p, auth, parse)))
    ensures r.Some? && p.kind != GraphQL && !SendsRawBody(p) ==>
              && r.value.httpMethod == MethodOf(p)
              && r.value.body == None
              && r.value.headers == AuthHeaders(p, auth, parse)
  {
    if p.url == "" then None
    else
      var headers := AuthHeaders(p, auth, parse);
      var url := ResolveUrl(p.url, p.query);
      if p.kind == GraphQL then
        Some(Request(url, "POST", DefaultContentType(headers),
                     Some(GraphqlDocument(p.graphqlQuery, GraphqlVariables(p, parse)))))
      else if SendsRawBody(p) then
        if p.body == "" then Some(Request(url, MethodOf(p), headers, None))
        else Some(Request(url, MethodOf(p), DefaultContentType(headers), Some(RawText(p.body))))
      else
        Some(Request(url, MethodOf(p), headers, None))
  }

  /** A GET request never carries a body, whatever the preset's body text. */
  lemma GetSendsNoBody(p: Preset, auth: Auth, parse: Parser)
    requires p.url != "" && p.kind == REST && MethodOf(p) == "GET"
    ensures BuildRequest(p, auth, parse).value.body == None
  {
  }

  /** With the bearer toggle off, a run adds no `Authorization` header of its
      own: one is present only if the preset's headers or the API key name
      put it there. */
  lemma BearerToggleOff(p: Preset, auth: Auth, parse: Parser)
    requires p.url != "" && p.includeBearer == Some(false)
    ensures var h := BuildRequest(p, auth, parse).value.headers;
      "Authorization" in h ==>
        "Authorization" in NormalizeHeaders(p.headers, parse)
        || (ApiKeyApplies(p, auth) && auth.apiKeyName == "Authorization")
  {
  }

  /** `requestSummary` */
  function RequestSummary(active: Option<Preset>): (r: string)
    ensures active.None? ==> r == "No request selected"
    ensures active.Some? ==> var u := active.value.url;
      |r| > |u| && r[|r| - |u|..] == u && r[|r| - |u| - 1] == ' '
    ensures active.Some? && active.value.kind == WebSocket ==> |r| >= 3 && r[..3] == "WS "
    ensures active.Some? && active.value.kind == GraphQL ==> |r| >= 13 && r[..13] == "GraphQL POST "
  {
    match active
    case None => "No request selected"
    case Some(p) =>
      match p.kind
      case WebSocket => "WS " + p.url
      case GraphQL => "GraphQL POST " + p.url
      case REST => MethodOf(p) + " " + p.url
  }

  /** The summary line names the method the run actually uses. */
  lemma SummaryNamesRequestMethod(p: Preset, auth: Auth, parse: Parser)
    requires p.url != "" && p.kind != WebSocket
    ensures RequestSummary(Some(p)) ==
      (if p.kind == GraphQL then "GraphQL " else "") + BuildRequest(p, auth, parse).value.httpMethod + " " + p.url
  {
    if p.kind == GraphQL {
      assert "GraphQL POST " == "GraphQL " + "POST" + " ";
    } else {
      assert "" + MethodOf(p) == MethodOf(p);
    }
  }

  /** `authBadge` */
  function AuthBadge(auth: Auth): (r: string)
    ensures r == "No Auth" <==> auth.bearerToken == "" && auth.apiKeyValue == ""
    ensures r == "Bearer" <==> auth.bearerToken != "" && auth.apiKeyValue == ""
    ensures r == "API Key" <==> auth.bearerToken == "" && auth.apiKeyValue != ""
    ensures r == "Bearer + API Key" <==> auth.bearerToken != "" && auth.apiKeyValue != ""
  {
    if auth.bearerToken != "" && auth.apiKeyValue != "" then "Bearer + API Key"
    else if auth.bearerToken != "" then "Bearer"
    else if auth.apiKeyValue != "" then "API Key"
    else "No Auth"
  }

  /** A "No Auth" badge means no run adds any auth header. */
  lemma NoAuthBadgeMeansNoInjection(auth: Auth, p: Preset, base: Headers)
    requires AuthBadge(auth) == "No Auth"
    ensures WithAuth(base, p, auth) == base
  {
  }

  /** The badge can announce an API key that no run attaches: the badge looks
      only at the key's value, the request also needs a header name. */
  lemma ApiKeyBadgeWithoutHeader(p: Preset, base: Headers)
    requires p.WantsApiKey()
    ensures var auth := Auth("", "", "k");
      AuthBadge(auth) == "API Key" && WithAuth(base, p, auth) == base
  {
  }

  /** `formatDuration` below one second. */
  function FormatDuration(ms: nat): (s: string)
    requires ms < 1000
    ensures |s| >= 4 && s[|s| - 3..] == " ms"
    ensures AllDigits(s[..|s| - 3]) && ParseNat(s[..|s| - 3]) == ms
    ensures s[0] != '0' || s == "0 ms"
  {
    var digits := NatToString(ms);
    NatToStringRoundTrip(ms);
    assert (digits + " ms")[..|digits|] == digits;
    digits + " ms"
  }
}

=== FILE: text.dfy ===
/** String helpers shared by the request console and the two workers:
    JavaScript's notion of white space and `trim`, splitting and joining on
    one character, decimal digits, ASCII lower-casing and literal
    replacement. Strings are sequences of characters. */
module Text {

  /** White space as JavaScript's `trim` and the regex class `\s` see it:
      the WhiteSpace and LineTerminator code points of ECMAScript. */
  predicate IsSpace(c: char) {
    c in Spaces
  }

  const Spaces: set<char> := {
    '\t', '\n', '\U{000B}', '\U{000C}', '\r', ' ', '\U{00A0}', '\U{1680}',
    '\U{2000}', '\U{2001}', '\U{2002}', '\U{2003}', '\U{2004}', '\U{2005}',
    '\U{2006}', '\U{2007}', '\U{2008}', '\U{2009}', '\U{200A}',
    '\U{2028}', '\U{2029}', '\U{202F}', '\U{205F}', '\U{3000}', '\U{FEFF}'}

  predicate NoSpace(s: string) {
    forall i :: 0 <= i < |s| ==> !IsSpace(s[i])
  }

  predicate AllSpace(s: string) {
    forall i :: 0 <= i < |s| ==> IsSpace(s[i])
  }

  /** No white space at either end. */
  predicate Trimmed(s: string) {
    |s| > 0 ==> !IsSpace(s[0]) && !IsSpace(s[|s| - 1])
  }

  function TrimStart(s: string): (r: string)
    ensures |r| <= |s| && r == s[|s| - |r|..]
    ensures |r| > 0 ==> !IsSpace(r[0])
    ensures AllSpace(s[..|s| - |r|])
  {
    if |s| > 0 && IsSpace(s[0]) then TrimStart(s[1..]) else s
  }

  function TrimEnd(s: string): (r: string)
    ensures |r| <= |s| && r == s[..|r|]
    ensures |r| > 0 ==> !IsSpace(r[|r| - 1])
    ensures AllSpace(s[|r|..])
  {
    if |s| > 0 && IsSpace(s[|s| - 1]) then TrimEnd(s[..|s| - 1]) else s
  }

  /** `String.prototype.trim`. */
  function Trim(s: string): (r: string)
    ensures |r| <= |s|
    ensures Trimmed(r)
    ensures r == "" <==> AllSpace(s)
  {
    TrimEmpty(s);
    TrimEnd(TrimStart(s))
  }

  lemma TrimEmpty(s: string)
    ensures TrimEnd(TrimStart(s)) == "" <==> AllSpace(s)
  {
    if TrimEnd(TrimStart(s)) == "" {
      BlankWhenTrimEmpty(s);
    }
  }

  lemma {:induction false} BlankWhenTrimEmpty(s: string)
    requires TrimEnd(TrimStart(s)) == ""
    ensures AllSpace(s)
    decreases |s|
  {
    if |s| > 0 && IsSpace(s[0]) {
      BlankWhenTrimEmpty(s[1..]);
      forall i | 1 <= i < |s| ensures IsSpace(s[i]) {
        assert s[i] == s[1..][i - 1];
      }
    } else {
      assert AllSpace(s[0..]);
      assert s[0..] == s;
    }
  }

  lemma TrimOfTrimmed(s: string)
    requires Trimmed(s)
    ensures Trim(s) == s
  {
  }

  /** `s.split(d)` for a one-character separator: the pieces between the
      separators, always at least one. */
  function Split(s: string, d: char): (parts: seq<string>)
    ensures |parts| >= 1
    ensures forall i :: 0 <= i < |parts| ==> d !in parts[i]
    decreases |s|
  {
    if |s| == 0 then [""]
    else
      var rest := Split(s[1..], d);
      if s[0] == d then [""] + rest
      else [[s[0]] + rest[0]] + rest[1..]
  }

  /** `parts.join(d)`. */
  function Join(parts: seq<string>, d: char): string
  {
    if |parts| == 0 then ""
    else if |parts| == 1 then parts[0]
    else parts[0] + [d] + Join(parts[1..], d)
  }

  /** Joining the pieces of a split gives back the original text. */
  lemma {:induction false} JoinSplit(s: string, d: char)
    ensures Join(Split(s, d), d) == s
    decreases |s|
  {
    if |s| > 0 {
      var rest := Split(s[1..], d);
      JoinSplit(s[1..], d);
      if s[0] == d {
        assert Join([""] + rest, d) == "" + [d] + Join(rest, d) by {
          assert ([""] + rest)[1..] == rest;
        }
        assert s == [d] + s[1..];
      } else {
        var parts := [[s[0]] + rest[0]] + rest[1..];
        if |rest| == 1 {
          assert Join(parts, d) == [s[0]] + rest[0];
        } else {
          assert parts[1..] == rest[1..];
          assert Join(parts, d) == [s[0]] + rest[0] + [d] + Join(rest[1..], d);
        }
        assert s == [s[0]] + s[1..];
      }
    }
  }

  lemma {:induction false} SplitWithout(p: string, d: char)
    requires d !in p
    ensures Split(p, d) == [p]
    decreases |p|
  {
    if |p| > 0 {
      SplitWithout(p[1..], d);
      assert [p[0]] + p[1..] == p;
    }
  }

  lemma {:induction false} SplitAfter(p: string, d: char, t: string)
    requires d !in p
    ensures Split(p + [d] + t, d) == [p] + Split(t, d)
    decreases |p|
  {
    var s := p + [d] + t;
    if |p| == 0 {
      assert s[1..] == t;
    } else {
      assert s[1..] == p[1..] + [d] + t;
      SplitAfter(p[1..], d, t);
      assert [p[0]] + p[1..] == p;
    }
  }

  /** Splitting a join of separator-free pieces gives back the pieces. */
  lemma {:induction false} SplitJoin(parts: seq<string>, d: char)
    requires |parts| >= 1
    requires forall i :: 0 <= i < |parts| ==> d !in parts[i]
    ensures Split(Join(parts, d), d) == parts
    decreases |parts|
  {
    if |parts| == 1 {
      SplitWithout(parts[0], d);
    } else {
      SplitJoin(parts[1..], d);
      SplitAfter(parts[0], d, Join(parts[1..], d));
      assert [parts[0]] + parts[1..] == parts;
    }
  }

  /** Every character of a join is a separator or a character of a piece. */
  lemma {:induction false} JoinChars(parts: seq<string>, d: char, c: char)
    requires c != d
    requires forall i :: 0 <= i < |parts| ==> c !in parts[i]
    ensures c !in Join(parts, d)
    decreases |parts|
  {
    if |parts| > 1 {
      JoinChars(parts[1..], d, c);
    }
  }

  /** The pieces with `.filter(Boolean)` applied: empty strings dropped. */
  function NonEmpty(xs: seq<string>): (r: seq<string>)
    ensures |r| <= |xs|
    ensures forall i :: 0 <= i < |r| ==> r[i] != "" && r[i] in xs
    ensures forall x :: x in xs && x != "" ==> x in r
  {
    if |xs| == 0 then []
    else if xs[0] == "" then NonEmpty(xs[1..])
    else [xs[0]] + NonEmpty(xs[1..])
  }

  lemma {:induction false} NonEmptyAppend(a: seq<string>, b: seq<string>)
    ensures NonEmpty(a + b) == NonEmpty(a) + NonEmpty(b)
    decreases |a|
  {
    if |a| > 0 {
      assert (a + b)[1..] == a[1..] + b;
      NonEmptyAppend(a[1..], b);
    } else {
      assert a + b == b;
    }
  }

  lemma {:induction false} NonEmptyOfNonEmpty(xs: seq<string>)
    requires forall i :: 0 <= i < |xs| ==> xs[i] != ""
    ensures NonEmpty(xs) == xs
    decreases |xs|
  {
    if |xs| > 0 {
      NonEmptyOfNonEmpty(xs[1..]);
      assert xs == [xs[0]] + xs[1..];
    }
  }

  /** `.map(value => value.trim())`. */
  function TrimAll(xs: seq<string>): (r: seq<string>)
    ensures |r| == |xs|
    ensures forall i :: 0 <= i < |r| ==> r[i] == Trim(xs[i])
  {
    if |xs| == 0 then [] else [Trim(xs[0])] + TrimAll(xs[1..])
  }

  /** `trim` cuts white space off both ends and keeps the middle. */
  lemma TrimSlice(s: string) returns (i: nat, j: nat)
    ensures i <= j <= |s| && Trim(s) == s[i..j]
    ensures AllSpace(s[..i]) && AllSpace(s[j..])
  {
    var a := TrimStart(s);
    var r := TrimEnd(a);
    i := |s| - |a|;
    j := i + |r|;
    assert a == s[i..];
    assert r == a[..|r|];
    assert a[..|r|] == s[i..j];
    assert a[|r|..] == s[j..];
  }

  /** Trimming adds no character. */
  lemma TrimKeepsOut(s: string, d: char)
    requires d !in s
    ensures d !in Trim(s)
  {
    var i, j := TrimSlice(s);
    forall k | 0 <= k < j - i ensures s[i..j][k] != d {
      assert s[i..j][k] == s[i + k];
    }
  }

  lemma TrimAllKeepsOut(xs: seq<string>, d: char)
    requires forall i :: 0 <= i < |xs| ==> d !in xs[i]
    ensures forall i :: 0 <= i < |xs| ==> d !in TrimAll(xs)[i] && Trimmed(TrimAll(xs)[i])
  {
    forall i | 0 <= i < |xs| ensures d !in TrimAll(xs)[i] {
      TrimKeepsOut(xs[i], d);
    }
  }

  /** The text with every white-space character removed. */
  function Squeeze(s: string): (r: string)
    ensures NoSpace(r)
    ensures |r| <= |s|
  {
    if |s| == 0 then "" else (if IsSpace(s[0]) then "" else [s[0]]) + Squeeze(s[1..])
  }

  lemma {:induction false} SqueezeAppend(a: string, b: string)
    ensures Squeeze(a + b) == Squeeze(a) + Squeeze(b)
    decreases |a|
  {
    if |a| > 0 {
      assert (a + b)[0] == a[0] && (a + b)[1..] == a[1..] + b;
      SqueezeAppend(a[1..], b);
    } else {
      assert a + b == b;
    }
  }

  lemma {:induction false} SqueezeEmpty(s: string)
    ensures Squeeze(s) == "" <==> AllSpace(s)
    decreases |s|
  {
    if |s| > 0 {
      SqueezeEmpty(s[1..]);
      assert AllSpace(s) <==> IsSpace(s[0]) && AllSpace(s[1..]);
    }
  }

  lemma {:induction false} CountAppend(a: string, b: string, c: char)
    ensures Count(a + b, c) == Count(a, c) + Count(b, c)
    decreases |a|
  {
    if |a| > 0 {
      assert (a + b)[1..] == a[1..] + b;
      CountAppend(a[1..], b, c);
    } else {
      assert a + b == b;
    }
  }

  lemma {:induction false} SqueezeTrimStart(s: string)
    ensures Squeeze(TrimStart(s)) == Squeeze(s)
    decreases |s|
  {
    if |s| > 0 && IsSpace(s[0]) {
      SqueezeTrimStart(s[1..]);
    }
  }

  lemma {:induction false} SqueezeTrimEnd(s: string)
    ensures Squeeze(TrimEnd(s)) == Squeeze(s)
    decreases |s|
  {
    if |s| > 0 && IsSpace(s[|s| - 1]) {
      var n := |s| - 1;
      SqueezeTrimEnd(s[..n]);
      assert s == s[..n] + [s[n]];
      SqueezeAppend(s[..n], [s[n]]);
      assert Squeeze([s[n]]) == "" by {
        assert [s[n]][1..] == [];
      }
    }
  }

  /** `trim` removes nothing but white space. */
  lemma SqueezeTrim(s: string)
    ensures Squeeze(Trim(s)) == Squeeze(s)
  {
    SqueezeTrimStart(s);
    SqueezeTrimEnd(TrimStart(s));
  }

  /** Substring test, `s.includes(sub)`. */
  predicate Contains(s: string, sub: string) {
    sub <= s || (|s| > 0 && Contains(s[1..], sub))
  }

  function Count(s: string, c: char): (n: nat)
    ensures n <= |s|
    ensures n == 0 <==> c !in s
  {
    if |s| == 0 then 0 else (if s[0] == c then 1 else 0) + Count(s[1..], c)
  }

  /** Lower-casing restricted to the ASCII letters. */
  function LowerChar(c: char): char {
    if 'A' <= c <= 'Z' then (c as int + 32) as char else c
  }

  function Lower(s: string): (r: string)
    ensures |r| == |s|
    ensures forall i :: 0 <= i < |s| ==> r[i] == LowerChar(s[i])
  {
    if |s| == 0 then "" else [LowerChar(s[0])] + Lower(s[1..])
  }

  predicate IsDigit(c: char) {
    '0' <= c <= '9'
  }

  predicate AllDigits(s: string) {
    forall i :: 0 <= i < |s| ==> IsDigit(s[i])
  }

  function DigitChar(n: nat): (c: char)
    requires n < 10
    ensures IsDigit(c)
  {
    ('0' as int + n) as char
  }

  function DigitValue(c: char): nat
    requires IsDigit(c)
  {
    c as int - '0' as int
  }

  /** Decimal rendering of a natural number, `String(n)`. */
  function NatToString(n: nat): (s: string)
    ensures |s| >= 1 && AllDigits(s)
    ensures |s| > 1 ==> s[0] != '0'
    decreases n
  {
    if n < 10 then [DigitChar(n)] else NatToString(n / 10) + [DigitChar(n % 10)]
  }

  /** The value of a string of decimal digits. */
  function ParseNat(s: string): nat
    requires AllDigits(s)
  {
    if |s| == 0 then 0 else ParseNat(s[..|s| - 1]) * 10 + DigitValue(s[|s| - 1])
  }

  lemma {:induction false} NatToStringRoundTrip(n: nat)
    ensures ParseNat(NatToString(n)) == n
    decreases n
  {
    if n >= 10 {
      NatToStringRoundTrip(n / 10);
      var s := NatToString(n);
      assert s[..|s| - 1] == NatToString(n / 10);
    }
  }

  lemma {:induction false} ParseNatLeadingZero(s: string)
    requires AllDigits(s)
    ensures AllDigits("0" + s) && ParseNat("0" + s) == ParseNat(s)
    decreases |s|
  {
    if |s| > 0 {
      assert ("0" + s)[..|s|] == "0" + s[..|s| - 1];
      ParseNatLeadingZero(s[..|s| - 1]);
    }
  }

  /** `String(n).padStart(2, "0")`. */
  function Pad2(n: nat): string {
    var s := NatToString(n);
    if |s| < 2 then "0" + s else s
  }

  /** Below 100 the padded form is exactly two digits and reads back as `n`. */
  lemma Pad2RoundTrip(n: nat)
    requires n < 100
    ensures |Pad2(n)| == 2 && AllDigits(Pad2(n))
    ensures ParseNat(Pad2(n)) == n
  {
    var s := NatToString(n);
    NatToStringRoundTrip(n);
    if n >= 10 {
      assert NatToString(n / 10) == [DigitChar(n / 10)];
    } else {
      ParseNatLeadingZero(s);
    }
  }

  /** A global replace of one character by a string, `replace(/c/g, rep)`. */
  function ReplaceChar(s: string, c: char, rep: string): (r: string)
    ensures c !in rep ==> c !in r
  {
    if |s| == 0 then "" else (if s[0] == c then rep else [s[0]]) + ReplaceChar(s[1..], c, rep)
  }

  lemma {:induction false} ReplaceCharAppend(a: string, b: string, c: char, rep: string)
    ensures ReplaceChar(a + b, c, rep) == ReplaceChar(a, c, rep) + ReplaceChar(b, c, rep)
    decreases |a|
  {
    if |a| > 0 {
      assert (a + b)[1..] == a[1..] + b;
      ReplaceCharAppend(a[1..], b, c, rep);
    } else {
      assert a + b == b;
    }
  }

  lemma ReplaceCharSingle(x: char, c: char, rep: string)
    ensures ReplaceChar([x], c, rep) == if x == c then rep else [x]
  {
    assert [x][1..] == [];
  }

  lemma {:induction false} ReplaceCharAbsent(s: string, c: char, rep: string)
    requires c !in s
    ensures ReplaceChar(s, c, rep) == s
    decreases |s|
  {
    if |s| > 0 {
      ReplaceCharAbsent(s[1..], c, rep);
      assert [s[0]] + s[1..] == s;
    }
  }

  /** Left-to-right, non-overlapping replacement of a literal pattern,
      `replace(/pat/g, rep)`. */
  function ReplaceAll(s: string, pat: string, rep: string): string
    requires |pat| > 0
    decreases |s|
  {
    if |s| == 0 then ""
    else if pat <= s then rep + ReplaceAll(s[|pat|..], pat, rep)
    else [s[0]] + ReplaceAll(s[1..], pat, rep)
  }

  /** Text that cannot start the pattern anywhere passes through unchanged. */
  lemma {:induction false} ReplaceAllPassThrough(x: string, t: string, pat: string, rep: string)
    requires |pat| > 0 && pat[0] !in x
    ensures ReplaceAll(x + t, pat, rep) == x + ReplaceAll(t, pat, rep)
    decreases |x|
  {
    if |x| > 0 {
      assert (x + t)[0] == x[0];
      assert !(pat <= x + t);
      assert (x + t)[1..] == x[1..] + t;
      ReplaceAllPassThrough(x[1..], t, pat, rep);
      assert [x[0]] + x[1..] == x;
    } else {
      assert x + t == t;
    }
  }
}

=== FILE: websocket.dfy ===
/** The console's WebSocket side (src/App.jsx): connecting the active preset,
    the four socket event handlers, and sending the preset's message. The
    network is the environment: it decides which socket events happen and
    when, and each event names the socket it fires on. */
module WebSocketSession {
  import opened Optional
  import opened Presets
  import opened Text
  import opened Console

  /** Something that happens to the WebSocket side of the console. */
  datatype Event =
    | Connect
    | Opened(handle: nat, clock: Clock)
    | Message(handle: nat, data: string, clock: Clock)
    | ClosedEvent(handle: nat, clock: Clock)
    | Errored(handle: nat, clock: Clock)
    | Send(clock: Clock)

  /** `{...current, ...fields}`: a handler's update of the response panel.
      Spreading an empty panel keeps only the fields the handler sets. */
  function PatchShown(shown: Shown, status: Option<Status>, ok: Option<bool>, log: seq<WsEntry>): (r: Shown)
    ensures shown.Full? ==> r.Full? && r.record.body == LogBody(log)
    ensures shown.Full? && status.Some? ==> r.record.status == status.value
    ensures shown.Full? && ok.Some? ==> r.record.ok == ok.value
    ensures shown.Full? ==> r.record.id == shown.record.id && r.record.url == shown.record.url
    ensures shown.Full? && status.None? && ok.None? ==> r.record == shown.record.(body := LogBody(log))
    ensures shown.Full? ==>
              r.record.(status := shown.record.status, ok := shown.record.ok, body := shown.record.body) == shown.record
    ensures !shown.Full? ==> r.Fragment? && r.log == log
    ensures !shown.Full? ==> r.status == (if status.Some? then status else if shown.Fragment? then shown.status else None)
    ensures !shown.Full? ==> r.ok == (if ok.Some? then ok else if shown.Fragment? then shown.ok else None)
  {
    match shown
    case Full(e) =>
      Full(e.(status := status.GetOr(e.status), ok := ok.GetOr(e.ok), body := LogBody(log)))
    case Nothing => Fragment(status, ok, log)
    case Fragment(s0, k0, _) =>
      Fragment(if status.Some? then status else s0, if ok.Some? then ok else k0, log)
  }

  /** `connectWebSocket`: without an active preset URL nothing happens;
      otherwise the current socket, if any, is asked to close, a new socket
      starts connecting to the active preset's URL and becomes current, and
      the session log is emptied. */
  function ConnectActive(c: Console): (r: Console)
    ensures r == c.(sockets := r.sockets, current := r.current, wsLog := r.wsLog)
    ensures r.lib == c.lib
    ensures Active(c.lib).None? || Active(c.lib).value.url == "" ==> r == c
    ensures Active(c.lib).Some? && Active(c.lib).value.url != "" ==>
              && r.LiveSocket() == Some(Socket(Active(c.lib).value.url, Active(c.lib).value.name, Connecting))
              && r.current == Some(|c.sockets|) && |r.sockets| == |c.sockets| + 1
              && r.wsLog == [] && r.shown == c.shown && r.history == c.history
              && (forall h :: 0 <= h < |c.sockets| && Some(h) != c.current ==> r.sockets[h] == c.sockets[h])
    ensures Active(c.lib).Some? && Active(c.lib).value.url != "" && c.LiveSocket().Some? ==>
              var prev := c.LiveSocket().value;
              r.sockets[c.current.value] == if prev.ready in {Connecting, Open} then prev.(ready := Closing) else prev
  {
    match Active(c.lib)
    case None => c
    case Some(p) =>
      if p.url == "" then c
      else
        var closed := match c.current
          case Some(h) => if h < |c.sockets| && c.sockets[h].ready in {Connecting, Open}
                          then c.sockets[h := c.sockets[h].(ready := Closing)] else c.sockets
          case None => c.sockets;
        c.(sockets := closed + [Socket(p.url, p.name, Connecting)], current := Some(|c.sockets|), wsLog := [])
  }

  /** The record the `open` handler publishes for the socket it fires on. */
  function OpenRecord(s: Socket, clock: Clock, log: seq<WsEntry>): (e: Record)
    ensures e.status == Marker("OPEN") && e.ok && e.kind == WebSocket && e.body == LogBody(log)
    ensures e.url == s.url && e.name == s.name && e.duration == 0 && e.headers == map[] && e.raw == ""
  {
    Record("ws-" + NatToString(clock.now), s.name, WebSocket, Marker("OPEN"), true, 0, clock.iso,
           LogBody(log), "", map[], s.url)
  }

  predicate IsCurrent(c: Console, handle: nat) {
    c.current == Some(handle)
  }

  /** The socket an event fires on takes the ready state the event implies. */
  function SetReady(c: Console, handle: nat, ready: ReadyState): (r: Console)
    requires handle < |c.sockets|
    ensures |r.sockets| == |c.sockets| && r.sockets[handle].ready == ready
    ensures forall h :: 0 <= h < |c.sockets| && h != handle ==> r.sockets[h] == c.sockets[h]
    ensures r == c.(sockets := r.sockets)
  {
    c.(sockets := c.sockets[handle := c.sockets[handle].(ready := ready)])
  }

  /** A handler that prepends a log entry and patches the panel. */
  function Append(c: Console, entry: WsEntry, status: Option<Status>, ok: Option<bool>): (r: Console)
    ensures r.wsLog == [entry] + c.wsLog
    ensures r.shown == PatchShown(c.shown, status, ok, r.wsLog)
    ensures r == c.(wsLog := r.wsLog, shown := r.shown)
  {
    var log := [entry] + c.wsLog;
    c.(wsLog := log, shown := PatchShown(c.shown, status, ok, log))
  }

  /** `sendWebSocketMessage`: sends the active preset's message when the
      current socket is open and the message is non-empty. The result also
      says what was put on the wire. */
  function SendActive(c: Console, clock: Clock): (r: (Console, Option<string>))
    ensures r.1.Some? <==> c.LiveSocket().Some? && c.LiveSocket().value.ready == Open
                           && Active(c.lib).Some? && Active(c.lib).value.wsMessage != ""
    ensures r.1.Some? ==> r.1.value == Active(c.lib).value.wsMessage
                          && r.0.wsLog == [WsEntry(Sent, r.1.value, clock.iso)] + c.wsLog
    ensures r.1.Some? ==> r.0.shown == PatchShown(c.shown, None, None, r.0.wsLog)
    ensures r.1.None? ==> r.0 == c
    ensures r.0 == c.(wsLog := r.0.wsLog, shown := r.0.shown)
    ensures r.0.lib == c.lib && r.0.sockets == c.sockets && r.0.current == c.current && r.0.history == c.history
  {
    if c.LiveSocket().None? || c.LiveSocket().value.ready != Open then (c, None)
    else match Active(c.lib)
      case None => (c, None)
      case Some(p) =>
        if p.wsMessage == "" then (c, None)
        else (Append(c, WsEntry(Sent, p.wsMessage, clock.iso), None, None), Some(p.wsMessage))
  }

  /** The `open` listener: the socket is open, the log restarts with one
      `WebSocket connected` entry, and the panel shows a fresh `OPEN` record
      for the socket. */
  function OnOpen(c: Console, handle: nat, clock: Clock): (r: Console)
    requires handle < |c.sockets|
    ensures r.wsLog == [WsEntry(System, "WebSocket connected", clock.iso)]
    ensures r.shown == Full(OpenRecord(c.sockets[handle].(ready := Open), clock, r.wsLog))
    ensures |r.sockets| == |c.sockets| && r.sockets[handle] == c.sockets[handle].(ready := Open)
    ensures forall h :: 0 <= h < |c.sockets| && h != handle ==> r.sockets[h] == c.sockets[h]
    ensures r.current == c.current && r.lib == c.lib && r.history == c.history
    ensures r == c.(sockets := r.sockets, wsLog := r.wsLog, shown := r.shown)
  {
    var c1 := SetReady(c, handle, Open);
    var log := [WsEntry(System, "WebSocket connected", clock.iso)];
    c1.(wsLog := log, shown := Full(OpenRecord(c1.sockets[handle], clock, log)))
  }

  /** The `message` listener: the received data is logged first and the
      panel keeps everything but its body, which becomes the log. */
  function OnMessage(c: Console, data: string, clock: Clock): (r: Console)
    ensures r.wsLog == [WsEntry(Received, data, clock.iso)] + c.wsLog
    ensures r.shown == PatchShown(c.shown, None, None, r.wsLog)
    ensures r == c.(wsLog := r.wsLog, shown := r.shown)
    ensures r.sockets == c.sockets && r.current == c.current && r.lib == c.lib && r.history == c.history
  {
    Append(c, WsEntry(Received, data, clock.iso), None, None)
  }

  /** The `close` and `error` listeners: the socket is closed, a system
      entry is logged first, and the panel takes the marker, not ok, and the
      log as its body. */
  function OnEnd(c: Console, handle: nat, message: string, marker: string, clock: Clock): (r: Console)
    requires handle < |c.sockets|
    ensures r.wsLog == [WsEntry(System, message, clock.iso)] + c.wsLog
    ensures r.shown == PatchShown(c.shown, Some(Marker(marker)), Some(false), r.wsLog)
    ensures |r.sockets| == |c.sockets| && r.sockets[handle].ready == Closed
    ensures forall h :: 0 <= h < |c.sockets| && h != handle ==> r.sockets[h] == c.sockets[h]
    ensures r.current == c.current && r.lib == c.lib && r.history == c.history
    ensures r == c.(sockets := r.sockets, wsLog := r.wsLog, shown := r.shown)
  {
    Append(SetReady(c, handle, Closed), WsEntry(System, message, clock.iso), Some(Marker(marker)), Some(false))
  }

  /** The handlers as written: every socket the session created keeps its
      listeners, so an event on a replaced socket still writes into the
      shared session log and the response panel. An event on a socket that
      was never created cannot happen and changes nothing. */
  function Step(c: Console, ev: Event): (r: Console)
    ensures ev.Connect? ==> r == ConnectActive(c)
    ensures ev.Send? ==> r == SendActive(c, ev.clock).0
    ensures ev.Opened? && ev.handle < |c.sockets| ==> r == OnOpen(c, ev.handle, ev.clock)
    ensures ev.Message? && ev.handle < |c.sockets| ==> r == OnMessage(c, ev.data, ev.clock)
    ensures ev.ClosedEvent? && ev.handle < |c.sockets| ==> r == OnEnd(c, ev.handle, "WebSocket closed", "CLOSED", ev.clock)
    ensures ev.Errored? && ev.handle < |c.sockets| ==> r == OnEnd(c, ev.handle, "WebSocket error", "ERROR", ev.clock)
    ensures !ev.Connect? ==> |r.sockets| == |c.sockets|
    ensures (ev.Message? || ev.ClosedEvent? || ev.Errored?) && ev.handle < |c.sockets| ==>
              |r.wsLog| == |c.wsLog| + 1 && r.wsLog[1..] == c.wsLog
    ensures !ev.Connect? && !ev.Send? && ev.handle >= |c.sockets| ==> r == c
    ensures r.current == c.current || ev.Connect?
    ensures r.lib == c.lib && r.history == c.history
    ensures r == c.(sockets := r.sockets, current := r.current, wsLog := r.wsLog, shown := r.shown)
  {
    match ev
    case Connect => ConnectActive(c)
    case Send(clock) => SendActive(c, clock).0
    case Opened(h, clock) => if h >= |c.sockets| then c else OnOpen(c, h, clock)
    case Message(h, data, clock) => if h >= |c.sockets| then c else OnMessage(c, data, clock)
    case ClosedEvent(h, clock) => if h >= |c.sockets| then c else OnEnd(c, h, "WebSocket closed", "CLOSED", clock)
    case Errored(h, clock) => if h >= |c.sockets| then c else OnEnd(c, h, "WebSocket error", "ERROR", clock)
  }

  /** The ready state an event leaves its socket in. */
  function ReadyAfter(ev: Event): ReadyState
    requires !ev.Connect? && !ev.Send?
  {
    match ev
    case Opened(_, _) => Open
    case Message(_, _, _) => Open
    case ClosedEvent(_, _) => Closed
    case Errored(_, _) => Closed
  }

  /** The handlers with the evidently intended guard: an event on a socket
      that is no longer current updates that socket's state and nothing
      else. */
  function StepCurrentOnly(c: Console, ev: Event): (r: Console)
    ensures ev.Connect? || ev.Send? || IsCurrent(c, ev.handle) ==> r == Step(c, ev)
    ensures !ev.Connect? && !ev.Send? && !IsCurrent(c, ev.handle) ==>
              r.shown == c.shown && r.wsLog == c.wsLog && r.current == c.current && r.lib == c.lib
  {
    if ev.Connect? || ev.Send? || IsCurrent(c, ev.handle) then Step(c, ev)
    else if ev.handle >= |c.sockets| then c
    else if ev.Message? then c
    else SetReady(c, ev.handle, ReadyAfter(ev))
  }

  /** What the panel should say while the current socket is open: `OPEN`,
      ok, and the session log as its body. */
  predicate PanelMatchesSocket(c: Console) {
    c.LiveSocket().Some? && c.LiveSocket().value.ready == Open ==>
      c.shown.Full? && c.shown.record.status == Marker("OPEN") && c.shown.record.ok
      && c.shown.record.body == LogBody(c.wsLog)
  }

  /** With the guard, WebSocket events keep the panel in step with the
      current socket. */
  lemma CurrentOnlyKeepsPanel(c: Console, ev: Event)
    requires PanelMatchesSocket(c)
    ensures PanelMatchesSocket(StepCurrentOnly(c, ev))
  {
  }

  function Run(c: Console, events: seq<Event>): Console
    decreases |events|
  {
    if |events| == 0 then c else Run(Step(c, events[0]), events[1..])
  }

  function RunCurrentOnly(c: Console, events: seq<Event>): Console
    decreases |events|
  {
    if |events| == 0 then c else RunCurrentOnly(StepCurrentOnly(c, events[0]), events[1..])
  }

  /** Any sequence of WebSocket events keeps the corrected console's panel in
      step with its socket. */
  lemma {:induction false} CurrentOnlyTraceKeepsPanel(c: Console, events: seq<Event>)
    requires PanelMatchesSocket(c)
    ensures PanelMatchesSocket(RunCurrentOnly(c, events))
    decreases |events|
  {
    if |events| > 0 {
      CurrentOnlyKeepsPanel(c, events[0]);
      CurrentOnlyTraceKeepsPanel(StepCurrentOnly(c, events[0]), events[1..]);
    }
  }

  /** A console that has not connected yet and whose active preset has a URL. */
  predicate ReadyToConnect(c: Console) {
    c.sockets == [] && c.current.None? && Active(c.lib).Some? && Active(c.lib).value.url != ""
  }

  /** Reconnecting while the first socket is open: the second socket opens,
      then the first socket's `close` event arrives. */
  function Reconnect(t: Clock): seq<Event> {
    [Connect, Opened(0, t), Connect, Opened(1, t), ClosedEvent(0, t)]
  }

  /** As written, after that trace the panel says `CLOSED` (not ok) although
      the current socket is open, and the new session's log starts with the
      old socket's farewell. */
  lemma StaleCloseAfterReconnect(c0: Console, t: Clock)
    requires ReadyToConnect(c0)
    ensures var r := Run(c0, Reconnect(t));
      && r.current == Some(1) && |r.sockets| == 2 && r.sockets[1].ready == Open
      && !PanelMatchesSocket(r)
      && r.shown.Full? && r.shown.record.status == Marker("CLOSED")
      && |r.wsLog| > 0 && r.wsLog[0] == WsEntry(System, "WebSocket closed", t.iso)
  {
    var c3 := Step(Step(Step(c0, Connect), Opened(0, t)), Connect);
    SecondConnect(c0, t);
    var c4 := Step(c3, Opened(1, t));
    StaleClose(c4, t);
    ReconnectRun(c0, t);
  }

  /** Connecting, opening and connecting again makes the second socket current. */
  lemma SecondConnect(c0: Console, t: Clock)
    requires ReadyToConnect(c0)
    ensures var c3 := Step(Step(Step(c0, Connect), Opened(0, t)), Connect);
      c3.current == Some(1) && |c3.sockets| == 2
  {
    var c1 := Step(c0, Connect);
    assert c1.current == Some(0) && |c1.sockets| == 1;
  }

  /** The first socket's `close` while the second is current and open. */
  lemma StaleClose(c: Console, t: Clock)
    requires c.current == Some(1) && |c.sockets| == 2 && c.sockets[1].ready == Open && c.shown.Full?
    ensures var r := Step(c, ClosedEvent(0, t));
      && r.current == Some(1) && |r.sockets| == 2 && r.sockets[1].ready == Open
      && !PanelMatchesSocket(r)
      && r.shown.Full? && r.shown.record.status == Marker("CLOSED")
      && |r.wsLog| > 0 && r.wsLog[0] == WsEntry(System, "WebSocket closed", t.iso)
  {
  }

  /** With the guard the same trace leaves the panel saying `OPEN`. */
  lemma ReconnectKeepsPanel(c0: Console, t: Clock)
    requires ReadyToConnect(c0)
    ensures var g := RunCurrentOnly(c0, Reconnect(t));
      && g.current == Some(1) && |g.sockets| == 2 && g.sockets[1].ready == Open
      && PanelMatchesSocket(g)
  {
    CurrentOnlyTraceKeepsPanel(c0, Reconnect(t));
    GuardedReconnectSockets(c0, t);
  }

  lemma GuardedReconnectSockets(c0: Console, t: Clock)
    requires ReadyToConnect(c0)
    ensures var g := RunCurrentOnly(c0, Reconnect(t));
      g.current == Some(1) && |g.sockets| == 2 && g.sockets[1].ready == Open
  {
    var g3 := StepCurrentOnly(StepCurrentOnly(StepCurrentOnly(c0, Connect), Opened(0, t)), Connect);
    GuardedSecondConnect(c0, t);
    var g4 := StepCurrentOnly(g3, Opened(1, t));
    GuardedOpenSecond(g3, t);
    GuardedStaleClose(g4, t);
    GuardedReconnectRun(c0, t);
  }

  lemma GuardedOpenSecond(g: Console, t: Clock)
    requires g.current == Some(1) && |g.sockets| == 2
    ensures var r := StepCurrentOnly(g, Opened(1, t));
      r.current == Some(1) && |r.sockets| == 2 && r.sockets[1].ready == Open
  {
  }

  lemma GuardedStaleClose(g: Console, t: Clock)
    requires g.current == Some(1) && |g.sockets| == 2 && g.sockets[1].ready == Open
    ensures var r := StepCurrentOnly(g, ClosedEvent(0, t));
      r.current == Some(1) && |r.sockets| == 2 && r.sockets[1].ready == Open
  {
  }

  lemma GuardedSecondConnect(c0: Console, t: Clock)
    requires ReadyToConnect(c0)
    ensures var g3 := StepCurrentOnly(StepCurrentOnly(StepCurrentOnly(c0, Connect), Opened(0, t)), Connect);
      g3.current == Some(1) && |g3.sockets| == 2
  {
    var g1 := StepCurrentOnly(c0, Connect);
    assert g1.current == Some(0) && |g1.sockets| == 1;
  }

  lemma ReconnectRun(c0: Console, t: Clock)
    ensures Run(c0, Reconnect(t))
            == Step(Step(Step(Step(Step(c0, Connect), Opened(0, t)), Connect), Opened(1, t)), ClosedEvent(0, t))
  {
    RunFive(c0, Reconnect(t));
  }

  lemma GuardedReconnectRun(c0: Console, t: Clock)
    ensures RunCurrentOnly(c0, Reconnect(t))
            == StepCurrentOnly(StepCurrentOnly(StepCurrentOnly(StepCurrentOnly(StepCurrentOnly(c0, Connect), Opened(0, t)), Connect), Opened(1, t)), ClosedEvent(0, t))
  {
    RunCurrentOnlyFive(c0, Reconnect(t));
  }

  lemma RunFive(c: Console, e: seq<Event>)
    requires |e| == 5
    ensures Run(c, e) == Step(Step(Step(Step(Step(c, e[0]), e[1]), e[2]), e[3]), e[4])
  {
    var c1 := Step(c, e[0]);
    var c2 := Step(c1, e[1]);
    var c3 := Step(c2, e[2]);
    var c4 := Step(c3, e[3]);
    var c5 := Step(c4, e[4]);
    assert Run(c5, e[5..]) == c5;
    assert Run(c4, e[4..]) == c5 by { assert e[4..][1..] == e[5..]; }
    assert Run(c3, e[3..]) == c5 by { assert e[3..][1..] == e[4..]; }
    assert Run(c2, e[2..]) == c5 by { assert e[2..][1..] == e[3..]; }
    assert Run(c1, e[1..]) == c5 by { assert e[1..][1..] == e[2..]; }
  }

  lemma RunCurrentOnlyFive(c: Console, e: seq<Event>)
    requires |e| == 5
    ensures RunCurrentOnly(c, e)
            == StepCurrentOnly(StepCurrentOnly(StepCurrentOnly(StepCurrentOnly(StepCurrentOnly(c, e[0]), e[1]), e[2]), e[3]), e[4])
  {
    var c1 := StepCurrentOnly(c, e[0]);
    var c2 := StepCurrentOnly(c1, e[1]);
    var c3 := StepCurrentOnly(c2, e[2]);
    var c4 := StepCurrentOnly(c3, e[3]);
    var c5 := StepCurrentOnly(c4, e[4]);
    assert RunCurrentOnly(c5, e[5..]) == c5;
    assert RunCurrentOnly(c4, e[4..]) == c5 by { assert e[4..][1..] == e[5..]; }
    assert RunCurrentOnly(c3, e[3..]) == c5 by { assert e[3..][1..] == e[4..]; }
    assert RunCurrentOnly(c2, e[2..]) == c5 by { assert e[2..][1..] == e[3..]; }
    assert RunCurrentOnly(c1, e[1..]) == c5 by { assert e[1..][1..] == e[2..]; }
  }

  /** `a` ends with `b`. */
  predicate EndsWith(a: seq<WsEntry>, b: seq<WsEntry>) {
    |a| >= |b| && a[|a| - |b|..] == b
  }

  /** No event of the run opens a new connection or reports one open. */
  predicate NoRestart(events: seq<Event>) {
    forall i :: 0 <= i < |events| ==> !events[i].Connect? && !events[i].Opened?
  }

  /** Messages, sends, closes and errors only ever add to the front of the
      session log; only a new connection or an `open` event starts it again. */
  lemma {:induction false} LogOnlyGrowsAtFront(c: Console, events: seq<Event>)
    requires NoRestart(events)
    ensures EndsWith(Run(c, events).wsLog, c.wsLog)
    decreases |events|
  {
    if |events| > 0 {
      var c1 := Step(c, events[0]);
      NoRestartSplit(events);
      StepLogGrows(c, events[0]);
      LogOnlyGrowsAtFront(c1, events[1..]);
      SuffixOfSuffix(Run(c1, events[1..]).wsLog, c1.wsLog, c.wsLog);
    }
  }

  lemma NoRestartSplit(events: seq<Event>)
    requires |events| > 0 && NoRestart(events)
    ensures !events[0].Connect? && !events[0].Opened? && NoRestart(events[1..])
  {
    assert forall i :: 0 <= i < |events| - 1 ==> events[1..][i] == events[i + 1];
  }

  /** An event other than a connection or an `open` leaves the session log
      alone or adds one entry at its front. */
  lemma StepLogGrows(c: Console, ev: Event)
    requires !ev.Connect? && !ev.Opened?
    ensures EndsWith(Step(c, ev).wsLog, c.wsLog)
  {
    var r := Step(c, ev);
    if r.wsLog != c.wsLog {
      assert r.wsLog[1..] == c.wsLog;
    }
  }

  lemma SuffixOfSuffix(a: seq<WsEntry>, b: seq<WsEntry>, c: seq<WsEntry>)
    requires EndsWith(a, b) && EndsWith(b, c)
    ensures EndsWith(a, c)
  {
    assert a[|a| - |c|..] == a[|a| - |b|..][|b| - |c|..];
  }
}
